=== FILE: README.md ===
# Frontend Toolbox, modelled in Dafny

Frontend Toolbox is a browser extension with three tools for web developers.
It has an image downloader, a style inspector and a screen recorder, and each
tool opens in a floating panel inside the page. This project models the logic
of those tools and of the release script that bumps the extension's version.
It then proves properties of that model.

The model covers:

- **Image downloader** (`image_collector.dfy`, `image_downloader_panel.dfy`):
  - how an image's type is guessed from its URL;
  - how img tags, CSS background images and inline SVGs are collected, with duplicate URLs removed;
  - the size enrichment and the 16 by 16 pixel filter;
  - download file names, including the SVG fix-up;
  - the sequential download loop;
  - the panel's filter buttons, per-type counts and selection.
- **Style inspector** (`helpers.dfy`, `style_types.dfy`, `style_extractor.dfy`, `style_inspector_panel.dfy`):
  - sorting computed properties into five categories;
  - the CSS selector chosen for an element;
  - recognising Tailwind classes;
  - the generated CSS rule and Tailwind class list;
  - the panel's saved-style list.
- **Screen recorder** (`area_selector.dfy`, `area_cropper.dfy`, `recorder_service.dfy`, `video_recorder_panel.dfy`):
  - dragging out the screen area to record;
  - scaling and clamping that area, and the throttled crop loop;
  - the recording session and its chunk buffer;
  - the stored list of recordings;
  - the recorder panel and its duration clock.
- **Panels** (`panel.dfy`, `panel_manager.dfy`):
  - dragging, resizing and minimizing a panel;
  - which panels are open;
  - where each open panel is placed.
- **Background worker and content-script loading** (`background.dfy`, `content_script.dfy`):
  - the worker's copies of the naming and text generators, and the saved-style handler;
  - the batch download counter;
  - checking whether a page is supported, injecting the content script, and the ping protocol.
- **Release script** (`bump_version.dfy`): parsing, bumping and writing the version.

`common.dfy` and `strings.dfy` hold the generic pieces:

- Option and Result;
- JavaScript `Math.round`;
- filtering with its lemmas;
- prefixes, suffixes and `includes`;
- ASCII lower-casing;
- split and join;
- decimal printing and parsing.

The browser, the DOM, Chrome's extension APIs and the clock are not modelled.
Where the code calls them, the model takes their outcome as a parameter:

- the URL constructor and `isValidUrl`;
- image and file-size probes and base64 encoding;
- `getDisplayMedia`;
- the recorder's events;
- the results of `chrome.tabs` and `chrome.scripting`;
- `Date.now()`;
- the user's answer to a `confirm` dialog.

Mutable component and class state is modelled as Dafny classes whose methods
update their fields. Pure computations are modelled as functions, and loops
as methods with invariants that are proved against those functions.

## Model

| member | source | states |
|---|---|---|
| ImageCollector.ImageTypePriority | src/features/imageDownloader/imageCollector.ts:10-22 | The type of a URL is the first rule, in the order jpeg, png, gif, webp, bmp, tiff, ico, avif, that has a marker in the lower-cased URL. It is "img" exactly when no marker occurs. |
| ImageCollector.ImageTypeIsFirstRule | src/features/imageDownloader/imageCollector.ts:10-22 | The if-chain of getImageType agrees with a first-match reading of the rule table, for every URL. |
| ImageCollector.ImageTypeNames | src/features/imageDownloader/imageCollector.ts:10-22 | The guessed type is one of the nine names. It is never "svg", "background" or a "-bg" type. |
| ImageCollector.ImageType | src/features/imageDownloader/imageCollector.ts:10-22 | getImageType on the lower-cased URL. Its properties are stated by ImageTypePriority, ImageTypeIsFirstRule and ImageTypeNames. |
| ImageCollector.FromImgTag | src/features/imageDownloader/imageCollector.ts:27-37 | An img tag is offered exactly when its source (src, else data-src) is non-empty and valid. The record's url and src are that source, its alt is the tag's alt, and its type is the type guessed from the source. |
| ImageCollector.BackgroundType | src/features/imageDownloader/imageCollector.ts:53-57 | A background image's type is "background" when its URL type is unknown, and otherwise the URL type followed by "-bg". |
| ImageCollector.GroupEnd | src/features/imageDownloader/imageCollector.ts:48-49 | The lazy group of the url(...) pattern ends at the first position where an optional quote and ')' follow. No ')' and no line terminator come before it, and a line terminator first means no match. |
| ImageCollector.UrlGroupAt | src/features/imageDownloader/imageCollector.ts:48-49 | A match at a position starts with "url(", takes the opening quote when the match succeeds with it, and ends at a closing part. The group holds no ')'. |
| ImageCollector.FirstUrlGroup | src/features/imageDownloader/imageCollector.ts:48-49 | The first match is the leftmost one. Its group lies inside the value and holds no ')'. |
| ImageCollector.BackgroundUrl | src/features/imageDownloader/imageCollector.ts:47-50 | An empty or "none" value, a value the pattern does not match, or an empty group gives no URL. A URL found is shorter than the value and holds no ')'. |
| ImageCollector.GroupEndFinds | src/features/imageDownloader/imageCollector.ts:48-49 | When the first closing part at or after a position comes before any line terminator, the group ends there. |
| ImageCollector.BackgroundUrlReadsBack | src/features/imageDownloader/imageCollector.ts:47-50 | url("u"), url('u') and url(u) all yield u, for a URL with no ')', quote or line terminator. |
| ImageCollector.FromBackground | src/features/imageDownloader/imageCollector.ts:50-58 | A background image is offered exactly when its URL is non-empty and valid. The record's url and src are that URL, and its type is the background form of the type guessed from it. |
| ImageCollector.GatherProps | src/features/imageDownloader/imageCollector.ts:26-39 | The tag and background loops keep earlier records in front. No URL is recorded twice, and every offered URL ends up recorded. Each added record is the first one offered with its URL. |
| ImageCollector.Gather | src/features/imageDownloader/imageCollector.ts:26-61 | The de-duplicating append of the two collection loops. Its properties are stated by GatherProps. |
| ImageCollector.AddImgTags | src/features/imageDownloader/imageCollector.ts:25-39 | The img-tag loop computes the de-duplicating gather of the tags' offers. The URL set stays equal to the URLs of the list. |
| ImageCollector.AddBackgrounds | src/features/imageDownloader/imageCollector.ts:42-62 | The background loop finds each element's URL with the url(...) pattern and computes the de-duplicating gather of the offers. It uses the same URL set. |
| ImageCollector.SvgEntry | src/features/imageDownloader/imageCollector.ts:66-85 | An SVG record has type "svg" and is at least 50 by 50 pixels, so the `\|\| 100` fallback never applies. |
| ImageCollector.SvgEntries | src/features/imageDownloader/imageCollector.ts:65-86 | Every SVG with markup yields an "svg" record of at least 50 by 50 pixels, in document order. |
| ImageCollector.AddSvgs | src/features/imageDownloader/imageCollector.ts:65-86 | The SVG loop appends exactly the SVG records after the earlier ones. |
| ImageCollector.Enrich | src/features/imageDownloader/imageCollector.ts:89-116 | Enrichment never changes an image's URL, source, alt text or type. |
| ImageCollector.EnrichAll | src/features/imageDownloader/imageCollector.ts:89-116 | Enrichment keeps the list's length and enriches each record in its place. |
| ImageCollector.EnrichEach | src/features/imageDownloader/imageCollector.ts:89-116 | The in-place enrichment loop yields every record enriched by the SVG rule or the probe rule. |
| ImageCollector.CollectImages | src/features/imageDownloader/imageCollector.ts:5-123 | collectImages returns the collected list: tags, then backgrounds, then SVGs, all enriched, keeping those of at least 16 by 16. |
| ImageCollector.Collected | src/features/imageDownloader/imageCollector.ts:5-123 | What collectImages resolves to. Its properties are stated by CollectedProps, SvgsSurvive and CollectImages. |
| ImageCollector.GatheredNotSvg | src/features/imageDownloader/imageCollector.ts:26-62 | Records from tags and backgrounds have distinct URLs and are never SVG records. |
| ImageCollector.FoundNoRepeat | src/features/imageDownloader/imageCollector.ts:26-86 | Before enrichment, a record repeats an earlier record's URL only when it is an SVG. |
| ImageCollector.ValidSourcesFound | src/features/imageDownloader/imageCollector.ts:25-62 | Every img tag and every background image that has a non-empty, valid URL ends up among the records found, under that URL. |
| ImageCollector.CollectedProps | src/features/imageDownloader/imageCollector.ts:119-122 | Every returned image is at least 16 by 16. No non-SVG image repeats a URL returned before it. |
| ImageCollector.SvgsSurvive | src/features/imageDownloader/imageCollector.ts:91-96 | Every SVG with markup is returned. Its size estimate is three quarters of its data URL's length, rounded. |
| ImageCollector.ImageExtensionLeftmost | src/features/imageDownloader/imageCollector.ts:276-279 | getImageExtension returns the lower-cased extension of the leftmost case-insensitive match of the pattern, or nothing exactly when there is no match. |
| ImageCollector.ImageExtension | src/features/imageDownloader/imageCollector.ts:276-279 | getImageExtension. Its properties are stated by ImageExtensionLeftmost. |
| ImageCollector.DefaultExtension | src/features/imageDownloader/imageCollector.ts:249 | A background image defaults to jpg and any other image to png. |
| ImageCollector.LastSegment | src/features/imageDownloader/imageCollector.ts:256 | The last path segment, or "image", is non-empty and holds no '/'. |
| ImageCollector.ExtensionFor | src/features/imageDownloader/imageCollector.ts:259-264 | A dot-less name gets an extension from the pattern or the default for its type. |
| ImageCollector.FilenameHasDot | src/features/imageDownloader/imageCollector.ts:239-274 | Every generated file name contains a dot, on every branch (svg, blob, parsed URL, unparseable URL). |
| ImageCollector.FilenameFromPath | src/features/imageDownloader/imageCollector.ts:253-267 | For a parseable URL, the name is the last path segment. A dot-less segment gets the pattern's or the default extension. The name never holds '/'. |
| ImageCollector.GenerateFilename | src/features/imageDownloader/imageCollector.ts:239-274 | generateFilename. Its properties are stated by FilenameHasDot, FilenameFromPath and GeneratedSvgNameKept. |
| ImageCollector.RasterEnding | src/features/imageDownloader/imageCollector.ts:148 | Finds which raster extension, if any, ends a name, ignoring case. |
| ImageCollector.SvgFilenameShape | src/features/imageDownloader/imageCollector.ts:147-152 | After the SVG fix-up the name ends in ".svg", or it is unchanged and already has a dot. A raster ending is replaced by ".svg", and a dot-less name gets ".svg" appended. |
| ImageCollector.SvgFilenameIdempotent | src/features/imageDownloader/imageCollector.ts:147-152 | Applying the SVG fix-up twice is the same as applying it once. |
| ImageCollector.SvgFilename | src/features/imageDownloader/imageCollector.ts:147-152 | The SVG fix-up of a file name. Its properties are stated by SvgFilenameShape and SvgFilenameIdempotent. |
| ImageCollector.GeneratedSvgNameKept | src/features/imageDownloader/imageCollector.ts:240-244 | The fix-up never changes a name that generateFilename made for an SVG. |
| ImageCollector.DownloadImages | src/features/imageDownloader/imageCollector.ts:224-237 | downloadImages attempts each image in turn. After each success except the last it pauses 500 ms. |
| ImageCollector.EveryImageAttempted | src/features/imageDownloader/imageCollector.ts:227-236 | A failed download does not stop the loop: every image is attempted. |
| ImageCollector.AttemptsInOrder | src/features/imageDownloader/imageCollector.ts:227-229 | Attempts come in strictly increasing index order. |
| ImageCollector.PausesBetweenImages | src/features/imageDownloader/imageCollector.ts:230-232 | A pause only follows a successful attempt that is not the last one. The steps end with the last attempt. |
| ImageDownloaderPanel.FilteredImages | src/features/imageDownloader/ImageDownloader.tsx:88-96 | An image is shown exactly when the active filter shows its type: "all" shows every type, "background" shows "background" and "-bg" types, and any other key shows exactly that type. |
| ImageDownloaderPanel.CountIsShown | src/features/imageDownloader/ImageDownloader.tsx:20-41 | For every key, the count on a filter button equals the number of images that filter shows. |
| ImageDownloaderPanel.CountAll | src/features/imageDownloader/ImageDownloader.tsx:21 | "all" counts every image, and no count exceeds it. |
| ImageDownloaderPanel.ImageCount | src/features/imageDownloader/ImageDownloader.tsx:20-41 | The count on a filter button. Its properties are stated by CountIsShown and CountAll. |
| ImageDownloaderPanel.AvailableOptionsOffered | src/features/imageDownloader/ImageDownloader.tsx:44-63 | ALL is always offered first. Any other button is offered exactly when its filter shows at least one image. Buttons keep the fixed order. |
| ImageDownloaderPanel.AvailableOptions | src/features/imageDownloader/ImageDownloader.tsx:44-63 | The filter buttons offered. Their properties are stated by AvailableOptionsOffered. |
| ImageDownloaderPanel.FiltersMatchCollector | src/features/imageDownloader/ImageDownloader.tsx:88-96 | Under any button but ALL, an img-tag record is shown only by its own type. A background record is shown only under "background", and an SVG record only under "svg". |
| ImageDownloaderPanel.Panel.ToggleImageSelection | src/features/imageDownloader/ImageDownloader.tsx:98-106 | The URL's selection flips and every other selection is kept. |
| Common.Toggled | src/features/imageDownloader/ImageDownloader.tsx:98-106 | A toggled set holds the element exactly when the old one did not, and every other element is unchanged. The same toggle serves the expansion set in src/features/styleInspector/StyleInspector.tsx:125-133. |
| Common.ToggleTwice | src/features/styleInspector/StyleInspector.tsx:125-133 | Toggling the same element twice restores the set. |
| ImageDownloaderPanel.Panel.SelectAll | src/features/imageDownloader/ImageDownloader.tsx:108-110 | Exactly the URLs of the images shown become selected. |
| ImageDownloaderPanel.Panel.DeselectAll | src/features/imageDownloader/ImageDownloader.tsx:112-114 | Nothing is selected afterwards. |
| ImageDownloaderPanel.Panel.DownloadSelected | src/features/imageDownloader/ImageDownloader.tsx:116-127 | The images sent are exactly the shown images with a selected URL, in display order. There are never more than the filter's count. |
| ImageDownloaderPanel.SelectAllDownloadsShown | src/features/imageDownloader/ImageDownloader.tsx:108-117 | After selectAll, every image shown is downloaded. After deselectAll, none is. |
| Helpers.CategorizeCss | src/utils/helpers.ts:44-71 | The categorising loop builds the categories given by the table order layout, typography, colors, spacing, else others. |
| Helpers.CategoryOf | src/utils/constants.ts:26-46 | The category of a property: the first of layout, typography, colors and spacing whose list holds it, else others. Stated through CategorizedHolds. |
| Helpers.Categorized | src/utils/helpers.ts:44-71 | The categories the loop builds. Their properties are stated by CategorizedHolds, CategorizedKeysDistinct and CategorizedTotal. |
| Helpers.CategorizedHolds | src/utils/constants.ts:26-46 | Each declared property lands in exactly the category its table gives, with its last declared value. The categories hold nothing else. |
| Helpers.CategorizeNothing | src/utils/helpers.ts:45-51 | With no declarations, all five categories exist and are empty. |
| Helpers.CategorizedKeysDistinct | src/utils/helpers.ts:57-67 | No category holds a property twice. |
| Helpers.CategorizedTotal | src/utils/helpers.ts:53-68 | Across the five categories there are as many entries as distinct property names were declared. |
| Helpers.PlaceBucket | src/utils/helpers.ts:57-67 | Placing a declaration assigns only in the category it is placed in, and the other four categories are unchanged. |
| Helpers.ClassPieces | src/utils/helpers.ts:92 | The class pieces are non-empty and hold no space. |
| Helpers.ElementSelector | src/utils/helpers.ts:86-115 | An id gives "#id". Otherwise non-empty class pieces give "." and the pieces joined by ".". Otherwise the selector starts with the lower-cased tag. |
| Helpers.SelectorByType | src/utils/helpers.ts:98-114 | Without an id or classes, the selector is the lower-cased tag. When the parent has several children of that type, ":nth-of-type(k)" is added, and the k-th child of that type is the element itself. |
| Helpers.ClassSelectorReadsBack | src/utils/helpers.ts:91-95 | When no class holds '.', the class selector splits back into the element's class pieces. |
| StyleTypes.Lookup | src/types/index.ts:14-20 | A key reads a value exactly when the record has it, and that entry is in the record. |
| StyleTypes.Put | src/utils/helpers.ts:58 | Assigning keeps the key order and appends a new key at the end. |
| StyleTypes.PutLookup | src/utils/helpers.ts:58 | After an assignment the key reads the new value, and every other key reads as before. |
| StyleExtractor.ExtractTailwindClasses | src/features/styleInspector/styleExtractor.ts:233-257 | A class is kept exactly when it is in the class list and matches one of the listed patterns. |
| StyleExtractor.IsTailwindClass | src/features/styleInspector/styleExtractor.ts:237-252 | The extraction patterns, written out one by one. Stated through ExtractTailwindClasses and ConvertedClassesRecognised. |
| StyleExtractor.ExtractKeepsOrder | src/features/styleInspector/styleExtractor.ts:254-256 | Extraction keeps the class-list order: extracting from two halves and concatenating gives the same list. |
| StyleExtractor.CssText | src/features/styleInspector/styleExtractor.ts:259-285 | The rule starts with the selector and " {" and ends with "}". |
| StyleExtractor.GenerateCss | src/features/styleInspector/styleExtractor.ts:259-285 | generateCSS writes the header, the first pass, the second pass and the closing brace of the rule. |
| StyleExtractor.WriteFirstPass | src/features/styleInspector/styleExtractor.ts:266-272 | The first pass writes the eight important properties in list order, across the categories. |
| StyleExtractor.WriteSecondPass | src/features/styleInspector/styleExtractor.ts:275-281 | The second pass writes, category by category, every other non-empty entry. |
| StyleExtractor.FirstPassMembers | src/features/styleInspector/styleExtractor.ts:264-272 | A declaration is in the first pass exactly when its property is important, its value is non-empty and some category holds it. |
| StyleExtractor.SecondPassMembers | src/features/styleInspector/styleExtractor.ts:275-281 | A declaration is in the second pass exactly when it passes that test and some category holds it. Nothing is written by both passes. |
| StyleExtractor.RuleImportantOrder | src/features/styleInspector/styleExtractor.ts:264-272 | The important declarations come in the order of the important-property list. |
| StyleExtractor.FirstPassInListOrder | src/features/styleInspector/styleExtractor.ts:266-272 | For any list of distinct properties, the first pass follows that list's order. |
| StyleExtractor.RenderReadsBack | src/features/styleInspector/styleExtractor.ts:270 | The written declarations read back line by line into the same declarations, when names hold no ':' and nothing holds a line break. |
| StyleExtractor.ConvertOnlyTables | src/features/styleInspector/styleExtractor.ts:292-328 | Only display, text-align and font-weight have converters, and each produces a class from its table. |
| StyleExtractor.Convert | src/features/styleInspector/styleExtractor.ts:292-328 | The converter for one declaration. Its properties are stated by ConvertOnlyTables. |
| StyleExtractor.GenerateTailwindClasses | src/features/styleInspector/styleExtractor.ts:287-343 | generateTailwindClasses joins, with spaces, the element's classes followed by the converted ones. |
| StyleExtractor.TailwindListProps | src/features/styleInspector/styleExtractor.ts:330-340 | The existing classes stay first. A converted class is added once, only if it is not already present. |
| StyleExtractor.TailwindClassesShape | src/features/styleInspector/styleExtractor.ts:287-343 | The element's classes come first, in order. The added classes are distinct, new, from the tables, and each is produced by some declaration. |
| StyleExtractor.TailwindClassesComplete | src/features/styleInspector/styleExtractor.ts:330-340 | Every class a declaration converts to appears in the output. |
| StyleExtractor.TailwindClasses | src/features/styleInspector/styleExtractor.ts:287-341 | The class list before joining. Its properties are stated by TailwindListProps, TailwindClassesShape and TailwindClassesComplete. |
| StyleExtractor.TailwindTextSplitsBack | src/features/styleInspector/styleExtractor.ts:342 | When no existing class holds a space, the joined text splits back into the class list. |
| StyleExtractor.ConvertedClassesRecognised | src/features/styleInspector/styleExtractor.ts:237-252 | A generated class is recognised by the extraction patterns except the display classes block, inline, inline-block, inline-flex and hidden. |
| StyleInspectorPanel.WithoutStyle | src/features/styleInspector/StyleInspector.tsx:118 | Deleting keeps exactly the styles with another id. |
| StyleInspectorPanel.DeleteKeepsOthers | src/features/styleInspector/StyleInspector.tsx:117-123 | Deleting keeps the other styles in order, and deleting twice is deleting once. |
| StyleInspectorPanel.DeleteAbsent | src/features/styleInspector/StyleInspector.tsx:117-123 | Deleting an id that no saved style has changes nothing. |
| StyleInspectorPanel.Panel.constructor | src/features/styleInspector/StyleInspector.tsx:13-19 | A fresh panel is not inspecting and shows nothing. Its count matches its list. |
| StyleInspectorPanel.Panel.LoadSavedStyles | src/features/styleInspector/StyleInspector.tsx:64-70 | The list shown becomes the stored list, and the count becomes its length. |
| StyleInspectorPanel.Panel.StyleExtracted | src/features/styleInspector/StyleInspector.tsx:25-31 | The extracted data is shown and the inspection ends. |
| StyleInspectorPanel.Panel.StylesSaved | src/features/styleInspector/StyleInspector.tsx:32-37 | The list and count become the list that was sent. |
| StyleInspectorPanel.Panel.HoverInfo | src/features/styleInspector/StyleInspector.tsx:43-44 | The hover description becomes the one that was sent. |
| StyleInspectorPanel.Panel.InspectionStopped | src/features/styleInspector/StyleInspector.tsx:45-48 | Inspection stops and the hover description is cleared. |
| StyleInspectorPanel.Panel.SetInspecting | src/features/styleInspector/StyleInspector.tsx:72-93 | The inspecting flag follows a start or stop request only when the request was delivered. |
| StyleInspectorPanel.Panel.ClearSavedStyles | src/features/styleInspector/StyleInspector.tsx:106-115 | Once confirmed, the storage, list, count and extracted data are cleared. Without confirmation nothing changes. |
| StyleInspectorPanel.Panel.DeleteSavedStyle | src/features/styleInspector/StyleInspector.tsx:117-123 | The list without that id is written to storage and shown, and the count matches it. |
| StyleInspectorPanel.Panel.ToggleStyleExpansion | src/features/styleInspector/StyleInspector.tsx:125-133 | Only that style's expanded flag flips. |
| StyleInspectorPanel.DeleteThenReload | src/features/styleInspector/StyleInspector.tsx:64-123 | After a delete and a reload, the shown list is the stored list without that id, and the count matches it. |
| AreaSelector.Spanned | src/features/videoRecorder/AreaSelector.tsx:28-31 | The rectangle has non-negative size, and its corners are the drag's two corners. |
| AreaSelector.SpannedFromAnyCorner | src/features/videoRecorder/AreaSelector.tsx:28-31 | The rectangle is the same whichever corner the drag starts from. |
| AreaSelector.SpannedCovers | src/features/videoRecorder/AreaSelector.tsx:28-31 | The rectangle covers exactly the points between the two corners. |
| AreaSelector.Selector.constructor | src/features/videoRecorder/AreaSelector.tsx:10-12 | The overlay starts with no selection and both points at the origin. |
| AreaSelector.Selector.MouseDown | src/features/videoRecorder/AreaSelector.tsx:14-18 | A selection starts with both corners at the pointer. |
| AreaSelector.Selector.MouseMove | src/features/videoRecorder/AreaSelector.tsx:20-24 | The moving corner follows the pointer only while selecting. |
| AreaSelector.Selector.MouseUp | src/features/videoRecorder/AreaSelector.tsx:26-39 | A selection in progress ends, and its rectangle is reported when it is wider and taller than 10. Without a selection nothing is reported. |
| AreaSelector.Selector.KeyDown | src/features/videoRecorder/AreaSelector.tsx:41-52 | Escape asks to cancel exactly when the overlay is visible. The listener leaves the drag state as it was. |
| AreaSelector.Drag | src/features/videoRecorder/AreaSelector.tsx:14-39 | A whole drag reports the rectangle from the press to the last pointer position, when it is large enough. |
| AreaSelector.DragWithKey | src/features/videoRecorder/AreaSelector.tsx:14-52 | A key pressed at any point of a drag asks to cancel exactly when it is Escape and the overlay is visible. The release still reports the same area as the drag without the key. |
| AreaCropper.ScaledCropArea | src/features/videoRecorder/AreaCropper.ts:227-248 | x and width scale by the video/viewport width ratio, and y and height by the height ratio, each rounded. |
| AreaCropper.ScaleByWholeFactor | src/features/videoRecorder/AreaCropper.ts:227-248 | With a whole scale factor on each axis, scaling multiplies exactly. |
| AreaCropper.ScaleIdentity | src/features/videoRecorder/AreaCropper.ts:227-248 | Equal viewport and video sizes leave the rectangle unchanged. |
| AreaCropper.ClampToFrame | src/features/videoRecorder/AreaCropper.ts:84-87 | The clamped crop always passes the per-frame validity test of lines 125-131. A crop that already passes is unchanged. |
| AreaCropper.ClampIdempotent | src/features/videoRecorder/AreaCropper.ts:84-87 | Clamping twice is clamping once. |
| AreaCropper.PaintedFrame | src/features/videoRecorder/AreaCropper.ts:119-192 | The frame one due callback paints: "loading" when the video is not ready, "Invalid Bounds" when the crop is outside the frame, "error" when drawing throws, else the crop. Stated through Cropper.Tick. |
| AreaCropper.PaintTimes | src/features/videoRecorder/AreaCropper.ts:116-118 | The timestamps at which the loop paints. Stated through PaintTimesSnoc, PaintTimesBound and Cropper.RunCallbacks. |
| AreaCropper.LastPaint | src/features/videoRecorder/AreaCropper.ts:118-194 | The reference time after a run of callbacks. Stated through PaintTimesSnoc and Cropper.RunCallbacks. |
| AreaCropper.PaintTimesSnoc | src/features/videoRecorder/AreaCropper.ts:116-118 | One more callback paints exactly when it is due against the time of the last paint before it, and then becomes the reference. |
| AreaCropper.PaintTimesBound | src/features/videoRecorder/AreaCropper.ts:116-118 | Painted frames are at least one interval apart, so over any time span at most span/interval frames are painted. Cropper.RunCallbacks ties this to the Tick loop. |
| AreaCropper.ThirtyFpsOneSecond | src/features/videoRecorder/AreaCropper.ts:21 | At 30 fps, at most 30 frames are painted in one second. Cropper.RunCallbacks applies this to the frames the Tick loop paints. |
| AreaCropper.Times | src/features/videoRecorder/AreaCropper.ts:116 | The timestamps of a run of callbacks, one per callback, in order. |
| AreaCropper.Cropper.constructor | src/features/videoRecorder/AreaCropper.ts:18-43 | The canvas takes the area's size. The hidden video and canvas are attached. Nothing is painted or scheduled. |
| AreaCropper.Cropper.OnLoadedMetadata | src/features/videoRecorder/AreaCropper.ts:52-107 | A zero native size rejects and changes nothing. Otherwise the crop is scaled and clamped, the canvas takes its size, the loop starts, and the stream has the canvas size and fps. |
| AreaCropper.Cropper.OnVideoError | src/features/videoRecorder/AreaCropper.ts:109-111 | A video that fails to load rejects with the stream-load error. The handler at lines 47-50 is replaced before any event fires. |
| AreaCropper.Cropper.Tick | src/features/videoRecorder/AreaCropper.ts:116-198 | The crop is checked against the video's size as read during this callback, which is recorded as the video's current size. A callback inside the interval only reschedules. A due callback paints "loading", the crop or "error" and advances the reference time. A crop that does not fit the current size paints "Invalid Bounds" and ends the loop. |
| AreaCropper.Cropper.RunCallbacks | src/features/videoRecorder/AreaCropper.ts:116-198 | Processing a run of callbacks with Tick, while the crop fits the video's size as each callback reads it, keeps the loop scheduled and the earlier frames. It paints exactly one frame per timestamp of PaintTimes, never "Invalid Bounds", and leaves the reference at the last paint. At 30 fps, callbacks within one second of the reference paint at most 30 frames. |
| AreaCropper.Cropper.Stop | src/features/videoRecorder/AreaCropper.ts:203-218 | The pending frame is cancelled, the hidden elements are removed, and a second stop changes nothing. |
| AreaCropper.Cropper.UpdateCropArea | src/features/videoRecorder/AreaCropper.ts:220-224 | The crop and canvas follow the new rectangle. It is valid exactly when it lies in the frame. |
| AreaCropper.StartThenTick | src/features/videoRecorder/AreaCropper.ts:52-198 | After a successful start, the first due callback paints the clamped crop. It has the canvas size and lies in the video frame. |
| AreaCropper.ShrunkVideoEndsLoop | src/features/videoRecorder/AreaCropper.ts:52-131 | A crop that fitted when the stream started, but that the video no longer holds at a later due callback, paints "Invalid Bounds" and ends the loop. |
| RecorderService.AcquisitionError | src/features/videoRecorder/videoRecorderService.ts:90-97 | NotAllowedError means permission denied and NotFoundError means no capture device. Any other failure keeps its message. |
| RecorderService.EmptyChunksDoNotCount | src/features/videoRecorder/videoRecorderService.ts:31-35 | Dropping empty chunks does not change the recording's size. |
| RecorderService.WithoutId | src/features/videoRecorder/videoRecorderService.ts:144-148 | Exactly the recordings with another id are kept. |
| RecorderService.DeleteKeepsOrder | src/features/videoRecorder/videoRecorderService.ts:144-148 | Deleting keeps the others in order, and deleting twice is deleting once. |
| RecorderService.Session.constructor | src/features/videoRecorder/videoRecorderService.ts:5-8 | No recorder, no stream, no chunks and start time 0, over the stored list. |
| RecorderService.Session.StartRecording | src/features/videoRecorder/videoRecorderService.ts:10-48 | A rejected capture fails with the mapped error and changes nothing. When the recorder refuses the VP9 WebM type, the start fails with that error. The stream is kept, and the recorder, buffer and start time are unchanged. Otherwise it empties the buffer, records the start time and starts recording with a 1000 ms slice. |
| RecorderService.Session.OnDataAvailable | src/features/videoRecorder/videoRecorderService.ts:31-35 | Only non-empty chunks are buffered, in arrival order. |
| RecorderService.Session.StopRecording | src/features/videoRecorder/videoRecorderService.ts:50-74 | Without an active recorder it fails with "no active recording". Otherwise the recorder becomes inactive and the stream stops. |
| RecorderService.TotalSizeOfNonEmpty | src/features/videoRecorder/videoRecorderService.ts:31-35 | When only non-empty chunks are buffered, the total is at least the number of chunks, and it is 0 exactly when there are none. |
| RecorderService.Session.OnStop | src/features/videoRecorder/videoRecorderService.ts:101-120 | The stop event finds the recorder inactive, whether stopRecording stopped it or the shared tracks ended. The recording's duration is the time since the start, and its size is the total of the buffered chunks. Because only non-empty chunks are buffered, the size is at least the chunk count and is 0 exactly when no data arrived. It is appended to storage. |
| RecorderService.Session.GetRecordingDuration | src/features/videoRecorder/videoRecorderService.ts:170-173 | The duration is 0 unless recording, and otherwise the time since the start. |
| RecorderService.Session.DeleteRecording | src/features/videoRecorder/videoRecorderService.ts:144-148 | The stored list keeps the recordings with another id. |
| RecorderService.RecordOnce | src/features/videoRecorder/videoRecorderService.ts:10-120 | A whole session appends one recording whose size is the total of all chunks emitted and whose duration is stop time minus start time. A second stop fails. |
| RecorderService.UnsupportedStart | src/features/videoRecorder/videoRecorderService.ts:10-55 | When the recorder cannot be built, the start fails, a following stopRecording is rejected with no active recording, and the captured stream is left open. |
| RecorderService.RecordUntilSharingEnds | src/features/videoRecorder/videoRecorderService.ts:10-173 | When the user ends the screen share instead of calling stopRecording, the recorder stops by itself. The duration ran from the start while recording. One recording holding every emitted byte is stored. Afterwards the duration is 0 and stopRecording is rejected with no active recording. |
| VideoRecorderPanel.ClockFields | src/features/videoRecorder/VideoRecorder.tsx:95-104 | The clock has three fields from one hour on and two below. |
| VideoRecorderPanel.FormatDuration | src/features/videoRecorder/VideoRecorder.tsx:95-104 | The clock text. Its properties are stated by ClockFields, FormatDurationShape, FormatDurationReadsBack and FormatDurationSameSeconds. |
| VideoRecorderPanel.FormatDurationShape | src/features/videoRecorder/VideoRecorder.tsx:95-104 | The first field is a number. The later fields are two digits below 60. |
| VideoRecorderPanel.FormatDurationReadsBack | src/features/videoRecorder/VideoRecorder.tsx:95-104 | Reading the clock text back gives the whole seconds of the duration. |
| VideoRecorderPanel.FormatDurationSameSeconds | src/features/videoRecorder/VideoRecorder.tsx:95-104 | Two durations print alike exactly when they have the same whole seconds. |
| VideoRecorderPanel.Panel.constructor | src/features/videoRecorder/VideoRecorder.tsx:13-15 | The panel starts not recording, with no recordings and duration 0. |
| VideoRecorderPanel.Panel.LoadRecordings | src/features/videoRecorder/VideoRecorder.tsx:43-50 | The stored list is shown. A failed read keeps the list. |
| VideoRecorderPanel.Panel.StartRecording | src/features/videoRecorder/VideoRecorder.tsx:52-60 | The panel records once the service has started. A failure changes nothing. |
| VideoRecorderPanel.Panel.PollDuration | src/features/videoRecorder/VideoRecorder.tsx:27-41 | While recording, the duration shown follows the service's duration. |
| VideoRecorderPanel.Panel.StopRecording | src/features/videoRecorder/VideoRecorder.tsx:62-72 | A stopped recording goes to the front of the list and the duration resets. On failure the list and duration stay. Either way recording ends. |
| VideoRecorderPanel.Panel.DeleteRecording | src/features/videoRecorder/VideoRecorder.tsx:83-93 | Only when the user confirms and the service succeeds, the recordings with that id leave the list. |
| VideoRecorderPanel.PanelMatchesStore | src/features/videoRecorder/VideoRecorder.tsx:67-87 | The panel's list and the stored list keep the same recordings through a stop (prepended in one, appended in the other) and through a delete. |
| PanelFrame.KeepInView | src/components/Panel.tsx:52-60 | A dragged coordinate stays in the viewport range and is unchanged when already inside it. |
| PanelFrame.KeepInViewIdempotent | src/components/Panel.tsx:58-60 | Keeping a coordinate in view twice is keeping it once. |
| PanelFrame.KeepInViewMonotone | src/components/Panel.tsx:58-60 | Dragging further never moves the panel back. |
| PanelFrame.Resized | src/components/Panel.tsx:63-67 | A resized side follows the pointer but never goes below its minimum. |
| PanelFrame.DefaultPosition | src/components/Panel.tsx:29-32 | The default position is 20 from the top, at least 20 from the left, and 20 from the right when it fits. |
| PanelFrame.Panel.constructor | src/components/Panel.tsx:19-43 | Each prop not given takes its default: width 400, height 600, minimum width 300, minimum height 400, draggable and resizable. The panel starts at the given position, or the default one for the width in effect, not dragging, resizing or stored as minimized. |
| PanelFrame.Panel.MouseDown | src/components/Panel.tsx:87-95 | A draggable panel starts a drag, remembering the pointer's offset. Otherwise nothing changes. |
| PanelFrame.Panel.ResizeMouseDown | src/components/Panel.tsx:97-108 | A resizable panel starts a resize from the pointer and the current size. Otherwise nothing changes. |
| PanelFrame.Panel.MouseMove | src/components/Panel.tsx:48-69 | While dragging, the panel follows the pointer within the viewport. While resizing, each side follows the pointer down to its minimum. Otherwise nothing changes. |
| PanelFrame.Panel.MouseUp | src/components/Panel.tsx:71-74 | Both the drag and the resize end. |
| PanelFrame.Panel.ShownPosition | src/components/Panel.tsx:120-122 | While minimized the panel is shown at its stored minimized position, or, when none is stored yet, 300 from the right edge and 20 from the top. Otherwise it is shown at its own position. |
| PanelFrame.Panel.MinimizedChanged | src/components/Panel.tsx:125-133 | The first minimized render stores the top-right corner, and later ones keep it. Restoring clears it. |
| PanelFrame.Drag | src/components/Panel.tsx:48-95 | A drag moves the panel by the pointer's travel when that keeps it in view. Otherwise it stops at the viewport's edge. |
| PanelFrame.MinimizeRestore | src/components/Panel.tsx:111-133 | While minimized, the panel sits at the corner stored first, even if the window is later resized. Once restored, it sits at its own position. |
| PanelManager.With | src/content/PanelManager.tsx:50-65 | Setting one panel's flags leaves the other two unchanged. |
| PanelManager.PanelPosition | src/content/PanelManager.tsx:68-79 | The n-th panel is 30n lower and 30n further left than the first, which is 20 from the top right, but never closer than 20 to the left edge. |
| PanelManager.PositionsStagger | src/content/PanelManager.tsx:68-79 | Later panels sit lower and never further right. |
| PanelManager.OpenPanels | src/content/PanelManager.tsx:81-137 | A panel is rendered exactly when it is open, and no panel is rendered twice. |
| PanelManager.Manager.constructor | src/content/PanelManager.tsx:15-19 | Every panel starts closed. |
| PanelManager.Manager.HandleMessage | src/content/PanelManager.tsx:21-48 | An open message opens its panel, not minimized, and leaves the others alone. Any other action changes nothing. |
| PanelManager.Manager.ClosePanel | src/content/PanelManager.tsx:50-55 | That panel is closed and not minimized, and the others are unchanged. |
| PanelManager.Manager.ToggleMinimize | src/content/PanelManager.tsx:57-65 | Only that panel's minimized flag flips. |
| PanelManager.Manager.Render | src/content/PanelManager.tsx:81-137 | The open panels are rendered in fixed order, the k-th at the k-th staggered position with its own width. |
| PanelManager.Minimized | src/content/PanelManager.tsx:57-65 | Minimizing flips one flag and keeps the panel open or closed. |
| PanelManager.MinimizeTwice | src/content/PanelManager.tsx:57-65 | Toggling twice restores the state. |
| PanelManager.CloseHides | src/content/PanelManager.tsx:50-55 | Closing ignores the previous flags and hides the panel. |
| PanelManager.OpenShows | src/content/PanelManager.tsx:21-48 | An opened panel is rendered. |
| PanelManager.RenderedRowsDistinct | src/content/PanelManager.tsx:81-137 | No two rendered panels start at the same height, and every one is at least 20 from the left edge. |
| Background.ExtensionCopiesAgree | src/background/index.ts:295-299 | The worker's getImageExtension agrees with the collector's on every URL. |
| Background.WorkerImageExtension | src/background/index.ts:295-299 | The worker's getImageExtension. Stated through ExtensionCopiesAgree. |
| Background.FilenameCopiesAgree | src/background/index.ts:262-293 | For an image with a source, the worker names it as the collector does. |
| Background.FilenameWithoutSource | src/background/index.ts:262-293 | Without a source, the worker names the image by its URL. |
| Background.ImageFilename | src/background/index.ts:262-293 | The worker's file name for an image. Stated through FilenameCopiesAgree and FilenameWithoutSource. |
| Background.CssFromStyleData | src/background/index.ts:301-327 | The worker's CSS rule is the extractor's rule, with the selector header and closing brace. |
| Background.TailwindFromStyleData | src/background/index.ts:329-385 | The worker's Tailwind text is the extractor's class list joined by spaces. |
| Background.StyleExtracted | src/background/index.ts:170-186 | The saved list gains exactly one style at its end, carrying the element's selector, properties, CSS and Tailwind text. |
| Background.Requests | src/background/index.ts:397-421 | The k-th image is downloaded after k times 200 ms, from its src (else its url), under the worker's file name for it. |
| Background.BatchDownload.constructor | src/background/index.ts:387-422 | An empty list is answered at once with zero counts. Otherwise nothing has been answered yet. |
| Background.BatchDownload.OnDownloaded | src/background/index.ts:404-419 | Each callback counts one success or one error, and the answer is sent when the counts reach the total. |
| Background.DownloadBatch | src/background/index.ts:387-423 | Whatever order the callbacks arrive in, exactly one answer is sent, with the numbers of successes and failures. |
| ContentScript.Recover | src/utils/contentScript.ts:18-45 | An unsupported-page error is passed on. Any other failure leads to one injection. |
| ContentScript.UnsupportedPageNotTouched | src/utils/contentScript.ts:10-13 | A tab with no URL or an unsupported one fails with the unsupported-page error, before any ping or injection. |
| ContentScript.AnsweringPageLoaded | src/utils/contentScript.ts:15-17 | A supported page that answers the first ping is loaded without injection. |
| ContentScript.InjectAfterFailedPing | src/utils/contentScript.ts:25-44 | After an ordinary failed ping, the script is injected once. The result is whether the injection and the second ping both worked. |
| ContentScript.LoadingBounds | src/utils/contentScript.ts:7-46 | At most two pings are sent. Injection happens only after a failure and only on a supported page. Success needs a ping answered. |
| ContentScript.EnsureLoaded | src/utils/contentScript.ts:7-46 | ensureContentScriptLoaded for given outcomes of the tab query, the pings and the injection. Stated through UnsupportedPageNotTouched, AnsweringPageLoaded, InjectAfterFailedPing and LoadingBounds. |
| ContentScript.SendMessage | src/utils/contentScript.ts:48-55 | The message is forwarded exactly when loading succeeded, and the call then settles with the content script's reply or the send's rejection. A failed load throws the not-loaded error, and a loading error is passed on, both without forwarding. |
| ContentScript.SupportedUrlExamples | src/utils/contentScript.ts:1-5 | Browser and extension pages are refused and ordinary web pages are not. |
| ContentScript.IsSupportedUrl | src/utils/contentScript.ts:1-5 | The page check: a URL is supported exactly when it starts with none of chrome:, chrome-extension:, moz-extension:, edge: and about:. Stated through SupportedUrlExamples. |
| BumpVersion.BumpOf | scripts/bump-version.js:6 | "major" and "minor" pick their part. Anything else, or no argument, is a patch bump. |
| BumpVersion.Bumped | scripts/bump-version.js:20-34 | Parts above the bumped one are kept, the bumped part goes up by one, and the parts below restart at 0. |
| BumpVersion.BumpIsNewer | scripts/bump-version.js:20-34 | Every bump gives a strictly newer version. |
| BumpVersion.BumpIsNext | scripts/bump-version.js:20-34 | No version fits between the old version and the bumped one at that level. |
| BumpVersion.PartValue | scripts/bump-version.js:17 | Number(part): an empty part is 0, a part of digits is its value, and anything else is NaN. |
| BumpVersion.Parts | scripts/bump-version.js:17 | The parts array: one value per dot-separated piece. Stated through VersionReadsBack and the example lemmas. |
| BumpVersion.Assign | scripts/bump-version.js:22-32 | Assigning an element sets it and keeps every other one. Past the end the array grows, with holes that read as undefined. |
| BumpVersion.BumpedParts | scripts/bump-version.js:20-34 | On any array: the parts before the bumped one are kept, the bumped one is incremented (NaN when it is missing or NaN), those after it up to the third become 0, and later parts are kept. The result has at least three elements. |
| BumpVersion.BumpParts | scripts/bump-version.js:20-34 | The switch, applied step by step to the parts array, gives BumpedParts. |
| BumpVersion.BumpedNumeric | scripts/bump-version.js:20-34 | On a version of three numbers, the switch is the bump of Bumped. |
| BumpVersion.PartsText | scripts/bump-version.js:36 | versionParts.join('.'). Stated through NumsText and the example lemmas. |
| BumpVersion.VersionText | scripts/bump-version.js:36 | A version of numbers written out. Stated through NumsText, VersionReadsBack and RunAgrees. |
| BumpVersion.NumsText | scripts/bump-version.js:36 | Joining an array of numbers writes the version of those numbers. |
| BumpVersion.VersionReadsBack | scripts/bump-version.js:17-36 | A written version of one or more numbers splits and converts back into the same numbers. |
| BumpVersion.Run | scripts/bump-version.js:6-44 | The script never fails. Whatever the version's shape, package.json gets the joined BumpedParts of its parts, and the manifest gets the same version. Everything else in both files is kept. |
| BumpVersion.RunAgrees | scripts/bump-version.js:16-44 | On a version of three numbers, the version written is the bumped version's text. It is strictly newer and reads back as the bumped numbers. |
| BumpVersion.TwoPartsMajorMinor | scripts/bump-version.js:20-36 | "1.2" bumps to "2.0.0" (major) and "1.3.0" (minor). |
| BumpVersion.TwoPartsPatch | scripts/bump-version.js:30-36 | "1.2" bumps to "1.2.NaN" (patch). |
| BumpVersion.FourPartsPatch | scripts/bump-version.js:30-36 | "1.2.3.4" bumps to "1.2.4.4" (patch). |

## Left out

- Rendering: the DOM, React rendering and styling, alerts and console output are not modelled. Only the state the components keep and the values they compute are modelled.
- Browser and extension APIs are parameters. These are the URL constructor, `isValidUrl`, image and file-size probes, base64 encoding, `getDisplayMedia`, MediaRecorder events, the `chrome.*` calls, `Date.now()`, `Math.random()`, `requestAnimationFrame` handles, timers and `confirm`. The timers are the 200 ms post-injection wait, the 500 ms download pause and the 200 ms batch spacing. Their delays are recorded as data, not waited for.
- Storage I/O is a field or sequence; reads and writes happen at once.
- ToLower folds ASCII letters only. JavaScript's `toLowerCase` also folds other scripts.
- Regular expressions are written out as explicit functions and predicates, pattern by pattern. The background-image pattern is GroupEnd, UrlGroupAt, FirstUrlGroup and BackgroundUrl.
- ImageCollector.Enrich: the recovery branch of the enrichment loop is not modelled. Both probes resolve instead of throwing (a failed image gives 0 by 0 and a failed size request gives 0), so that branch cannot run.
- Widths, heights and sizes are natural numbers, with 0 standing for undefined. Both are falsy in the code. An SVG's bounding-box size is taken as a whole number.
- The downloading itself (`downloadImage`: fetch, CORS fallback, blob URLs, the background download call) is not modelled. Only its file names are.
- `formatFileSize` and `generateUniqueId` are not modelled. They are display formatting and randomness.
- StyleExtractor.Convert: the converter tables are plain lookups. An inherited key of a JavaScript object, such as `constructor`, is not looked up.
- AreaCropper.Cropper.constructor and OnLoadedMetadata require fps > 0 and a positive viewport. The code divides by both, and the model does not state what JavaScript does with a zero divisor.
- AreaCropper.Cropper.Tick: the video's readiness, its current native size and whether drawImage throws are inputs to each callback.
- AreaCropper.Cropper.constructor: the 'Cannot get 2D context from canvas' error is not modelled. A canvas always has a 2D context here.
- AreaCropper.PaintTimes: timestamps and the interval 1000/fps are exact reals. The code compares doubles, so a callback exactly one interval later may fall either side of the throttle test after rounding.
- RecorderService.Session.StartRecording: like the code, it has no guard against starting while already recording. It replaces the recorder.
- RecorderService.RecordingData: the blob is reduced to its byte size, and the creation date is left out.
- VideoRecorderPanel.FormatDuration: takes a non-negative duration, which is all the recorder ever shows.
- The recording options (audio, tab, window or screen) and `downloadRecording` are not modelled. They only pass options to the browser.
- BumpVersion.PartValue: `Number`'s whitespace, sign, exponent, hex, 0b, 0o and "Infinity" forms are not read. Such parts are NaN in the model.
- BumpVersion.Incremented: parts are unbounded natural numbers. Above 2^53 a JavaScript number loses precision, and the model does not follow that.
- BumpVersion.Run: the JSON serialisation of the two files is not modelled. A file is its version and the rest of its text.
- Background.BatchDownload: the answer's constant `success` field and its `total` field are left out.
- Background: only the worker's naming, text generators, saved-style handler and batch counter are modelled. Its other message cases only forward calls to Chrome APIs.
- The style inspector's hover description is kept as a string. The page sends an object.
- The panel's list shows newest first and storage keeps oldest first. The model proves the two hold the same recordings, not that they have the same order.

=== FILE: area_cropper.dfy ===
/** The area cropper of the video recorder: it maps a rectangle selected in
    viewport pixels onto the captured video's native pixels, clamps it into the
    frame, sizes the output canvas to it and then, on every animation-frame
    callback, paints the cropped part of the current video frame, at most once
    per 1000/fps milliseconds.

    The hidden video and canvas elements are reduced to the fields the loop
    reads and writes; painting is recorded as a sequence of `Frame` events. */
module AreaCropper {
  import opened Common

  datatype CropArea = CropArea(x: int, y: int, width: int, height: int)

  /** A handle returned by requestAnimationFrame (always a positive integer). */
  type FrameHandle = h: int | h >= 1 witness 1

  /** What one processed callback paints on the canvas. */
  datatype Frame =
    | Cropped(source: CropArea)   // the crop of the current video frame, 1:1
    | InvalidBounds               // the magenta 'Invalid Bounds' frame
    | CropError                   // the red 'Crop Error' frame (drawImage threw)
    | Loading                     // the blue 'Loading...' frame (video not ready)

  datatype CropperError = InvalidVideoDimensions | StreamFailedToLoad

  /** The stream captured from the output canvas. */
  datatype CanvasStream = CanvasStream(width: int, height: int, frameRate: int)

  function Min(a: int, b: int): int { if a <= b then a else b }
  function Max(a: int, b: int): int { if a >= b then a else b }

  /** The per-frame validity test: the crop lies inside a frame of the given
      native size and is not empty. */
  predicate InFrame(a: CropArea, videoWidth: int, videoHeight: int)
  {
    && a.x >= 0 && a.y >= 0
    && a.x + a.width <= videoWidth && a.y + a.height <= videoHeight
    && a.width > 0 && a.height > 0
  }

  /** getScaledCropArea: x and width are scaled by videoWidth/viewportWidth,
      y and height by videoHeight/viewportHeight, each rounded half-up. */
  function ScaledCropArea(area: CropArea, viewportWidth: int, viewportHeight: int,
                          videoWidth: int, videoHeight: int): (r: CropArea)
    requires viewportWidth > 0 && viewportHeight > 0
    ensures var sx := videoWidth as real / viewportWidth as real;
            && r.x as real - 0.5 <= area.x as real * sx < r.x as real + 0.5
            && r.width as real - 0.5 <= area.width as real * sx < r.width as real + 0.5
    ensures var sy := videoHeight as real / viewportHeight as real;
            && r.y as real - 0.5 <= area.y as real * sy < r.y as real + 0.5
            && r.height as real - 0.5 <= area.height as real * sy < r.height as real + 0.5
  {
    var scaleX := videoWidth as real / viewportWidth as real;
    var scaleY := videoHeight as real / viewportHeight as real;
    CropArea(Round(area.x as real * scaleX), Round(area.y as real * scaleY),
             Round(area.width as real * scaleX), Round(area.height as real * scaleY))
  }

  /** When the video is a whole multiple of the viewport on each axis, scaling
      is exact: no rounding happens. */
  lemma {:induction false} ScaleByWholeFactor(area: CropArea, viewportWidth: int, viewportHeight: int, kx: int, ky: int)
    requires viewportWidth > 0 && viewportHeight > 0
    ensures ScaledCropArea(area, viewportWidth, viewportHeight, kx * viewportWidth, ky * viewportHeight)
         == CropArea(area.x * kx, area.y * ky, area.width * kx, area.height * ky)
  {
    var sx := (kx * viewportWidth) as real / viewportWidth as real;
    var sy := (ky * viewportHeight) as real / viewportHeight as real;
    assert sx == kx as real;
    assert sy == ky as real;
    RoundOfInt(area.x * kx);
    RoundOfInt(area.y * ky);
    RoundOfInt(area.width * kx);
    RoundOfInt(area.height * ky);
  }

  /** Equal viewport and video sizes leave the rectangle unchanged. */
  lemma ScaleIdentity(area: CropArea, width: int, height: int)
    requires width > 0 && height > 0
    ensures ScaledCropArea(area, width, height, width, height) == area
  {
    ScaleByWholeFactor(area, width, height, 1, 1);
  }

  /** A 400x300 selection at (100, 50) in a 1280x800 viewport, captured at
      2560x1600, becomes (200, 100, 800, 600). */
  lemma ScaleRetinaExample()
    ensures ScaledCropArea(CropArea(100, 50, 400, 300), 1280, 800, 2560, 1600)
         == CropArea(200, 100, 800, 600)
  {
    ScaleByWholeFactor(CropArea(100, 50, 400, 300), 1280, 800, 2, 2);
  }

  /** The clamp block of getCroppedStream. Its result always passes the
      per-frame validity test, and a crop already inside the frame is kept. */
  function ClampToFrame(a: CropArea, videoWidth: int, videoHeight: int): (r: CropArea)
    requires videoWidth > 0 && videoHeight > 0
    ensures InFrame(r, videoWidth, videoHeight)
    ensures r.x <= videoWidth - 1 && r.y <= videoHeight - 1
    ensures InFrame(a, videoWidth, videoHeight) ==> r == a
  {
    var x := Max(0, Min(a.x, videoWidth - 1));
    var y := Max(0, Min(a.y, videoHeight - 1));
    var width := Max(1, Min(a.width, videoWidth - x));
    var height := Max(1, Min(a.height, videoHeight - y));
    CropArea(x, y, width, height)
  }

  /** Clamping is idempotent. */
  lemma ClampIdempotent(a: CropArea, videoWidth: int, videoHeight: int)
    requires videoWidth > 0 && videoHeight > 0
    ensures ClampToFrame(ClampToFrame(a, videoWidth, videoHeight), videoWidth, videoHeight)
         == ClampToFrame(a, videoWidth, videoHeight)
  {
  }

  /** The throttle test of the crop callback. */
  predicate Due(currentTime: real, lastFrameTime: real, frameInterval: real)
  {
    currentTime - lastFrameTime >= frameInterval
  }

  /** The frame one processed callback paints. */
  function PaintedFrame(videoReady: bool, area: CropArea, videoWidth: int, videoHeight: int,
                        drawFails: bool): Frame
  {
    if !videoReady then Loading
    else if !InFrame(area, videoWidth, videoHeight) then InvalidBounds
    else if drawFails then CropError
    else Cropped(area)
  }

  /** The callback timestamps, among `times`, at which the loop paints while
      its crop stays valid: each processed callback becomes the new reference. */
  function PaintTimes(times: seq<real>, lastFrameTime: real, frameInterval: real): seq<real>
  {
    if |times| == 0 then []
    else if Due(times[0], lastFrameTime, frameInterval)
    then [times[0]] + PaintTimes(times[1..], times[0], frameInterval)
    else PaintTimes(times[1..], lastFrameTime, frameInterval)
  }

  /** Two painted frames are always at least one interval apart, so over any
      window the number of frames is bounded by the window over the interval,
      whatever the callback rate. */
  lemma {:induction false} PaintTimesBound(times: seq<real>, lastFrameTime: real, frameInterval: real, end: real)
    requires frameInterval > 0.0
    requires forall i :: 0 <= i < |times| ==> times[i] <= end
    ensures |PaintTimes(times, lastFrameTime, frameInterval)| as real * frameInterval <= end - lastFrameTime
            || |PaintTimes(times, lastFrameTime, frameInterval)| == 0
  {
    if |times| > 0 {
      var rest := times[1..];
      assert forall i :: 0 <= i < |rest| ==> rest[i] <= end by {
        forall i | 0 <= i < |rest| ensures rest[i] <= end { assert rest[i] == times[i + 1]; }
      }
      if Due(times[0], lastFrameTime, frameInterval) {
        PaintTimesBound(rest, times[0], frameInterval, end);
        var k := |PaintTimes(rest, times[0], frameInterval)|;
        assert |PaintTimes(times, lastFrameTime, frameInterval)| == k + 1;
        assert (k + 1) as real * frameInterval == k as real * frameInterval + frameInterval;
      } else {
        PaintTimesBound(rest, lastFrameTime, frameInterval, end);
      }
    }
  }

  /** At 30 fps, callbacks within one second of the last painted frame paint
      at most 30 frames, however often they fire. */
  lemma ThirtyFpsOneSecond(times: seq<real>, lastFrameTime: real)
    requires forall i :: 0 <= i < |times| ==> times[i] <= lastFrameTime + 1000.0
    ensures |PaintTimes(times, lastFrameTime, 1000.0 / 30.0)| <= 30
  {
    PaintTimesBound(times, lastFrameTime, 1000.0 / 30.0, lastFrameTime + 1000.0);
  }

  /** The reference time after the callbacks at `times`: the timestamp of
      the last one that painted, or the starting reference if none did. */
  function LastPaint(times: seq<real>, lastFrameTime: real, frameInterval: real): real
  {
    if |times| == 0 then lastFrameTime
    else if Due(times[0], lastFrameTime, frameInterval)
    then LastPaint(times[1..], times[0], frameInterval)
    else LastPaint(times[1..], lastFrameTime, frameInterval)
  }

  /** One more callback paints exactly when it is due against the reference
      left by the callbacks before it, and then becomes the reference. */
  lemma {:induction false} PaintTimesSnoc(times: seq<real>, t: real, lastFrameTime: real, frameInterval: real)
    ensures var ref := LastPaint(times, lastFrameTime, frameInterval);
      && PaintTimes(times + [t], lastFrameTime, frameInterval)
         == PaintTimes(times, lastFrameTime, frameInterval) + (if Due(t, ref, frameInterval) then [t] else [])
      && LastPaint(times + [t], lastFrameTime, frameInterval) == (if Due(t, ref, frameInterval) then t else ref)
    decreases |times|
  {
    if |times| == 0 {
      assert [t][1..] == [];
    } else {
      assert (times + [t])[0] == times[0];
      assert (times + [t])[1..] == times[1..] + [t];
      var next := if Due(times[0], lastFrameTime, frameInterval) then times[0] else lastFrameTime;
      PaintTimesSnoc(times[1..], t, next, frameInterval);
    }
  }

  /** One animation-frame callback as the host delivers it: its timestamp,
      whether the video has a current frame, the video's native size at that
      moment, whether drawImage throws, and the handle the next
      requestAnimationFrame returns. */
  datatype Callback = Callback(time: real, videoReady: bool, width: int, height: int,
                               drawFails: bool, nextHandle: FrameHandle)

  /** The timestamps of a run of callbacks. */
  function Times(callbacks: seq<Callback>): (times: seq<real>)
    ensures |times| == |callbacks|
    ensures forall i :: 0 <= i < |callbacks| ==> times[i] == callbacks[i].time
  {
    if |callbacks| == 0 then []
    else Times(callbacks[..|callbacks| - 1]) + [callbacks[|callbacks| - 1].time]
  }

  class Cropper {
    var cropArea: CropArea
    var canvasWidth: int
    var canvasHeight: int
    const fps: int
    const frameInterval: real
    var lastFrameTime: real
    var animationFrameId: Option<FrameHandle>
    /** a crop callback is pending with the host */
    var scheduled: bool
    /** native size reported by the hidden video element */
    var videoWidth: int
    var videoHeight: int
    /** the hidden elements are in the document; the video has its source */
    var videoAttached: bool
    var videoHasSource: bool
    var canvasAttached: bool
    /** everything painted on the canvas, in order */
    var frames: seq<Frame>
    /** handles passed to cancelAnimationFrame, in order */
    var cancelled: seq<FrameHandle>

    ghost predicate Valid()
      reads this
    {
      && fps > 0
      && frameInterval == 1000.0 / fps as real
      && (scheduled ==> animationFrameId.Some?)
    }

    /** The per-frame validity check of the crop loop. */
    predicate ValidCrop()
      reads this
    {
      InFrame(cropArea, videoWidth, videoHeight)
    }

    /** The hidden surfaces are gone and no callback is pending. */
    predicate Stopped()
      reads this
    {
      animationFrameId == None && !scheduled && !videoAttached && !canvasAttached
    }

    /** new AreaCropper(stream, cropArea, fps): the canvas takes the
        requested size, both hidden elements are attached, nothing runs yet. */
    constructor (area: CropArea, fps: int)
      requires fps > 0
      ensures Valid()
      ensures cropArea == area && canvasWidth == area.width && canvasHeight == area.height
      ensures this.fps == fps && lastFrameTime == 0.0
      ensures animationFrameId == None && !scheduled
      ensures videoAttached && videoHasSource && canvasAttached
      ensures videoWidth == 0 && videoHeight == 0
      ensures frames == [] && cancelled == []
    {
      cropArea := area;
      this.fps := fps;
      frameInterval := 1000.0 / fps as real;
      lastFrameTime := 0.0;
      animationFrameId := None;
      scheduled := false;
      videoAttached, videoHasSource, canvasAttached := true, true, true;
      videoWidth, videoHeight := 0, 0;
      canvasWidth, canvasHeight := area.width, area.height;
      frames, cancelled := [], [];
    }

    /** The loadedmetadata handler of getCroppedStream. A zero native width or
        height rejects before anything is touched. Otherwise the crop is scaled
        from viewport to native pixels and clamped, the canvas takes its size,
        the loop is started with the first requested frame `handle`, and the
        canvas stream is returned. */
    method OnLoadedMetadata(nativeWidth: nat, nativeHeight: nat,
                            viewportWidth: int, viewportHeight: int, handle: FrameHandle)
      returns (r: Result<CanvasStream, CropperError>)
      requires Valid()
      requires viewportWidth > 0 && viewportHeight > 0
      modifies this
      ensures Valid()
      ensures nativeWidth == 0 || nativeHeight == 0 ==> r == Err(InvalidVideoDimensions) && unchanged(this)
      ensures nativeWidth > 0 && nativeHeight > 0 ==>
        && cropArea == ClampToFrame(ScaledCropArea(old(cropArea), viewportWidth, viewportHeight,
                                                   nativeWidth, nativeHeight), nativeWidth, nativeHeight)
        && videoWidth == nativeWidth && videoHeight == nativeHeight
        && canvasWidth == cropArea.width && canvasHeight == cropArea.height
        && ValidCrop()
        && scheduled && animationFrameId == Some(handle)
        && r == Ok(CanvasStream(cropArea.width, cropArea.height, fps))
        && lastFrameTime == old(lastFrameTime) && frames == old(frames) && cancelled == old(cancelled)
        && videoAttached == old(videoAttached) && videoHasSource == old(videoHasSource)
        && canvasAttached == old(canvasAttached)
    {
      if nativeWidth == 0 || nativeHeight == 0 {
        return Err(InvalidVideoDimensions);
      }
      videoWidth, videoHeight := nativeWidth, nativeHeight;
      cropArea := ScaledCropArea(cropArea, viewportWidth, viewportHeight, nativeWidth, nativeHeight);
      cropArea := ClampToFrame(cropArea, nativeWidth, nativeHeight);
      canvasWidth := cropArea.width;
      canvasHeight := cropArea.height;
      animationFrameId := Some(handle);
      scheduled := true;
      r := Ok(CanvasStream(cropArea.width, cropArea.height, fps));
    }

    /** The error handler of getCroppedStream: the promise rejects with
        'Failed to load video stream'. The handler installed at the end of
        getCroppedStream replaces the earlier one before any event can fire,
        so the earlier message is never produced. */
    method OnVideoError() returns (r: Result<CanvasStream, CropperError>)
      ensures r == Err(StreamFailedToLoad)
    {
      r := Err(StreamFailedToLoad);
    }

    /** One animation-frame callback `crop(currentTime)`. `videoReady` is
        readyState >= HAVE_CURRENT_DATA, `width` and `height` are the video's
        native size as read during this callback (a shared window or screen
        can change size while recording), `drawFails` says whether drawImage
        throws, `nextHandle` is what requestAnimationFrame returns.
        A callback inside the interval only reschedules. A due one paints,
        takes `currentTime` as the new reference and reschedules, except that
        an invalid crop paints the 'Invalid Bounds' frame and returns, keeping
        the old reference and ending the loop. */
    method Tick(currentTime: real, videoReady: bool, width: int, height: int,
                drawFails: bool, nextHandle: FrameHandle)
      requires Valid() && scheduled
      modifies this`lastFrameTime, this`animationFrameId, this`scheduled, this`frames,
               this`videoWidth, this`videoHeight
      ensures Valid()
      ensures videoWidth == width && videoHeight == height
      ensures var due := Due(currentTime, old(lastFrameTime), frameInterval);
              var ends := due && videoReady && !InFrame(cropArea, width, height);
              && frames == old(frames) + (if due then [PaintedFrame(videoReady, cropArea, width, height, drawFails)] else [])
              && lastFrameTime == (if due && !ends then currentTime else old(lastFrameTime))
              && scheduled == !ends
              && animationFrameId == (if ends then old(animationFrameId) else Some(nextHandle))
    {
      videoWidth, videoHeight := width, height;
      if currentTime - lastFrameTime >= frameInterval {
        if videoReady {
          var isValidCrop := cropArea.x >= 0 && cropArea.y >= 0
            && cropArea.x + cropArea.width <= videoWidth && cropArea.y + cropArea.height <= videoHeight
            && cropArea.width > 0 && cropArea.height > 0;
          if !isValidCrop {
            frames := frames + [InvalidBounds];
            scheduled := false;
            return;
          }
          if drawFails {
            frames := frames + [CropError];
          } else {
            frames := frames + [Cropped(cropArea)];
          }
        } else {
          frames := frames + [Loading];
        }
        lastFrameTime := currentTime;
      }
      animationFrameId := Some(nextHandle);
      scheduled := true;
    }

    /** The crop loop over a run of callbacks while the crop stays valid,
        that is, fits the video's size as each callback reads it:
        every callback is processed by Tick, the loop never ends, and the
        frames painted are exactly one per timestamp of PaintTimes, so at
        30 fps callbacks within one second of the reference paint at most
        30 frames. */
    method RunCallbacks(callbacks: seq<Callback>)
      requires Valid() && scheduled
      requires forall i :: 0 <= i < |callbacks| ==> InFrame(cropArea, callbacks[i].width, callbacks[i].height)
      modifies this`lastFrameTime, this`animationFrameId, this`scheduled, this`frames,
               this`videoWidth, this`videoHeight
      ensures Valid() && scheduled
      ensures |frames| == |old(frames)| + |PaintTimes(Times(callbacks), old(lastFrameTime), frameInterval)|
      ensures frames[..|old(frames)|] == old(frames)
      ensures forall i :: |old(frames)| <= i < |frames| ==> frames[i] != InvalidBounds
      ensures lastFrameTime == LastPaint(Times(callbacks), old(lastFrameTime), frameInterval)
      ensures fps == 30 && (forall i :: 0 <= i < |callbacks| ==> callbacks[i].time <= old(lastFrameTime) + 1000.0)
              ==> |frames| <= |old(frames)| + 30
    {
      ghost var frames0, reference := frames, lastFrameTime;
      for i := 0 to |callbacks|
        invariant Valid() && scheduled
        invariant |frames| == |frames0| + |PaintTimes(Times(callbacks[..i]), reference, frameInterval)|
        invariant frames[..|frames0|] == frames0
        invariant forall k :: |frames0| <= k < |frames| ==> frames[k] != InvalidBounds
        invariant lastFrameTime == LastPaint(Times(callbacks[..i]), reference, frameInterval)
      {
        var c := callbacks[i];
        assert callbacks[..i + 1][..i] == callbacks[..i];
        PaintTimesSnoc(Times(callbacks[..i]), c.time, reference, frameInterval);
        Tick(c.time, c.videoReady, c.width, c.height, c.drawFails, c.nextHandle);
      }
      assert callbacks[..|callbacks|] == callbacks;
      if fps == 30 && (forall i :: 0 <= i < |callbacks| ==> callbacks[i].time <= reference + 1000.0) {
        ThirtyFpsOneSecond(Times(callbacks), reference);
      }
    }

    /** stop(): cancels the pending frame if there is a handle, detaches the
        video from its stream and removes both hidden elements if they are
        still in the document. A second call changes nothing. */
    method Stop()
      requires Valid()
      modifies this`animationFrameId, this`scheduled, this`cancelled,
               this`videoAttached, this`videoHasSource, this`canvasAttached
      ensures Valid() && Stopped()
      ensures cancelled == old(if animationFrameId.Some? then cancelled + [animationFrameId.value] else cancelled)
      ensures videoHasSource == (old(videoHasSource) && !old(videoAttached))
      ensures old(Stopped()) ==> cancelled == old(cancelled) && videoHasSource == old(videoHasSource)
    {
      if animationFrameId.Some? {
        cancelled := cancelled + [animationFrameId.value];
        animationFrameId := None;
        scheduled := false;
      }
      if videoAttached {
        videoHasSource := false;
        videoAttached := false;
      }
      if canvasAttached {
        canvasAttached := false;
      }
    }

    /** updateCropArea: the crop and the canvas size follow the new rectangle,
        without clamping, so the loop keeps running only if it fits. */
    method UpdateCropArea(newArea: CropArea)
      modifies this`cropArea, this`canvasWidth, this`canvasHeight
      ensures cropArea == newArea && canvasWidth == newArea.width && canvasHeight == newArea.height
      ensures ValidCrop() <==> InFrame(newArea, videoWidth, videoHeight)
    {
      cropArea := newArea;
      canvasWidth := newArea.width;
      canvasHeight := newArea.height;
    }
  }

  /** After a successful start the first due callback paints the clamped crop
      at canvas size, 1:1, and the loop goes on. */
  method StartThenTick(area: CropArea, fps: int, nativeWidth: nat, nativeHeight: nat,
                       viewportWidth: int, viewportHeight: int, t: real)
    returns (painted: seq<Frame>, canvas: (int, int), running: bool)
    requires fps > 0 && viewportWidth > 0 && viewportHeight > 0
    requires nativeWidth > 0 && nativeHeight > 0
    requires t >= 1000.0 / fps as real
    ensures running
    ensures |painted| == 1 && painted[0].Cropped?
    ensures painted[0].source.width == canvas.0 && painted[0].source.height == canvas.1
    ensures InFrame(painted[0].source, nativeWidth, nativeHeight)
  {
    var c := new Cropper(area, fps);
    var r := c.OnLoadedMetadata(nativeWidth, nativeHeight, viewportWidth, viewportHeight, 1);
    c.Tick(t, true, nativeWidth, nativeHeight, false, 2);
    painted, canvas, running := c.frames, (c.canvasWidth, c.canvasHeight), c.scheduled;
  }

  /** A due callback that finds the video smaller than the crop, because the
      shared surface shrank after loadedmetadata, paints 'Invalid Bounds' and
      ends the loop, even though the crop fitted when the stream started. */
  method ShrunkVideoEndsLoop(area: CropArea, fps: int, nativeWidth: nat, nativeHeight: nat,
                             viewportWidth: int, viewportHeight: int, t: real)
    returns (painted: seq<Frame>, fittedAtStart: bool, running: bool)
    requires fps > 0 && viewportWidth > 0 && viewportHeight > 0
    requires nativeWidth > 0 && nativeHeight > 0
    requires t >= 1000.0 / fps as real
    ensures fittedAtStart
    ensures painted == [InvalidBounds]
    ensures !running
  {
    var c := new Cropper(area, fps);
    var r := c.OnLoadedMetadata(nativeWidth, nativeHeight, viewportWidth, viewportHeight, 1);
    fittedAtStart := c.ValidCrop();
    c.Tick(t, true, c.cropArea.x + c.cropArea.width - 1, nativeHeight, false, 2);
    painted, running := c.frames, c.scheduled;
  }
}

=== FILE: area_selector.dfy ===
/** The overlay on which the user drags out the screen area to record: the
    drag state kept by the mouse handlers, the rectangle reported on release,
    and cancelling with Escape. Coordinates are viewport pixels. */
module AreaSelector {
  import opened Common

  datatype Point = Point(x: int, y: int)

  /** The area handed to onAreaSelected. */
  datatype Area = Area(x: int, y: int, width: int, height: int)

  function Min(a: int, b: int): int
  {
    if a <= b then a else b
  }

  function Abs(a: int): int
  {
    if a >= 0 then a else -a
  }

  /** The rectangle spanned by the two corners of a drag. */
  function Spanned(start: Point, current: Point): (a: Area)
    ensures a.width >= 0 && a.height >= 0
    ensures (a.x == start.x && a.x + a.width == current.x) || (a.x == current.x && a.x + a.width == start.x)
    ensures (a.y == start.y && a.y + a.height == current.y) || (a.y == current.y && a.y + a.height == start.y)
  {
    Area(Min(start.x, current.x), Min(start.y, current.y), Abs(current.x - start.x), Abs(current.y - start.y))
  }

  /** The rectangle is the same whichever corner the drag starts from. */
  lemma SpannedFromAnyCorner(p: Point, q: Point)
    ensures Spanned(q, p) == Spanned(p, q)
    ensures Spanned(Point(p.x, q.y), Point(q.x, p.y)) == Spanned(p, q)
    ensures Spanned(Point(q.x, p.y), Point(p.x, q.y)) == Spanned(p, q)
  {
  }

  /** The rectangle covers exactly the points between the two corners. */
  lemma SpannedCovers(p: Point, q: Point, r: Point)
    ensures var a := Spanned(p, q);
      (a.x <= r.x <= a.x + a.width && a.y <= r.y <= a.y + a.height) <==>
      ((p.x <= r.x <= q.x || q.x <= r.x <= p.x) && (p.y <= r.y <= q.y || q.y <= r.y <= p.y))
  {
  }

  /** Only an area wider and taller than 10 pixels is reported. */
  predicate LargeEnough(a: Area)
  {
    a.width > 10 && a.height > 10
  }

  class Selector {
    var isSelecting: bool
    var startPos: Point
    var currentPos: Point

    /** The initial state: not selecting, both points at the origin. */
    constructor ()
      ensures !isSelecting && startPos == Point(0, 0) && currentPos == Point(0, 0)
    {
      isSelecting := false;
      startPos := Point(0, 0);
      currentPos := Point(0, 0);
    }

    /** handleMouseDown: a selection starts with both corners at the pointer. */
    method MouseDown(p: Point)
      modifies this
      ensures isSelecting && startPos == p && currentPos == p
    {
      isSelecting := true;
      startPos := p;
      currentPos := p;
    }

    /** handleMouseMove: the moving corner follows the pointer while
        selecting; otherwise nothing changes. */
    method MouseMove(p: Point)
      modifies this`currentPos
      ensures currentPos == if isSelecting then p else old(currentPos)
    {
      if isSelecting {
        currentPos := p;
      }
    }

    /** handleMouseUp: ends a selection in progress, reporting its rectangle
        when it is large enough; when not selecting it does nothing. */
    method MouseUp() returns (reported: Option<Area>)
      modifies this`isSelecting
      ensures !isSelecting
      ensures !old(isSelecting) ==> reported == None
      ensures old(isSelecting) ==>
        reported == (if LargeEnough(Spanned(startPos, currentPos)) then Some(Spanned(startPos, currentPos)) else None)
      ensures reported.Some? ==> LargeEnough(reported.value)
    {
      reported := None;
      if isSelecting {
        var x := Min(startPos.x, currentPos.x);
        var y := Min(startPos.y, currentPos.y);
        var width := Abs(currentPos.x - startPos.x);
        var height := Abs(currentPos.y - startPos.y);
        if width > 10 && height > 10 {
          reported := Some(Area(x, y, width, height));
        }
        isSelecting := false;
      }
    }

    /** The keydown listener, registered on the document only while the
        overlay is visible: Escape asks the owner to cancel. The listener
        reads none of the drag state and changes none of it, so a drag in
        progress goes on. */
    method KeyDown(visible: bool, key: string) returns (cancel: bool)
      ensures cancel ==> visible
      ensures cancel <==> visible && key == "Escape"
      ensures isSelecting == old(isSelecting) && startPos == old(startPos) && currentPos == old(currentPos)
    {
      cancel := false;
      if visible {
        if key == "Escape" {
          cancel := true;
        }
      }
    }
  }

  /** A whole drag: press at `from`, move through `path`, release. The area
      reported is the rectangle from the press to the last pointer position,
      when it is large enough, and the selection is over. */
  method Drag(from: Point, path: seq<Point>) returns (reported: Option<Area>)
    ensures var last := if |path| == 0 then from else path[|path| - 1];
      reported == if LargeEnough(Spanned(from, last)) then Some(Spanned(from, last)) else None
  {
    var s := new Selector();
    s.MouseDown(from);
    var i := 0;
    while i < |path|
      invariant 0 <= i <= |path|
      invariant s.isSelecting && s.startPos == from
      invariant s.currentPos == if i == 0 then from else path[i - 1]
    {
      s.MouseMove(path[i]);
      i := i + 1;
    }
    reported := s.MouseUp();
  }

  /** A drag with a key pressed after the first `pressedAfter` moves: the
      owner is asked to cancel exactly when the key is Escape and the overlay
      is visible, and the release still reports the same area as the drag
      without the key. Cancelling is left to the owner, which hides the
      overlay. */
  method DragWithKey(from: Point, path: seq<Point>, pressedAfter: nat, visible: bool, key: string)
    returns (cancel: bool, reported: Option<Area>)
    requires pressedAfter <= |path|
    ensures cancel <==> visible && key == "Escape"
    ensures var last := if |path| == 0 then from else path[|path| - 1];
      reported == if LargeEnough(Spanned(from, last)) then Some(Spanned(from, last)) else None
  {
    var s := new Selector();
    s.MouseDown(from);
    cancel := false;
    var i := 0;
    while i < |path|
      invariant 0 <= i <= |path|
      invariant s.isSelecting && s.startPos == from
      invariant s.currentPos == if i == 0 then from else path[i - 1]
      invariant cancel <==> i > pressedAfter && visible && key == "Escape"
    {
      if i == pressedAfter {
        cancel := s.KeyDown(visible, key);
      }
      s.MouseMove(path[i]);
      i := i + 1;
    }
    if pressedAfter == |path| {
      cancel := s.KeyDown(visible, key);
    }
    reported := s.MouseUp();
  }
}

=== FILE: background.dfy ===
/** The helpers of the background worker: its copies of the file-name and
    extension helpers and of the two style generators, the batch download
    that answers once every download has called back, and the handler that
    appends an extracted style to the saved list.

    The style generators of the worker are the same code as those of the
    style extractor, so the model runs the extractor's methods; the file-name
    helpers differ in their guards and are modelled on their own and proved
    to agree with the collector's where the guards make no difference. */
module Background {
  import opened Common
  import opened Strings
  import opened StyleTypes
  import StyleExtractor
  import opened ImageCollector

  // ---------------------------------------------------------------------
  // generateImageFilename and getImageExtension

  /** getImageExtension of the worker: an empty URL yields nothing before
      the pattern is tried. */
  function WorkerImageExtension(url: string): Option<string>
  {
    if url == "" then None else ImageExtension(url)
  }

  /** The guard of the worker's copy changes nothing: the pattern cannot
      match an empty URL. */
  lemma ExtensionCopiesAgree(url: string)
    ensures WorkerImageExtension(url) == ImageExtension(url)
  {
  }

  /** generateImageFilename. The blob test applies only to a non-empty src,
      and the URL parsed is `src || url`. */
  function ImageFilename(image: ImageData, pathnameOf: string -> Option<string>): string
  {
    if image.imageType == "svg" then OrElse(image.alt, "svg-image") + ".svg"
    else if image.src != "" && StartsWith(image.src, "blob:") then FallbackName(image.alt, image.imageType)
    else
      var target := OrElse(image.src, image.url);
      match pathnameOf(target)
      case None => FallbackName(image.alt, image.imageType)
      case Some(pathname) =>
        var segment := LastSegment(pathname);
        if '.' !in segment then
          segment + "." + match WorkerImageExtension(target) case Some(e) => e case None => DefaultExtension(image.imageType)
        else segment
  }

  /** The two copies name every image with a source alike. */
  lemma FilenameCopiesAgree(image: ImageData, pathnameOf: string -> Option<string>)
    requires image.src != ""
    ensures ImageFilename(image, pathnameOf) == GenerateFilename(image, pathnameOf)
  {
    ExtensionCopiesAgree(image.src);
  }

  /** Without a source the worker names the image by its url, as the
      collector would name a record whose source is that url, unless the url
      is a blob URL (which the worker then parses instead of naming it by the
      alt text). */
  lemma FilenameWithoutSource(image: ImageData, pathnameOf: string -> Option<string>)
    requires image.src == "" && !StartsWith(image.url, "blob:")
    ensures ImageFilename(image, pathnameOf) == GenerateFilename(image.(src := image.url), pathnameOf)
  {
    ExtensionCopiesAgree(image.url);
  }

  // ---------------------------------------------------------------------
  // generateCSSFromStyleData and generateTailwindFromStyleData

  /** generateCSSFromStyleData: the same rule as generateCSS. */
  method CssFromStyleData(sd: StyleData) returns (css: string)
    ensures css == StyleExtractor.CssText(sd)
    ensures StartsWith(css, sd.selector + " {\n") && EndsWith(css, "}")
  {
    css := StyleExtractor.GenerateCss(sd);
  }

  /** generateTailwindFromStyleData: the same text as generateTailwindClasses. */
  method TailwindFromStyleData(sd: StyleData) returns (text: string)
    ensures text == Join(StyleExtractor.TailwindClasses(sd), ' ')
  {
    text := StyleExtractor.GenerateTailwindClasses(sd);
  }

  // ---------------------------------------------------------------------
  // The styleExtracted handler

  /** The handler reads the saved list, appends the new style with its
      generated CSS and Tailwind text, and writes the list back; `id` and
      `timestamp` stand for Date.now() and its ISO form. */
  method StyleExtracted(savedStyles: seq<SavedStyle>, data: StyleData, id: string, timestamp: string)
    returns (saved: seq<SavedStyle>, newStyle: SavedStyle)
    ensures |saved| == |savedStyles| + 1 && saved[..|savedStyles|] == savedStyles
    ensures saved[|savedStyles|] == newStyle
    ensures newStyle.id == id && newStyle.timestamp == timestamp
    ensures newStyle.selector == data.selector && newStyle.properties == data.properties
    ensures newStyle.css == StyleExtractor.CssText(data)
    ensures newStyle.tailwind == Join(StyleExtractor.TailwindClasses(data), ' ')
  {
    var css := CssFromStyleData(data);
    var tailwind := TailwindFromStyleData(data);
    newStyle := SavedStyle(id, timestamp, data.selector, data.properties, css, tailwind);
    saved := savedStyles + [newStyle];
  }

  // ---------------------------------------------------------------------
  // downloadMultipleImages

  /** A download the batch schedules: its start delay, URL and file name. */
  datatype DownloadRequest = DownloadRequest(delayMs: nat, url: string, filename: string)

  /** The answer sent back: how many downloads succeeded and how many failed. */
  datatype BatchAnswer = BatchAnswer(downloaded: nat, errors: nat)

  /** The downloads scheduled for the images, 200 ms apart. */
  function Requests(images: seq<ImageData>, pathnameOf: string -> Option<string>): (rs: seq<DownloadRequest>)
    ensures |rs| == |images|
    ensures forall k :: 0 <= k < |images| ==>
      rs[k] == DownloadRequest(k * 200, OrElse(images[k].src, images[k].url), ImageFilename(images[k], pathnameOf))
  {
    if |images| == 0 then []
    else
      var n := |images| - 1;
      Requests(images[..n], pathnameOf)
        + [DownloadRequest(n * 200, OrElse(images[n].src, images[n].url), ImageFilename(images[n], pathnameOf))]
  }

  function CountTrue(outcomes: seq<bool>): (k: nat)
    ensures k <= |outcomes|
  {
    if |outcomes| == 0 then 0 else CountTrue(outcomes[..|outcomes| - 1]) + if outcomes[|outcomes| - 1] then 1 else 0
  }

  /** The state of one downloadMultipleImages call: the counters its
      callbacks share and the answers it has sent. */
  class BatchDownload {
    var total: nat
    var completed: nat
    var errors: nat
    var requests: seq<DownloadRequest>
    var answers: seq<BatchAnswer>

    /** The counters never pass the total, and an answer has been sent, once,
        exactly when every download has called back (at once for none). */
    ghost predicate Valid()
      reads this
    {
      && completed + errors <= total
      && |requests| == total
      && answers == if completed + errors == total then [BatchAnswer(completed, errors)] else []
    }

    /** downloadMultipleImages: an empty list is answered at once with zero
        counts; otherwise one download per image is scheduled. */
    constructor (images: seq<ImageData>, pathnameOf: string -> Option<string>)
      ensures Valid()
      ensures total == |images| && completed == 0 && errors == 0
      ensures requests == Requests(images, pathnameOf)
      ensures |images| == 0 ==> answers == [BatchAnswer(0, 0)]
      ensures |images| > 0 ==> answers == []
    {
      total := |images|;
      completed := 0;
      errors := 0;
      if |images| == 0 {
        answers := [BatchAnswer(0, 0)];
        requests := [];
      } else {
        answers := [];
        var scheduled: seq<DownloadRequest> := [];
        var index := 0;
        while index < |images|
          invariant 0 <= index <= |images|
          invariant scheduled == Requests(images[..index], pathnameOf)
        {
          var image := images[index];
          assert images[..index + 1][..index] == images[..index];
          scheduled := scheduled + [DownloadRequest(index * 200, OrElse(image.src, image.url), ImageFilename(image, pathnameOf))];
          index := index + 1;
        }
        assert images[..index] == images;
        requests := scheduled;
      }
    }

    /** The callback of one download: it counts a success or an error and
        answers when the counts reach the total. Each scheduled download
        calls back once, so a callback only arrives while one is pending. */
    method OnDownloaded(succeeded: bool)
      requires Valid() && completed + errors < total
      modifies this`completed, this`errors, this`answers
      ensures Valid()
      ensures completed == old(completed) + (if succeeded then 1 else 0)
      ensures errors == old(errors) + (if succeeded then 0 else 1)
      ensures answers == if completed + errors == total then [BatchAnswer(completed, errors)] else []
    {
      if succeeded {
        completed := completed + 1;
      } else {
        errors := errors + 1;
      }
      if completed + errors == total {
        answers := answers + [BatchAnswer(completed, errors)];
      }
    }
  }

  /** A whole batch: whatever order the callbacks arrive in, exactly one
      answer is sent, and it reports the successes as downloaded and the
      failures as errors. */
  method DownloadBatch(images: seq<ImageData>, pathnameOf: string -> Option<string>, outcomes: seq<bool>)
    returns (answers: seq<BatchAnswer>)
    requires |outcomes| == |images|
    ensures answers == [BatchAnswer(CountTrue(outcomes), |outcomes| - CountTrue(outcomes))]
  {
    var batch := new BatchDownload(images, pathnameOf);
    var i := 0;
    while i < |outcomes|
      invariant 0 <= i <= |outcomes|
      invariant batch.Valid() && batch.total == |images|
      invariant batch.completed == CountTrue(outcomes[..i]) && batch.errors == i - CountTrue(outcomes[..i])
    {
      assert outcomes[..i + 1][..i] == outcomes[..i];
      batch.OnDownloaded(outcomes[i]);
      i := i + 1;
    }
    assert outcomes[..i] == outcomes;
    answers := batch.answers;
  }
}

=== FILE: bump_version.dfy ===
/** The release script that bumps the extension's version: it reads the
    version of package.json, raises its major, minor or patch part, and
    writes the new version into package.json and the extension manifest.
    The file system is left out: a file is its version and the rest of its
    text, and the command-line word is an input ("" when absent). */
module BumpVersion {
  import opened Common
  import opened Strings

  datatype Bump = Major | Minor | Patch

  /** process.argv[2] || 'patch', then the switch: "major" and "minor" pick
      their part, and anything else, or nothing, is a patch bump. */
  function BumpOf(arg: string): (b: Bump)
    ensures b == Major <==> arg == "major"
    ensures b == Minor <==> arg == "minor"
  {
    var bumpType := if arg == "" then "patch" else arg;
    if bumpType == "major" then Major
    else if bumpType == "minor" then Minor
    else Patch
  }

  /** The index of the part a bump raises. */
  function Level(b: Bump): nat
  {
    match b
    case Major => 0
    case Minor => 1
    case Patch => 2
  }

  /** Version order: the first part that differs decides. */
  predicate Older(v: seq<nat>, w: seq<nat>)
    requires |v| == 3 && |w| == 3
  {
    v[0] < w[0] || (v[0] == w[0] && (v[1] < w[1] || (v[1] == w[1] && v[2] < w[2])))
  }

  /** The bumped version: the parts above the bumped one are kept, the
      bumped one goes up by one, and those below it restart at 0. */
  function Bumped(v: seq<nat>, b: Bump): (w: seq<nat>)
    requires |v| == 3
    ensures |w| == 3
    ensures forall i :: 0 <= i < Level(b) ==> w[i] == v[i]
    ensures w[Level(b)] == v[Level(b)] + 1
    ensures forall i :: Level(b) < i < 3 ==> w[i] == 0
  {
    match b
    case Major => [v[0] + 1, 0, 0]
    case Minor => [v[0], v[1] + 1, 0]
    case Patch => [v[0], v[1], v[2] + 1]
  }

  /** Every bump gives a strictly newer version. */
  lemma BumpIsNewer(v: seq<nat>, b: Bump)
    requires |v| == 3
    ensures Older(v, Bumped(v, b))
  {
  }

  /** The bumped version is the oldest version that is newer than the old
      one and differs from it at the bumped part or above: no release can
      fit between the two. */
  lemma {:induction false} BumpIsNext(v: seq<nat>, b: Bump, w: seq<nat>)
    requires |v| == 3 && |w| == 3
    requires Older(v, w)
    requires exists i :: 0 <= i <= Level(b) && w[i] != v[i]
    ensures w == Bumped(v, b) || Older(Bumped(v, b), w)
  {
    var u := Bumped(v, b);
    var i :| 0 <= i <= Level(b) && w[i] != v[i];
    if w != u {
      if b == Major {
        assert w[0] > v[0];
        if w[0] == u[0] {
          assert w[1] != 0 || w[2] != 0;
        }
      } else if b == Minor {
        if w[0] == v[0] {
          assert w[1] > v[1];
        }
      } else {
        if w[0] == v[0] && w[1] == v[1] {
          assert w[2] > v[2];
        }
      }
    }
  }

  /** An element of the parts array as JavaScript holds it: a number, NaN,
      or undefined (a hole, or a read past the end). */
  datatype JsValue = Num(n: nat) | NaN | Undefined

  /** Number(part) for the parts of a version: an empty part is 0, digits
      are their value, and anything else is NaN. */
  function PartValue(part: string): (v: JsValue)
    ensures part == "" ==> v == Num(0)
    ensures v.Num? && part != "" ==> ParseNat(part) == Some(v.n)
    ensures part != "" && ParseNat(part).None? ==> v == NaN
  {
    if part == "" then Num(0)
    else match ParseNat(part)
      case Some(n) => Num(n)
      case None => NaN
  }

  /** currentVersion.split('.').map(Number). */
  function Parts(text: string): seq<JsValue>
  {
    MapSeq(Split(text, '.'), PartValue)
  }

  /** Reading versionParts[i]: undefined past the end. */
  function At(parts: seq<JsValue>, i: nat): JsValue
  {
    if i < |parts| then parts[i] else Undefined
  }

  /** versionParts[i] = v: an index past the end lengthens the array,
      leaving holes before it. */
  function Assign(parts: seq<JsValue>, i: nat, v: JsValue): (r: seq<JsValue>)
    ensures |r| == if i < |parts| then |parts| else i + 1
    ensures r[i] == v
    ensures forall j :: 0 <= j < |r| && j != i ==> r[j] == At(parts, j)
  {
    if i < |parts| then parts[i := v]
    else parts + seq(i - |parts|, _ => Undefined) + [v]
  }

  /** x++ on an element: a number goes up by one; NaN and undefined give
      NaN. */
  function Incremented(v: JsValue): JsValue
  {
    match v
    case Num(n) => Num(n + 1)
    case _ => NaN
  }

  function MaxLength(a: nat, b: nat): nat { if a >= b then a else b }

  /** The parts after the switch: the parts above the bumped one are kept,
      the bumped one is incremented, those below it up to the third are set
      to 0, the array has at least three elements, and any part after the
      third is left as it was. */
  function BumpedParts(parts: seq<JsValue>, b: Bump): (r: seq<JsValue>)
    ensures |r| == MaxLength(|parts|, 3)
    ensures forall i :: 0 <= i < Level(b) ==> r[i] == At(parts, i)
    ensures r[Level(b)] == Incremented(At(parts, Level(b)))
    ensures forall i :: Level(b) < i < 3 ==> r[i] == Num(0)
    ensures forall i :: 3 <= i < |r| ==> r[i] == parts[i]
  {
    match b
    case Major => Assign(Assign(Assign(parts, 0, Incremented(At(parts, 0))), 1, Num(0)), 2, Num(0))
    case Minor => Assign(Assign(parts, 1, Incremented(At(parts, 1))), 2, Num(0))
    case Patch => Assign(parts, 2, Incremented(At(parts, 2)))
  }

  /** The switch of the script, on the parts array. */
  method BumpParts(parts: seq<JsValue>, b: Bump) returns (versionParts: seq<JsValue>)
    ensures versionParts == BumpedParts(parts, b)
  {
    versionParts := parts;
    match b
    case Major =>
      versionParts := Assign(versionParts, 0, Incremented(At(versionParts, 0)));
      versionParts := Assign(versionParts, 1, Num(0));
      versionParts := Assign(versionParts, 2, Num(0));
    case Minor =>
      versionParts := Assign(versionParts, 1, Incremented(At(versionParts, 1)));
      versionParts := Assign(versionParts, 2, Num(0));
    case Patch =>
      versionParts := Assign(versionParts, 2, Incremented(At(versionParts, 2)));
  }

  /** The parts array of a version made of the numbers `v`. */
  function Nums(v: seq<nat>): (parts: seq<JsValue>)
    ensures |parts| == |v|
    ensures forall i :: 0 <= i < |v| ==> parts[i] == Num(v[i])
  {
    seq(|v|, i requires 0 <= i < |v| => Num(v[i]))
  }

  /** On a version of three numbers the switch is the bump of the numbers. */
  lemma BumpedNumeric(v: seq<nat>, b: Bump)
    requires |v| == 3
    ensures BumpedParts(Nums(v), b) == Nums(Bumped(v, b))
  {
    var r, w := BumpedParts(Nums(v), b), Nums(Bumped(v, b));
    forall i | 0 <= i < 3
      ensures r[i] == w[i]
    {
    }
  }

  /** How Array.prototype.join writes an element: undefined and holes are
      empty. */
  function PartText(v: JsValue): string
  {
    match v
    case Num(n) => NatToString(n)
    case NaN => "NaN"
    case Undefined => ""
  }

  /** versionParts.join('.'). */
  function PartsText(parts: seq<JsValue>): string
  {
    Join(MapSeq(parts, PartText), '.')
  }

  /** A version of numbers written out. */
  function VersionText(v: seq<nat>): string
  {
    Join(MapSeq(v, NatToString), '.')
  }

  lemma NumsText(v: seq<nat>)
    ensures PartsText(Nums(v)) == VersionText(v)
  {
    assert MapSeq(Nums(v), PartText) == MapSeq(v, NatToString);
  }

  lemma DigitsHaveNoDot(s: string)
    requires AllDigits(s)
    ensures '.' !in s
  {
  }

  /** A written version of one or more numbers reads back as the same
      numbers. */
  lemma {:induction false} VersionReadsBack(v: seq<nat>)
    requires |v| >= 1
    ensures Parts(VersionText(v)) == Nums(v)
  {
    var texts := MapSeq(v, NatToString);
    forall p | p in texts
      ensures '.' !in p
    {
      DigitsHaveNoDot(p);
    }
    SplitJoin(texts, '.');
    assert Split(VersionText(v), '.') == texts;
    forall i | 0 <= i < |v|
      ensures Parts(VersionText(v))[i] == Num(v[i])
    {
      ParsePrinted(v[i]);
    }
  }

  /** A JSON file the script rewrites: its version and the rest of it. */
  datatype JsonFile = JsonFile(version: string, rest: string)

  /** The whole script: the version of package.json split into parts,
      bumped by the word on the command line and joined again, then written
      into both files; the manifest's own version is not read. */
  method Run(packageJson: JsonFile, manifest: JsonFile, arg: string)
    returns (newPackage: JsonFile, newManifest: JsonFile)
    ensures newPackage == packageJson.(version := PartsText(BumpedParts(Parts(packageJson.version), BumpOf(arg))))
    ensures newManifest == manifest.(version := newPackage.version)
  {
    var bumpType := BumpOf(arg);
    var versionParts := Parts(packageJson.version);
    versionParts := BumpParts(versionParts, bumpType);
    var newVersion := PartsText(versionParts);
    newPackage := packageJson.(version := newVersion);
    newManifest := manifest.(version := newVersion);
  }

  /** On a version of three numbers, the version a run writes is the bumped
      numbers, which is strictly newer and reads back as those numbers. */
  lemma {:induction false} RunAgrees(version: string, arg: string, current: seq<nat>)
    requires |current| == 3 && Parts(version) == Nums(current)
    ensures var newVersion := PartsText(BumpedParts(Parts(version), BumpOf(arg)));
      && newVersion == VersionText(Bumped(current, BumpOf(arg)))
      && Parts(newVersion) == Nums(Bumped(current, BumpOf(arg)))
      && Older(current, Bumped(current, BumpOf(arg)))
  {
    var next := Bumped(current, BumpOf(arg));
    BumpedNumeric(current, BumpOf(arg));
    NumsText(next);
    BumpIsNewer(current, BumpOf(arg));
    VersionReadsBack(next);
  }

  lemma JoinParts(a: string, b: string, c: string, d: string)
    ensures Join([a, b], '.') == a + "." + b
    ensures Join([a, b, c], '.') == a + "." + b + "." + c
    ensures Join([a, b, c, d], '.') == a + "." + b + "." + c + "." + d
  {
    assert [a, b][1..] == [b];
    assert [a, b, c][1..] == [b, c];
    assert [a, b, c, d][1..] == [b, c, d];
    assert Join([b, c], '.') == b + "." + c by { assert [b, c][1..] == [c]; }
    assert Join([b, c, d], '.') == b + "." + c + "." + d by {
      assert [b, c, d][1..] == [c, d];
      assert Join([c, d], '.') == c + "." + d by { assert [c, d][1..] == [d]; }
    }
  }

  lemma PartsTextOf(a: JsValue, b: JsValue, c: JsValue, d: JsValue)
    ensures PartsText([a, b, c]) == PartText(a) + "." + PartText(b) + "." + PartText(c)
    ensures PartsText([a, b, c, d]) == PartText(a) + "." + PartText(b) + "." + PartText(c) + "." + PartText(d)
  {
    assert MapSeq([a, b, c], PartText) == [PartText(a), PartText(b), PartText(c)];
    assert MapSeq([a, b, c, d], PartText) == [PartText(a), PartText(b), PartText(c), PartText(d)];
    JoinParts(PartText(a), PartText(b), PartText(c), PartText(d));
  }

  lemma SmallNumbers()
    ensures NatToString(0) == "0" && NatToString(1) == "1" && NatToString(2) == "2"
    ensures NatToString(3) == "3" && NatToString(4) == "4"
  {
  }

  lemma {:induction false} PartsOfTwo()
    ensures Parts("1.2") == [Num(1), Num(2)]
  {
    var v: seq<nat> := [1, 2];
    SmallNumbers();
    assert MapSeq(v, NatToString) == ["1", "2"];
    JoinParts("1", "2", "", "");
    assert VersionText(v) == "1.2";
    VersionReadsBack(v);
    assert Nums(v) == [Num(1), Num(2)];
  }

  lemma {:induction false} PartsOfFour()
    ensures Parts("1.2.3.4") == [Num(1), Num(2), Num(3), Num(4)]
  {
    var v: seq<nat> := [1, 2, 3, 4];
    SmallNumbers();
    assert MapSeq(v, NatToString) == ["1", "2", "3", "4"];
    JoinParts("1", "2", "3", "4");
    assert VersionText(v) == "1.2.3.4";
    VersionReadsBack(v);
    assert Nums(v) == [Num(1), Num(2), Num(3), Num(4)];
  }

  /** A two-part version is lengthened to three by a major or minor bump. */
  lemma {:induction false} TwoPartsMajorMinor()
    ensures PartsText(BumpedParts(Parts("1.2"), Major)) == "2.0.0"
    ensures PartsText(BumpedParts(Parts("1.2"), Minor)) == "1.3.0"
  {
    PartsOfTwo();
    var parts := [Num(1), Num(2)];
    assert BumpedParts(parts, Major) == [Num(2), Num(0), Num(0)];
    assert BumpedParts(parts, Minor) == [Num(1), Num(3), Num(0)];
    SmallNumbers();
    PartsTextOf(Num(2), Num(0), Num(0), NaN);
    PartsTextOf(Num(1), Num(3), Num(0), NaN);
  }

  /** A patch bump of a two-part version increments a missing part, which
      is written as NaN. */
  lemma {:induction false} TwoPartsPatch()
    ensures PartsText(BumpedParts(Parts("1.2"), Patch)) == "1.2.NaN"
  {
    PartsOfTwo();
    assert BumpedParts([Num(1), Num(2)], Patch) == [Num(1), Num(2), NaN];
    SmallNumbers();
    PartsTextOf(Num(1), Num(2), NaN, NaN);
  }

  /** A patch bump keeps the parts after the third. */
  lemma {:induction false} FourPartsPatch()
    ensures PartsText(BumpedParts(Parts("1.2.3.4"), Patch)) == "1.2.4.4"
  {
    PartsOfFour();
    assert BumpedParts([Num(1), Num(2), Num(3), Num(4)], Patch) == [Num(1), Num(2), Num(4), Num(4)];
    SmallNumbers();
    PartsTextOf(Num(1), Num(2), Num(4), Num(4));
  }
}

=== FILE: common.dfy ===
/** Small building blocks shared by every module of the model: optional and
    error-carrying results, JavaScript's Math.round, and order-preserving
    filtering of sequences (Array.prototype.filter). */
module Common {

  datatype Option<+T> = None | Some(value: T)

  datatype Result<+T, +E> = Ok(value: T) | Err(error: E)

  /** JavaScript's Math.round: the nearest integer, with halves going up. */
  function Round(r: real): (n: int)
    ensures n as real - 0.5 <= r < n as real + 0.5
  {
    (r + 0.5).Floor
  }

  lemma RoundOfInt(k: int)
    ensures Round(k as real) == k
  {
  }

  /** Array.prototype.filter: the elements that pass `keep`, in their order. */
  function Filter<T(!new)>(xs: seq<T>, keep: T -> bool): (ys: seq<T>)
    ensures |ys| <= |xs|
    ensures forall y :: y in ys <==> y in xs && keep(y)
    ensures forall i :: 0 <= i < |ys| ==> keep(ys[i])
  {
    if |xs| == 0 then []
    else
      var rest := Filter(xs[1..], keep);
      assert forall y :: y in xs <==> y == xs[0] || y in xs[1..];
      if keep(xs[0]) then [xs[0]] + rest else rest
  }

  /** Filtering distributes over concatenation, which is what "in their
      original order" means for a filter. */
  lemma {:induction false} FilterAppend<T(!new)>(xs: seq<T>, zs: seq<T>, keep: T -> bool)
    ensures Filter(xs + zs, keep) == Filter(xs, keep) + Filter(zs, keep)
  {
    if |xs| == 0 {
      assert xs + zs == zs;
    } else {
      assert (xs + zs)[1..] == xs[1..] + zs;
      FilterAppend(xs[1..], zs, keep);
    }
  }

  /** Filtering twice with the same predicate changes nothing more. */
  lemma {:induction false} FilterIdempotent<T(!new)>(xs: seq<T>, keep: T -> bool)
    ensures Filter(Filter(xs, keep), keep) == Filter(xs, keep)
  {
    if |xs| > 0 {
      FilterIdempotent(xs[1..], keep);
      if keep(xs[0]) {
        var r := Filter(xs[1..], keep);
        assert ([xs[0]] + r)[1..] == r;
      }
    }
  }

  /** Everything passes: the filter is the identity. */
  lemma {:induction false} FilterAll<T(!new)>(xs: seq<T>, keep: T -> bool)
    requires forall x :: x in xs ==> keep(x)
    ensures Filter(xs, keep) == xs
  {
    if |xs| > 0 {
      assert forall x :: x in xs[1..] ==> x in xs;
      FilterAll(xs[1..], keep);
    }
  }

  /** Nothing passes: the filter is empty. */
  lemma {:induction false} FilterNone<T(!new)>(xs: seq<T>, keep: T -> bool)
    requires forall x :: x in xs ==> !keep(x)
    ensures Filter(xs, keep) == []
  {
    if |xs| > 0 {
      assert forall x :: x in xs[1..] ==> x in xs;
      FilterNone(xs[1..], keep);
    }
  }

  /** Two predicates that agree on the elements filter alike. */
  lemma {:induction false} FilterSame<T(!new)>(xs: seq<T>, p: T -> bool, q: T -> bool)
    requires forall x :: x in xs ==> p(x) == q(x)
    ensures Filter(xs, p) == Filter(xs, q)
  {
    if |xs| > 0 {
      assert forall x :: x in xs[1..] ==> x in xs;
      FilterSame(xs[1..], p, q);
    }
  }

  /** A relation between every earlier and every later element survives
      filtering, since the filter keeps the survivors' relative order. */
  lemma {:induction false} FilterPairwise<T(!new)>(xs: seq<T>, keep: T -> bool, rel: (T, T) -> bool)
    requires forall i, j :: 0 <= i < j < |xs| ==> rel(xs[i], xs[j])
    ensures forall i, j :: 0 <= i < j < |Filter(xs, keep)| ==> rel(Filter(xs, keep)[i], Filter(xs, keep)[j])
  {
    if |xs| > 0 {
      var rest := Filter(xs[1..], keep);
      FilterPairwise(xs[1..], keep, rel);
      if keep(xs[0]) {
        var ys := [xs[0]] + rest;
        forall i, j | 0 <= i < j < |ys|
          ensures rel(ys[i], ys[j])
        {
          if i == 0 {
            assert ys[j] in xs[1..];
            var k :| 0 <= k < |xs[1..]| && xs[1..][k] == ys[j];
            assert xs[k + 1] == ys[j];
          } else {
            assert ys[i] == rest[i - 1] && ys[j] == rest[j - 1];
          }
        }
      }
    }
  }

  /** Each value occurs in the filtered sequence as often as in the input
      when it passes, and not at all otherwise. */
  lemma {:induction false} FilterMultiplicity<T(!new)>(xs: seq<T>, keep: T -> bool, x: T)
    ensures multiset(Filter(xs, keep))[x] == if keep(x) then multiset(xs)[x] else 0
  {
    if |xs| > 0 {
      var head, tail := xs[0], xs[1..];
      var rest := Filter(tail, keep);
      FilterMultiplicity(tail, keep, x);
      assert xs == [head] + tail;
      assert multiset(xs)[x] == multiset([head])[x] + multiset(tail)[x];
      assert Filter(xs, keep) == if keep(head) then [head] + rest else rest;
      assert multiset([head] + rest)[x] == multiset([head])[x] + multiset(rest)[x];
    }
  }

  /** Sequences holding the same elements still do after the same filter. */
  lemma FilterSameElements<T(!new)>(xs: seq<T>, ys: seq<T>, keep: T -> bool)
    requires multiset(xs) == multiset(ys)
    ensures multiset(Filter(xs, keep)) == multiset(Filter(ys, keep))
  {
    forall x
      ensures multiset(Filter(xs, keep))[x] == multiset(Filter(ys, keep))[x]
    {
      FilterMultiplicity(xs, keep, x);
      FilterMultiplicity(ys, keep, x);
    }
  }

  /** A set after toggling one member (copy the Set, then delete the value
      when present and add it otherwise). */
  function Toggled<T(!new)>(s: set<T>, x: T): (t: set<T>)
    ensures x in t <==> x !in s
    ensures forall y :: y != x ==> (y in t <==> y in s)
  {
    if x in s then s - {x} else s + {x}
  }

  /** Toggling the same value twice restores the set. */
  lemma ToggleTwice<T(!new)>(s: set<T>, x: T)
    ensures Toggled(Toggled(s, x), x) == s
  {
    var once := Toggled(s, x);
    forall y
      ensures y in Toggled(once, x) <==> y in s
    {
      if y == x {
        assert y in once <==> y !in s;
      }
    }
  }

  /** Map over a sequence (Array.prototype.map). */
  function MapSeq<T, U>(xs: seq<T>, f: T -> U): (ys: seq<U>)
    ensures |ys| == |xs|
    ensures forall i :: 0 <= i < |xs| ==> ys[i] == f(xs[i])
  {
    seq(|xs|, i requires 0 <= i < |xs| => f(xs[i]))
  }

  /** No element occurs twice. */
  predicate Distinct<T(==)>(xs: seq<T>)
  {
    forall i, j :: 0 <= i < j < |xs| ==> xs[i] != xs[j]
  }

  /** A prefix of `b` after `a`, grown by one element. */
  lemma AppendPrefixStep<T>(a: seq<T>, b: seq<T>, k: nat)
    requires k < |b|
    ensures a + b[..k + 1] == (a + b[..k]) + [b[k]]
  {
    assert b[..k + 1] == b[..k] + [b[k]];
  }

  /** Filtering a prefix grown by one element. */
  lemma FilterSnoc<T(!new)>(xs: seq<T>, k: nat, keep: T -> bool)
    requires k < |xs|
    ensures Filter(xs[..k + 1], keep) == Filter(xs[..k], keep) + if keep(xs[k]) then [xs[k]] else []
  {
    assert xs[..k + 1] == xs[..k] + [xs[k]];
    FilterAppend(xs[..k], [xs[k]], keep);
    assert [xs[k]][1..] == [];
  }
}

=== FILE: content_script.dfy ===
/** Loading the content script into a tab before talking to it: the page
    check, the ping, the one-time injection and the second ping, and the
    message forwarding that depends on them.

    Every Chrome call (looking up the tab, pinging, injecting) is an input
    here: what the call did, or the message it failed with. The 200 ms wait
    after an injection is left out. */
module ContentScript {
  import opened Common
  import opened Strings

  /** The protocols of pages the extension cannot work on. */
  const UnsupportedProtocols: seq<string> := ["chrome:", "chrome-extension:", "moz-extension:", "edge:", "about:"]

  /** isValidUrl. */
  predicate IsSupportedUrl(url: string)
  {
    forall i :: 0 <= i < |UnsupportedProtocols| ==> !StartsWith(url, UnsupportedProtocols[i])
  }

  /** The words the unsupported-page error starts with; an error whose
      message contains them is passed on instead of triggering an injection. */
  const UnsupportedMarker := "이 페이지에서는"

  /** The unsupported-page error. */
  const UnsupportedPageMessage := UnsupportedMarker + " 확장 프로그램을 사용할 수 없습니다. 웹사이트로 이동한 후 다시 시도해주세요."

  /** The error sendMessageToContentScript raises when loading fails. */
  const NotLoadedMessage := "Content script could not be loaded. Please refresh the page and try again."

  /** What a Chrome call did: resolved, or rejected with a message. */
  datatype Outcome = Done | Failed(message: string)

  /** What ensureContentScriptLoaded did: its result (a boolean, or the error
      it throws), how many pings it sent and whether it injected the script. */
  datatype Loading = Loading(result: Result<bool, string>, pings: nat, injected: bool)

  /** The catch block: an unsupported-page error is passed on; any other
      failure leads to one injection and, if that works, a second ping. */
  function Recover(message: string, pingsSoFar: nat, inject: Outcome, secondPing: Outcome): (l: Loading)
    ensures Contains(message, UnsupportedMarker) ==> l == Loading(Err(message), pingsSoFar, false)
    ensures !Contains(message, UnsupportedMarker) ==> l.injected && l.result.Ok?
  {
    if Contains(message, UnsupportedMarker) then Loading(Err(message), pingsSoFar, false)
    else if inject.Failed? then Loading(Ok(false), pingsSoFar, true)
    else if secondPing.Failed? then Loading(Ok(false), pingsSoFar + 1, true)
    else Loading(Ok(true), pingsSoFar + 1, true)
  }

  /** ensureContentScriptLoaded. `tab` is chrome.tabs.get: the tab's URL
      ("" when it has none) or the message it failed with. */
  function EnsureLoaded(tab: Result<string, string>, firstPing: Outcome, inject: Outcome, secondPing: Outcome): Loading
  {
    match tab
    case Err(message) => Recover(message, 0, inject, secondPing)
    case Ok(url) =>
      if url == "" || !IsSupportedUrl(url) then Recover(UnsupportedPageMessage, 0, inject, secondPing)
      else match firstPing
        case Done => Loading(Ok(true), 1, false)
        case Failed(message) => Recover(message, 1, inject, secondPing)
  }

  lemma UnsupportedMessageMarked()
    ensures Contains(UnsupportedPageMessage, UnsupportedMarker)
  {
    assert UnsupportedPageMessage[..|UnsupportedMarker|] == UnsupportedMarker;
  }

  /** A tab with no URL or an unsupported one fails with the unsupported-page
      error, before any ping or injection. */
  lemma UnsupportedPageNotTouched(url: string, firstPing: Outcome, inject: Outcome, secondPing: Outcome)
    requires url == "" || !IsSupportedUrl(url)
    ensures EnsureLoaded(Ok(url), firstPing, inject, secondPing) == Loading(Err(UnsupportedPageMessage), 0, false)
  {
    UnsupportedMessageMarked();
  }

  /** A supported page whose content script answers the first ping is
      loaded, with nothing injected. */
  lemma AnsweringPageLoaded(url: string, inject: Outcome, secondPing: Outcome)
    requires url != "" && IsSupportedUrl(url)
    ensures EnsureLoaded(Ok(url), Done, inject, secondPing) == Loading(Ok(true), 1, false)
  {
  }

  /** After an ordinary failure of the first ping the script is injected
      once, and the result is whether the injection and the second ping both
      worked; with a failed injection there is no second ping. */
  lemma InjectAfterFailedPing(url: string, message: string, inject: Outcome, secondPing: Outcome)
    requires url != "" && IsSupportedUrl(url) && !Contains(message, UnsupportedMarker)
    ensures var l := EnsureLoaded(Ok(url), Failed(message), inject, secondPing);
      && l.injected
      && l.result == Ok(inject.Done? && secondPing.Done?)
      && l.pings == if inject.Done? then 2 else 1
  {
  }

  /** Whatever the calls do, at most two pings are sent and the script is
      injected only after a failure, and only when the page is supported. */
  lemma LoadingBounds(tab: Result<string, string>, firstPing: Outcome, inject: Outcome, secondPing: Outcome)
    ensures var l := EnsureLoaded(tab, firstPing, inject, secondPing);
      && l.pings <= 2
      && (l.injected ==> tab.Err? || firstPing.Failed?)
      && (l.injected && tab.Ok? ==> tab.value != "" && IsSupportedUrl(tab.value))
      && (l.result == Ok(true) ==> firstPing.Done? || secondPing.Done?)
  {
    UnsupportedMessageMarked();
  }

  /** What sendMessageToContentScript did: the message forwarded to the tab,
      if any, and what the returned promise settles to. */
  datatype Delivery<M, R> = Delivery(forwarded: Option<M>, result: Result<R, string>)

  /** sendMessageToContentScript: forwards the message once the script is
      loaded and settles as chrome.tabs.sendMessage does, with the content
      script's reply or the call's rejection (`reply`); a loading error is
      thrown on, and a failed load throws the not-loaded error without
      forwarding anything. */
  function SendMessage<M, R>(loading: Loading, message: M, reply: Result<R, string>): (d: Delivery<M, R>)
    ensures d.forwarded.Some? <==> loading.result == Ok(true)
    ensures d.forwarded.Some? ==> d.forwarded.value == message && d.result == reply
    ensures loading.result == Ok(false) ==> d.result == Err(NotLoadedMessage)
    ensures loading.result.Err? ==> d.result == Err(loading.result.error)
  {
    match loading.result
    case Err(e) => Delivery(None, Err(e))
    case Ok(loaded) => if !loaded then Delivery(None, Err(NotLoadedMessage)) else Delivery(Some(message), reply)
  }

  /** Pages of the browser and of extensions are refused; ordinary web pages
      are not. */
  lemma SupportedUrlExamples()
    ensures !IsSupportedUrl("chrome://extensions")
    ensures !IsSupportedUrl("about:blank")
    ensures IsSupportedUrl("https://example.com/")
  {
    assert StartsWith("chrome://extensions", UnsupportedProtocols[0]);
    assert StartsWith("about:blank", UnsupportedProtocols[4]);
    forall i | 0 <= i < |UnsupportedProtocols|
      ensures !StartsWith("https://example.com/", UnsupportedProtocols[i])
    {
      assert "https://example.com/"[0] != UnsupportedProtocols[i][0];
    }
  }
}

=== FILE: helpers.dfy ===
/** Two helpers of the style inspector: sorting computed CSS properties into
    the five categories, and choosing a selector for an element. */
module Helpers {
  import opened Common
  import opened Strings
  import opened StyleTypes

  // ---------------------------------------------------------------------
  // categorizeCSS
  // ---------------------------------------------------------------------

  const LayoutProps: seq<string> :=
    ["display", "position", "top", "right", "bottom", "left", "z-index",
     "float", "clear", "overflow", "overflow-x", "overflow-y", "visibility"]

  const TypographyProps: seq<string> :=
    ["font-family", "font-size", "font-weight", "font-style", "line-height",
     "letter-spacing", "text-align", "text-decoration", "text-transform",
     "white-space", "word-wrap", "word-break"]

  const ColorProps: seq<string> :=
    ["color", "background-color", "background-image", "background-position",
     "background-repeat", "background-size", "border-color", "box-shadow",
     "text-shadow", "opacity"]

  const SpacingProps: seq<string> :=
    ["margin", "margin-top", "margin-right", "margin-bottom", "margin-left",
     "padding", "padding-top", "padding-right", "padding-bottom", "padding-left",
     "width", "height", "min-width", "min-height", "max-width", "max-height"]

  datatype Category = Layout | Typography | Colors | Spacing | Others

  /** The tables are tried in order; a property in none of them is "others". */
  function CategoryOf(property: string): Category
  {
    if property in LayoutProps then Layout
    else if property in TypographyProps then Typography
    else if property in ColorProps then Colors
    else if property in SpacingProps then Spacing
    else Others
  }

  function Bucket(p: Properties, c: Category): Record
  {
    match c
    case Layout => p.layout
    case Typography => p.typography
    case Colors => p.colors
    case Spacing => p.spacing
    case Others => p.others
  }

  /** result[category][property] = value */
  function Place(p: Properties, d: Entry, category: Category): Properties
  {
    match category
    case Layout => p.(layout := Put(p.layout, d.name, d.value))
    case Typography => p.(typography := Put(p.typography, d.name, d.value))
    case Colors => p.(colors := Put(p.colors, d.name, d.value))
    case Spacing => p.(spacing := Put(p.spacing, d.name, d.value))
    case Others => p.(others := Put(p.others, d.name, d.value))
  }

  /** Placing a declaration assigns in its own category and leaves the
      other four alone. */
  lemma PlaceBucket(p: Properties, d: Entry, category: Category, c: Category)
    ensures Bucket(Place(p, d, category), c) == if c == category then Put(Bucket(p, c), d.name, d.value) else Bucket(p, c)
  {
    match c
    case Layout =>
    case Typography =>
    case Colors =>
    case Spacing =>
    case Others =>
  }

  /** The categories after the loop has seen `computed`, each property
      sorted by `categoryOf`. */
  function CategorizedBy(computed: seq<Entry>, categoryOf: string -> Category): Properties
    decreases |computed|
  {
    if |computed| == 0 then NoProperties
    else
      var d := computed[|computed| - 1];
      Place(CategorizedBy(computed[..|computed| - 1], categoryOf), d, categoryOf(d.name))
  }

  /** The categories after the loop has seen `computed`. */
  function Categorized(computed: seq<Entry>): Properties
  {
    CategorizedBy(computed, CategoryOf)
  }

  /** categorizeCSS over the computed declarations (property, value), in the
      order the style object lists them. */
  method CategorizeCss(computed: seq<Entry>) returns (result: Properties)
    ensures result == Categorized(computed)
  {
    result := Properties([], [], [], [], []);
    for i := 0 to |computed|
      invariant result == Categorized(computed[..i])
    {
      assert computed[..i + 1][..i] == computed[..i];
      var property := computed[i].name;
      var value := computed[i].value;
      if property in LayoutProps {
        result := result.(layout := Put(result.layout, property, value));
      } else if property in TypographyProps {
        result := result.(typography := Put(result.typography, property, value));
      } else if property in ColorProps {
        result := result.(colors := Put(result.colors, property, value));
      } else if property in SpacingProps {
        result := result.(spacing := Put(result.spacing, property, value));
      } else {
        result := result.(others := Put(result.others, property, value));
      }
    }
    assert computed[..|computed|] == computed;
  }

  /** The value the last declaration of `property` gives it. */
  function LastValue(computed: seq<Entry>, property: string): Option<string>
    decreases |computed|
  {
    if |computed| == 0 then None
    else if computed[|computed| - 1].name == property then Some(computed[|computed| - 1].value)
    else LastValue(computed[..|computed| - 1], property)
  }

  /** One more declaration changes only the bucket of its own category. */
  lemma CategorizedByLast(computed: seq<Entry>, categoryOf: string -> Category, c: Category)
    requires |computed| > 0
    ensures var n := |computed| - 1;
      Bucket(CategorizedBy(computed, categoryOf), c) ==
        if c == categoryOf(computed[n].name) then Put(Bucket(CategorizedBy(computed[..n], categoryOf), c), computed[n].name, computed[n].value)
        else Bucket(CategorizedBy(computed[..n], categoryOf), c)
  {
    var n := |computed| - 1;
    var d := computed[n];
    PlaceBucket(CategorizedBy(computed[..n], categoryOf), d, categoryOf(d.name), c);
  }

  lemma HasKeyLast(r: Record, k: string)
    requires |r| > 0
    ensures HasKey(r, k) <==> HasKey(r[..|r| - 1], k) || k == r[|r| - 1].name
  {
    var n := |r| - 1;
    assert r == r[..n] + [r[n]];
    NamesAppend(r[..n], [r[n]]);
  }

  lemma HasKeyPut(r: Record, key: string, v: string, k: string)
    ensures HasKey(Put(r, key, v), k) <==> HasKey(r, k) || k == key
  {
  }

  lemma {:induction false} CategorizedByHasKey(computed: seq<Entry>, categoryOf: string -> Category, c: Category, k: string)
    ensures HasKey(Bucket(CategorizedBy(computed, categoryOf), c), k) <==> c == categoryOf(k) && HasKey(computed, k)
    decreases |computed|
  {
    if |computed| > 0 {
      var n := |computed| - 1;
      var d := computed[n];
      CategorizedByHasKey(computed[..n], categoryOf, c, k);
      CategorizedByLast(computed, categoryOf, c);
      HasKeyPut(Bucket(CategorizedBy(computed[..n], categoryOf), c), d.name, d.value, k);
      HasKeyLast(computed, k);
    }
  }

  lemma {:induction false} CategorizedByLookup(computed: seq<Entry>, categoryOf: string -> Category, k: string)
    ensures Lookup(Bucket(CategorizedBy(computed, categoryOf), categoryOf(k)), k) == LastValue(computed, k)
    decreases |computed|
  {
    if |computed| > 0 {
      var n := |computed| - 1;
      var d := computed[n];
      var c := categoryOf(k);
      CategorizedByLookup(computed[..n], categoryOf, k);
      CategorizedByLast(computed, categoryOf, c);
      PutLookup(Bucket(CategorizedBy(computed[..n], categoryOf), c), d.name, d.value, k);
    }
  }

  /** Each property lands in exactly one category, the one its table gives,
      with the value of its last declaration; the categories hold nothing
      else. */
  lemma CategorizedHolds(computed: seq<Entry>, c: Category, k: string)
    ensures HasKey(Bucket(Categorized(computed), c), k) <==> c == CategoryOf(k) && HasKey(computed, k)
    ensures c == CategoryOf(k) ==> Lookup(Bucket(Categorized(computed), c), k) == LastValue(computed, k)
  {
    CategorizedByHasKey(computed, CategoryOf, c, k);
    CategorizedByLookup(computed, CategoryOf, k);
  }

  lemma {:induction false} CategorizedByKeysDistinct(computed: seq<Entry>, categoryOf: string -> Category, c: Category)
    ensures KeysDistinct(Bucket(CategorizedBy(computed, categoryOf), c))
    decreases |computed|
  {
    if |computed| > 0 {
      var d := computed[|computed| - 1];
      CategorizedByKeysDistinct(computed[..|computed| - 1], categoryOf, c);
      PlaceBucket(CategorizedBy(computed[..|computed| - 1], categoryOf), d, categoryOf(d.name), c);
    }
  }

  /** No category holds a property twice. */
  lemma CategorizedKeysDistinct(computed: seq<Entry>, c: Category)
    ensures KeysDistinct(Bucket(Categorized(computed), c))
  {
    CategorizedByKeysDistinct(computed, CategoryOf, c);
  }

  /** The set of declared property names. */
  function NameSet(computed: seq<Entry>): set<string>
  {
    set i | 0 <= i < |computed| :: computed[i].name
  }

  function Total(p: Properties): nat
  {
    |p.layout| + |p.typography| + |p.colors| + |p.spacing| + |p.others|
  }

  /** Placing a declaration adds one entry exactly when its category did
      not hold the property yet. */
  lemma PlaceTotal(p: Properties, d: Entry, category: Category)
    ensures Total(Place(p, d, category)) == Total(p) + if HasKey(Bucket(p, category), d.name) then 0 else 1
  {
    match category
    case Layout =>
    case Typography =>
    case Colors =>
    case Spacing =>
    case Others =>
  }

  lemma NameSetLast(computed: seq<Entry>)
    requires |computed| > 0
    ensures var n := |computed| - 1;
      && NameSet(computed) == NameSet(computed[..n]) + {computed[n].name}
      && (HasKey(computed[..n], computed[n].name) <==> computed[n].name in NameSet(computed[..n]))
  {
    var n := |computed| - 1;
    var d := computed[n];
    forall x | x in NameSet(computed)
      ensures x in NameSet(computed[..n]) + {d.name}
    {
      var i :| 0 <= i < |computed| && computed[i].name == x;
      if i < n {
        assert computed[..n][i].name == x;
      }
    }
    forall x | x in NameSet(computed[..n])
      ensures x in NameSet(computed)
    {
      var i :| 0 <= i < n && computed[..n][i].name == x;
      assert computed[i].name == x;
    }
    if d.name in NameSet(computed[..n]) {
      var i :| 0 <= i < n && computed[..n][i].name == d.name;
      assert Names(computed[..n])[i] == d.name;
    }
  }

  lemma {:induction false} CategorizedByTotal(computed: seq<Entry>, categoryOf: string -> Category)
    ensures Total(CategorizedBy(computed, categoryOf)) == |NameSet(computed)|
    decreases |computed|
  {
    if |computed| > 0 {
      var n := |computed| - 1;
      var d, before := computed[n], computed[..n];
      var placed := categoryOf(d.name);
      CategorizedByTotal(before, categoryOf);
      CategorizedByHasKey(before, categoryOf, placed, d.name);
      PlaceTotal(CategorizedBy(before, categoryOf), d, placed);
      NameSetLast(computed);
      SetAddCard(NameSet(before), d.name);
    }
  }

  lemma SetAddCard(s: set<string>, x: string)
    ensures |s + {x}| == |s| + if x in s then 0 else 1
  {
    if x in s {
      assert s + {x} == s;
    } else {
      assert s * {x} == {};
    }
  }

  /** Across the five categories there are as many entries as distinct
      property names were declared. */
  lemma CategorizedTotal(computed: seq<Entry>)
    ensures Total(Categorized(computed)) == |NameSet(computed)|
  {
    CategorizedByTotal(computed, CategoryOf);
  }

  lemma CategorizeNothing()
    ensures Categorized([]) == Properties([], [], [], [], [])
  {
  }

  // ---------------------------------------------------------------------
  // getElementSelector
  // ---------------------------------------------------------------------

  /** An element's parent, seen from the element: the tag names of the
      parent's children and the element's own position among them. */
  datatype Parent = Parent(childTags: seq<string>, position: nat)

  datatype Element = Element(id: string, className: string, tagName: string, parent: Option<Parent>)

  /** The element is the child at its position (the DOM guarantees this). */
  predicate InItsParent(el: Element)
  {
    el.parent.Some? ==>
      el.parent.value.position < |el.parent.value.childTags| &&
      ToLower(el.parent.value.childTags[el.parent.value.position]) == ToLower(el.tagName)
  }

  predicate NonEmptyPiece(s: string)
  {
    s != ""
  }

  /** className.split(' ').filter(Boolean) */
  function ClassPieces(className: string): (pieces: seq<string>)
    ensures forall p :: p in pieces ==> p != "" && ' ' !in p
  {
    Filter(Split(className, ' '), NonEmptyPiece)
  }

  /** The number of tags in `tags` that lower-case to `tag`. */
  function CountTag(tags: seq<string>, tag: string): (n: nat)
    ensures n <= |tags|
    decreases |tags|
  {
    if |tags| == 0 then 0
    else CountTag(tags[..|tags| - 1], tag) + (if ToLower(tags[|tags| - 1]) == tag then 1 else 0)
  }

  /** getElementSelector. */
  function ElementSelector(el: Element): (sel: string)
    requires InItsParent(el)
    ensures el.id != "" ==> sel == "#" + el.id
    ensures el.id == "" && |ClassPieces(el.className)| > 0 ==> sel == "." + Join(ClassPieces(el.className), '.')
    ensures el.id == "" && |ClassPieces(el.className)| == 0 ==> StartsWith(sel, ToLower(el.tagName))
  {
    if el.id != "" then "#" + el.id
    else if el.className != "" && |ClassPieces(el.className)| > 0 then "." + Join(ClassPieces(el.className), '.')
    else
      var tag := ToLower(el.tagName);
      match el.parent
      case None => tag
      case Some(p) =>
        if CountTag(p.childTags, tag) > 1 then
          var index := CountTag(p.childTags[..p.position], tag) + 1;
          var sel := tag + ":nth-of-type(" + NatToString(index) + ")";
          assert sel[..|tag|] == tag;
          sel
        else tag
  }

  /** The position of the k-th (1-based) child whose tag lower-cases to `tag`. */
  function NthOfType(tags: seq<string>, tag: string, k: nat): Option<nat>
    decreases |tags|
  {
    if |tags| == 0 || k == 0 then None
    else if ToLower(tags[0]) == tag then
      if k == 1 then Some(0)
      else match NthOfType(tags[1..], tag, k - 1)
        case Some(i) => Some(i + 1)
        case None => None
    else match NthOfType(tags[1..], tag, k)
      case Some(i) => Some(i + 1)
      case None => None
  }

  lemma {:induction false} CountTagFront(tags: seq<string>, tag: string)
    requires |tags| > 0
    ensures CountTag(tags, tag) == (if ToLower(tags[0]) == tag then 1 else 0) + CountTag(tags[1..], tag)
    decreases |tags|
  {
    if |tags| > 1 {
      assert tags[..|tags| - 1][1..] == tags[1..][..|tags[1..]| - 1];
      CountTagFront(tags[..|tags| - 1], tag);
    }
  }

  /** The child at `pos` is the (number of same-tag children before it + 1)-th
      child of its type. */
  lemma {:induction false} NthOfTypeFinds(tags: seq<string>, tag: string, pos: nat)
    requires pos < |tags| && ToLower(tags[pos]) == tag
    ensures NthOfType(tags, tag, CountTag(tags[..pos], tag) + 1) == Some(pos)
    decreases pos
  {
    if pos > 0 {
      CountTagFront(tags[..pos], tag);
      assert tags[..pos][1..] == tags[1..][..pos - 1];
      NthOfTypeFinds(tags[1..], tag, pos - 1);
    }
  }

  /** Without id and classes, the selector is the lower-cased tag; with a
      parent holding more than one child of that type it adds
      ':nth-of-type(k)', where k is 1-based and the k-th child of that type
      is the element itself. */
  lemma SelectorByType(el: Element)
    requires InItsParent(el) && el.id == "" && |ClassPieces(el.className)| == 0
    ensures el.parent.None? ==> ElementSelector(el) == ToLower(el.tagName)
    ensures el.parent.Some? && CountTag(el.parent.value.childTags, ToLower(el.tagName)) <= 1 ==>
      ElementSelector(el) == ToLower(el.tagName)
    ensures el.parent.Some? && CountTag(el.parent.value.childTags, ToLower(el.tagName)) > 1 ==>
      exists k: nat ::
        && 1 <= k <= CountTag(el.parent.value.childTags, ToLower(el.tagName))
        && ElementSelector(el) == ToLower(el.tagName) + ":nth-of-type(" + NatToString(k) + ")"
        && NthOfType(el.parent.value.childTags, ToLower(el.tagName), k) == Some(el.parent.value.position)
  {
    if el.parent.Some? {
      var p := el.parent.value;
      var tag := ToLower(el.tagName);
      if CountTag(p.childTags, tag) > 1 {
        var k := CountTag(p.childTags[..p.position], tag) + 1;
        NthOfTypeFinds(p.childTags, tag, p.position);
        CountTagSplit(p.childTags, tag, p.position);
        assert 1 <= k <= CountTag(p.childTags, tag);
      }
    }
  }

  lemma {:induction false} CountTagSplit(tags: seq<string>, tag: string, pos: nat)
    requires pos < |tags| && ToLower(tags[pos]) == tag
    ensures CountTag(tags[..pos], tag) + 1 <= CountTag(tags, tag)
    decreases |tags|
  {
    if |tags| - 1 > pos {
      assert tags[..|tags| - 1][..pos] == tags[..pos];
      CountTagSplit(tags[..|tags| - 1], tag, pos);
    } else {
      assert tags[..|tags| - 1] == tags[..pos];
    }
  }

  /** The class selector reads back into the element's class pieces when no
      piece holds a '.'. */
  lemma ClassSelectorReadsBack(el: Element)
    requires InItsParent(el) && el.id == "" && |ClassPieces(el.className)| > 0
    requires '.' !in el.className
    ensures Split(ElementSelector(el)[1..], '.') == ClassPieces(el.className)
  {
    var pieces := ClassPieces(el.className);
    forall p | p in pieces
      ensures '.' !in p
    {
      SplitPieceChars(el.className, ' ', p);
    }
    SplitJoin(pieces, '.');
    assert ("." + Join(pieces, '.'))[1..] == Join(pieces, '.');
  }

  /** Every character of a piece of a split occurs in the string. */
  lemma {:induction false} SplitPieceChars(s: string, sep: char, p: string)
    requires p in Split(s, sep)
    ensures forall c :: c in p ==> c in s
    decreases |s|
  {
    if |s| > 0 {
      var rest := Split(s[1..], sep);
      assert forall c :: c in s[1..] ==> c in s;
      if s[0] == sep {
        if p != "" {
          assert p in rest;
          SplitPieceChars(s[1..], sep, p);
        }
      } else if p == [s[0]] + rest[0] {
        SplitPieceChars(s[1..], sep, rest[0]);
      } else {
        assert p in rest[1..];
        SplitPieceChars(s[1..], sep, p);
      }
    }
  }
}

=== FILE: image_collector.dfy ===
/** The image collector of the image downloader: the type heuristic on URLs,
    the collection of img tags, background images and inline SVGs with URL
    de-duplication, the size enrichment and the final size filter, the
    download file names and the sequential download loop.

    The DOM is given as lists of the attributes the collector reads; the
    URL constructor, isValidUrl, base64 encoding, the size probes and the
    download itself are parameters. */
module ImageCollector {
  import opened Common
  import opened Strings

  /** An ImageData record. An absent width, height or size is 0, which the
      code treats exactly like undefined (both are falsy); an absent alt is "". */
  datatype ImageData = ImageData(url: string, src: string, alt: string, width: nat, height: nat, size: nat, imageType: string)

  /** JavaScript `s || d` on strings. */
  function OrElse(s: string, d: string): (r: string)
    ensures r != "" <== d != ""
    ensures s != "" ==> r == s
  {
    if s != "" then s else d
  }

  // ---------------------------------------------------------------------
  // getImageType

  /** The type rules of getImageType, in the order they are tried: the
      type name and the lower-case markers any one of which selects it. */
  const TypeRules: seq<(string, seq<string>)> := [
    ("jpeg", [".jpg", ".jpeg"]),
    ("png", [".png"]),
    ("gif", [".gif"]),
    ("webp", [".webp"]),
    ("bmp", [".bmp"]),
    ("tiff", [".tiff", ".tif"]),
    ("ico", [".ico"]),
    ("avif", [".avif"])
  ]

  /** Some marker occurs in `u`. */
  predicate Hits(u: string, markers: seq<string>)
  {
    exists k :: 0 <= k < |markers| && Contains(u, markers[k])
  }

  /** The type of the first rule (from index `k` on) with a marker in `u`. */
  function FirstRule(u: string, k: nat): string
    decreases |TypeRules| - k
  {
    if k >= |TypeRules| then "img"
    else if Hits(u, TypeRules[k].1) then TypeRules[k].0
    else FirstRule(u, k + 1)
  }

  /** getImageType. */
  function ImageType(url: string): string
  {
    var u := ToLower(url);
    if Contains(u, ".jpg") || Contains(u, ".jpeg") then "jpeg"
    else if Contains(u, ".png") then "png"
    else if Contains(u, ".gif") then "gif"
    else if Contains(u, ".webp") then "webp"
    else if Contains(u, ".bmp") then "bmp"
    else if Contains(u, ".tiff") || Contains(u, ".tif") then "tiff"
    else if Contains(u, ".ico") then "ico"
    else if Contains(u, ".avif") then "avif"
    else "img"
  }

  lemma HitsOne(u: string, m: string)
    ensures Hits(u, [m]) <==> Contains(u, m)
  {
    if Contains(u, m) {
      assert [m][0] == m;
    }
  }

  lemma HitsTwo(u: string, m: string, m': string)
    ensures Hits(u, [m, m']) <==> Contains(u, m) || Contains(u, m')
  {
    if Contains(u, m) {
      assert [m, m'][0] == m;
    }
    if Contains(u, m') {
      assert [m, m'][1] == m';
    }
  }

  /** The if-chain of getImageType is the first matching rule of the table. */
  lemma ImageTypeIsFirstRule(url: string)
    ensures ImageType(url) == FirstRule(ToLower(url), 0)
  {
    var u := ToLower(url);
    HitsTwo(u, ".jpg", ".jpeg");
    HitsOne(u, ".png");
    HitsOne(u, ".gif");
    HitsOne(u, ".webp");
    HitsOne(u, ".bmp");
    HitsTwo(u, ".tiff", ".tif");
    HitsOne(u, ".ico");
    HitsOne(u, ".avif");
  }

  lemma {:induction false} FirstRuleFrom(u: string, k: nat, j: nat)
    requires k <= |TypeRules|
    requires forall i :: k <= i < j && i < |TypeRules| ==> !Hits(u, TypeRules[i].1)
    requires j < |TypeRules| ==> Hits(u, TypeRules[j].1)
    requires k <= j
    ensures FirstRule(u, k) == if j < |TypeRules| then TypeRules[j].0 else "img"
    decreases |TypeRules| - k
  {
    if k < j && k < |TypeRules| {
      FirstRuleFrom(u, k + 1, j);
    }
  }

  /** The priority order: the result is the type of rule `j` exactly when a
      marker of rule `j` occurs in the lower-cased URL and none of an earlier
      rule does, and it is "img" exactly when no marker occurs at all. */
  lemma ImageTypePriority(url: string, j: nat)
    requires j < |TypeRules|
    ensures ImageType(url) == TypeRules[j].0 <==>
      Hits(ToLower(url), TypeRules[j].1) && forall i :: 0 <= i < j ==> !Hits(ToLower(url), TypeRules[i].1)
    ensures ImageType(url) == "img" <==> forall i :: 0 <= i < |TypeRules| ==> !Hits(ToLower(url), TypeRules[i].1)
  {
    var u := ToLower(url);
    ImageTypeIsFirstRule(url);
    var first := FirstHit(u, 0);
    FirstRuleFrom(u, 0, first);
  }

  /** The index of the first rule with a marker in `u`, or |TypeRules|. */
  function FirstHit(u: string, k: nat): (j: nat)
    requires k <= |TypeRules|
    ensures k <= j <= |TypeRules|
    ensures forall i :: k <= i < j ==> !Hits(u, TypeRules[i].1)
    ensures j < |TypeRules| ==> Hits(u, TypeRules[j].1)
    decreases |TypeRules| - k
  {
    if k == |TypeRules| then k
    else if Hits(u, TypeRules[k].1) then k
    else FirstHit(u, k + 1)
  }

  // ---------------------------------------------------------------------
  // getImageExtension

  /** The alternatives of the extension pattern, in the pattern's order. */
  const ImageExtensions: seq<string> := ["jpg", "jpeg", "png", "gif", "svg", "webp", "bmp"]

  /** The case-insensitive pattern matches with extension `e` at the dot at
      index `i`: the dot, `e` in any case, then '?' or the end. */
  predicate ExtensionAt(s: string, i: int, e: string)
  {
    && 0 <= i && i + 1 + |e| <= |s|
    && s[i] == '.'
    && ToLower(s[i + 1..i + 1 + |e|]) == e
    && (i + 1 + |e| == |s| || s[i + 1 + |e|] == '?')
  }

  /** The first alternative (from index `k` on) that matches at index `i`. */
  function AlternativeAt(s: string, i: int, k: nat): (r: Option<string>)
    requires k <= |ImageExtensions|
    ensures r.Some? ==> r.value in ImageExtensions[k..] && ExtensionAt(s, i, r.value)
    ensures r.None? ==> forall e :: e in ImageExtensions[k..] ==> !ExtensionAt(s, i, e)
    decreases |ImageExtensions| - k
  {
    if k == |ImageExtensions| then None
    else if ExtensionAt(s, i, ImageExtensions[k]) then Some(ImageExtensions[k])
    else
      assert ImageExtensions[k..] == [ImageExtensions[k]] + ImageExtensions[k + 1..];
      AlternativeAt(s, i, k + 1)
  }

  /** The leftmost match at or after index `i`, its group lower-cased. */
  function ExtensionFrom(s: string, i: nat): (r: Option<string>)
    ensures r.Some? ==> r.value in ImageExtensions
    decreases |s| - i
  {
    if i >= |s| then None
    else match AlternativeAt(s, i, 0)
      case Some(e) => Some(e)
      case None => ExtensionFrom(s, i + 1)
  }

  /** getImageExtension. */
  function ImageExtension(url: string): Option<string>
  {
    ExtensionFrom(url, 0)
  }

  /** No alternative of the pattern matches at any index in [i, j). */
  predicate NoMatchBetween(s: string, i: int, j: int)
  {
    forall j', e :: i <= j' < j && e in ImageExtensions ==> !ExtensionAt(s, j', e)
  }

  lemma {:induction false} ExtensionFromFound(s: string, i: nat) returns (j: nat)
    requires ExtensionFrom(s, i).Some?
    ensures i <= j && ExtensionAt(s, j, ExtensionFrom(s, i).value) && NoMatchBetween(s, i, j)
    decreases |s| - i
  {
    assert ImageExtensions[0..] == ImageExtensions;
    if AlternativeAt(s, i, 0).Some? {
      j := i;
    } else {
      j := ExtensionFromFound(s, i + 1);
      assert forall e :: e in ImageExtensions ==> !ExtensionAt(s, i, e);
    }
  }

  lemma {:induction false} ExtensionFromNotFound(s: string, i: nat)
    requires ExtensionFrom(s, i).None?
    ensures forall j, e :: i <= j && e in ImageExtensions ==> !ExtensionAt(s, j, e)
    decreases |s| - i
  {
    if i < |s| {
      assert ImageExtensions[0..] == ImageExtensions;
      assert forall e :: e in ImageExtensions ==> !ExtensionAt(s, i, e);
      ExtensionFromNotFound(s, i + 1);
    }
  }

  lemma ExtensionFromLeftmost(s: string, i: nat)
    ensures ExtensionFrom(s, i).Some? ==> exists j :: (i <= j && ExtensionAt(s, j, ExtensionFrom(s, i).value) &&
      forall j', e :: i <= j' < j && e in ImageExtensions ==> !ExtensionAt(s, j', e))
    ensures ExtensionFrom(s, i).None? ==> forall j, e :: i <= j && e in ImageExtensions ==> !ExtensionAt(s, j, e)
  {
    if ExtensionFrom(s, i).Some? {
      var j := ExtensionFromFound(s, i);
      assert NoMatchBetween(s, i, j);
    } else {
      ExtensionFromNotFound(s, i);
    }
  }

  /** The extension found is one of the pattern's, lower-case, and sits at
      the leftmost position where the pattern matches; no extension is found
      exactly when the pattern matches nowhere. */
  lemma ImageExtensionLeftmost(url: string)
    ensures ImageExtension(url).Some? ==> ImageExtension(url).value in ImageExtensions
    ensures ImageExtension(url).Some? ==> exists j :: (ExtensionAt(url, j, ImageExtension(url).value) &&
      forall j', e :: 0 <= j' < j && e in ImageExtensions ==> !ExtensionAt(url, j', e))
    ensures ImageExtension(url).None? <==> forall j, e :: e in ImageExtensions ==> !ExtensionAt(url, j, e)
  {
    ExtensionFromLeftmost(url, 0);
  }

  // ---------------------------------------------------------------------
  // generateFilename

  /** The extension used when none is known: jpg for a background image,
      png for anything else. */
  function DefaultExtension(imageType: string): (e: string)
    ensures e == "jpg" || e == "png"
  {
    if imageType == "background" then "jpg" else "png"
  }

  /** `pathname.split('/').pop() || 'image'`. */
  function LastSegment(pathname: string): (seg: string)
    ensures seg != "" && '/' !in seg
  {
    var parts := Split(pathname, '/');
    assert parts[|parts| - 1] in parts;
    OrElse(parts[|parts| - 1], "image")
  }

  /** The alt text, or `base`, with the default extension. */
  function FallbackName(alt: string, imageType: string): string
  {
    OrElse(alt, "image") + "." + DefaultExtension(imageType)
  }

  /** The extension given to a dot-less path segment: the one in the URL, or
      the default. */
  function ExtensionFor(url: string, imageType: string): (e: string)
    ensures e in ImageExtensions || e == DefaultExtension(imageType)
  {
    match ImageExtension(url)
    case Some(e) => e
    case None => DefaultExtension(imageType)
  }

  /** The name taken from the last path segment of a parseable URL. */
  function NameFromSegment(segment: string, url: string, imageType: string): string
  {
    if '.' !in segment then segment + "." + ExtensionFor(url, imageType) else segment
  }

  /** generateFilename. `pathnameOf` stands for the URL constructor: the
      pathname of a parseable URL, None where the constructor throws. */
  function GenerateFilename(image: ImageData, pathnameOf: string -> Option<string>): string
  {
    if image.imageType == "svg" then OrElse(image.alt, "svg-image") + ".svg"
    else if StartsWith(image.src, "blob:") then FallbackName(image.alt, image.imageType)
    else match pathnameOf(image.src)
      case None => FallbackName(image.alt, image.imageType)
      case Some(pathname) => NameFromSegment(LastSegment(pathname), image.src, image.imageType)
  }

  lemma DotJoined(a: string, b: string)
    ensures '.' in a + "." + b
    ensures Join([a, b], '.') == a + "." + b
  {
    assert (a + "." + b)[|a|] == '.';
    JoinCons(a, [b], '.');
  }

  lemma ExtensionsHaveNoDot(e: string)
    requires e in ImageExtensions || e == "jpg" || e == "png"
    ensures '.' !in e && '/' !in e
  {
  }

  /** Two dot-less parts joined by a dot split back into the two parts. */
  lemma DotJoinedSplits(a: string, b: string)
    requires '.' !in a && '.' !in b
    ensures Split(a + "." + b, '.') == [a, b]
  {
    DotJoined(a, b);
    assert forall p :: p in [a, b] ==> '.' !in p;
    SplitJoin([a, b], '.');
  }

  lemma DotJoinedNoSlash(a: string, b: string)
    requires '/' !in a && '/' !in b
    ensures '/' !in a + "." + b
  {
    var n := a + "." + b;
    forall k | 0 <= k < |n|
      ensures n[k] != '/'
    {
      if k < |a| {
        assert n[k] == a[k];
      } else if k > |a| {
        assert n[k] == b[k - |a| - 1];
      }
    }
  }

  /** Every generated name has an extension: it contains a dot. */
  lemma FilenameHasDot(image: ImageData, pathnameOf: string -> Option<string>)
    ensures '.' in GenerateFilename(image, pathnameOf)
  {
    if image.imageType == "svg" {
      DotJoined(OrElse(image.alt, "svg-image"), "svg");
    } else if StartsWith(image.src, "blob:") || pathnameOf(image.src).None? {
      DotJoined(OrElse(image.alt, "image"), DefaultExtension(image.imageType));
    } else {
      var seg := LastSegment(pathnameOf(image.src).value);
      if '.' !in seg {
        DotJoined(seg, ExtensionFor(image.src, image.imageType));
      }
    }
  }

  /** For a parseable URL the name comes from the last path segment and has
      no '/': a segment with a dot is kept as it is, and a dot-less one splits
      at the dot back into the segment and an extension that is either the
      URL's or the default. */
  lemma FilenameFromPath(image: ImageData, pathnameOf: string -> Option<string>, pathname: string)
    requires image.imageType != "svg" && !StartsWith(image.src, "blob:")
    requires pathnameOf(image.src) == Some(pathname)
    ensures var name := GenerateFilename(image, pathnameOf);
      && '/' !in name
      && ('.' in LastSegment(pathname) ==> name == LastSegment(pathname))
      && ('.' !in LastSegment(pathname) ==>
            && |Split(name, '.')| == 2
            && Split(name, '.')[0] == LastSegment(pathname)
            && Split(name, '.')[1] == ExtensionFor(image.src, image.imageType))
  {
    var seg := LastSegment(pathname);
    if '.' !in seg {
      var e := ExtensionFor(image.src, image.imageType);
      ExtensionsHaveNoDot(e);
      DotJoinedSplits(seg, e);
      DotJoinedNoSlash(seg, e);
    }
  }

  // ---------------------------------------------------------------------
  // The SVG file-name fix of downloadImage

  /** The alternatives of the raster-extension pattern. */
  const RasterExtensions: seq<string> := ["jpg", "jpeg", "png", "gif", "webp", "bmp"]

  /** `name` ends with a dot and `e` in any case. */
  predicate EndsWithExtension(name: string, e: string)
  {
    |e| + 1 <= |name| && name[|name| - |e| - 1] == '.' && ToLower(name[|name| - |e|..]) == e
  }

  /** The first raster extension (from index `k` on) that ends `name`. */
  function RasterEnding(name: string, k: nat): (r: Option<string>)
    requires k <= |RasterExtensions|
    ensures r.Some? ==> r.value in RasterExtensions && EndsWithExtension(name, r.value)
    ensures r.None? ==> forall e :: e in RasterExtensions[k..] ==> !EndsWithExtension(name, e)
    decreases |RasterExtensions| - k
  {
    if k == |RasterExtensions| then None
    else if EndsWithExtension(name, RasterExtensions[k]) then Some(RasterExtensions[k])
    else
      assert RasterExtensions[k..] == [RasterExtensions[k]] + RasterExtensions[k + 1..];
      RasterEnding(name, k + 1)
  }

  /** `name.replace(/\.(jpg|jpeg|png|gif|webp|bmp)$/i, '.svg')`. */
  function ReplaceRasterEnding(name: string): string
  {
    match RasterEnding(name, 0)
    case Some(e) => name[..|name| - |e| - 1] + ".svg"
    case None => name
  }

  /** The fix applied to the name of an SVG download. */
  function SvgFilename(name: string): string
  {
    if EndsWith(name, ".svg") then name
    else
      var replaced := ReplaceRasterEnding(name);
      if '.' !in replaced then replaced + ".svg" else replaced
  }

  lemma EndsWithSvg(stem: string)
    ensures EndsWith(stem + ".svg", ".svg")
    ensures '.' in stem + ".svg"
  {
    assert (stem + ".svg")[|stem + ".svg"| - 4..] == ".svg";
    assert (stem + ".svg")[|stem|] == '.';
  }

  /** The fix yields a name ending in ".svg", or leaves a name that already
      has some other extension unchanged: a raster extension is replaced by
      ".svg" and a dot-less name gets ".svg" appended. */
  lemma SvgFilenameShape(name: string)
    ensures EndsWith(SvgFilename(name), ".svg") || (SvgFilename(name) == name && '.' in name)
    ensures !EndsWith(name, ".svg") && RasterEnding(name, 0).Some? ==>
      SvgFilename(name) == name[..|name| - |RasterEnding(name, 0).value| - 1] + ".svg"
    ensures '.' !in name ==> SvgFilename(name) == name + ".svg"
  {
    if !EndsWith(name, ".svg") {
      match RasterEnding(name, 0)
      case Some(e) =>
        EndsWithSvg(name[..|name| - |e| - 1]);
        assert name[|name| - |e| - 1] == '.';
      case None =>
        if '.' !in name {
          EndsWithSvg(name);
        }
    } else {
      assert name[|name| - 4] == ".svg"[0];
    }
  }

  /** Applying the fix twice is the same as applying it once. */
  lemma SvgFilenameIdempotent(name: string)
    ensures SvgFilename(SvgFilename(name)) == SvgFilename(name)
  {
    SvgFilenameShape(name);
  }

  /** The fix never changes a name that generateFilename made for an SVG. */
  lemma GeneratedSvgNameKept(image: ImageData, pathnameOf: string -> Option<string>)
    requires image.imageType == "svg"
    ensures SvgFilename(GenerateFilename(image, pathnameOf)) == GenerateFilename(image, pathnameOf)
  {
    EndsWithSvg(OrElse(image.alt, "svg-image"));
  }

  // ---------------------------------------------------------------------
  // collectImages

  /** An img element: its src, its data-src, alt and natural size (0 when
      the image has not loaded). */
  datatype ImgTag = ImgTag(src: string, dataSrc: string, alt: string, naturalWidth: nat, naturalHeight: nat)

  /** An svg element: its markup and its client and bounding-box sizes. */
  datatype SvgTag = SvgTag(outerHTML: string, clientWidth: nat, rectWidth: nat, clientHeight: nat, rectHeight: nat)

  /** The record an img tag offers: present when its source is non-empty and
      valid; the url is that source and the type comes from it. */
  function FromImgTag(tag: ImgTag, valid: string -> bool): (r: Option<ImageData>)
    ensures var src := OrElse(tag.src, tag.dataSrc);
      && (r.Some? <==> src != "" && valid(src))
      && (r.Some? ==> r.value.url == src && r.value.src == src && r.value.alt == tag.alt)
    ensures r.Some? ==> r.value.url != "" && valid(r.value.url) && r.value.imageType == ImageType(r.value.url)
  {
    var src := OrElse(tag.src, tag.dataSrc);
    if src != "" && valid(src) then Some(ImageData(src, src, tag.alt, tag.naturalWidth, tag.naturalHeight, 0, ImageType(src)))
    else None
  }

  /** The type of a background image: "background" for an unrecognised URL,
      the recognised type with "-bg" appended otherwise. */
  function BackgroundType(urlType: string): (t: string)
    ensures t == "background" || EndsWith(t, "-bg")
    ensures urlType != "img" ==> StartsWith(t, urlType)
  {
    if urlType == "img" then "background"
    else
      assert (urlType + "-bg")[|urlType + "-bg"| - 3..] == "-bg";
      assert (urlType + "-bg")[..|urlType|] == urlType;
      urlType + "-bg"
  }

  // The pattern url\(["']?(.*?)["']?\) on a computed background-image value.

  predicate IsQuote(c: char)
  {
    c == '"' || c == '\''
  }

  /** The characters `.` does not match. */
  predicate IsLineTerminator(c: char)
  {
    c == '\n' || c == '\r' || c == '\U{2028}' || c == '\U{2029}'
  }

  /** `["']?\)` matches at `j`: an optional quote, then ')'. */
  predicate ClosesAt(s: string, j: nat)
  {
    j < |s| && (s[j] == ')' || (IsQuote(s[j]) && j + 1 < |s| && s[j + 1] == ')'))
  }

  /** Where the lazy group `(.*?)` begun at `from` ends: the first position
      at which the closing part matches, as long as no line terminator comes
      first. */
  function GroupEnd(s: string, from: nat): (j: Option<nat>)
    requires from <= |s|
    ensures j.Some? ==> from <= j.value < |s| && ClosesAt(s, j.value)
    ensures j.Some? ==> forall k :: from <= k < j.value ==> s[k] != ')' && !IsLineTerminator(s[k])
    decreases |s| - from
  {
    if from == |s| then None
    else if ClosesAt(s, from) then Some(from)
    else if IsLineTerminator(s[from]) then None
    else GroupEnd(s, from + 1)
  }

  /** Where the group lies, as [start, end), when the pattern matches
      starting at `i`: the optional opening quote is taken when present and
      the match succeeds that way, and is otherwise left to the group. */
  function UrlGroupAt(s: string, i: nat): (g: Option<(nat, nat)>)
    requires i <= |s|
    ensures g.Some? ==> i + 4 <= g.value.0 <= g.value.1 < |s| && s[i..i + 4] == "url(" && ClosesAt(s, g.value.1)
    ensures g.Some? ==> forall k :: g.value.0 <= k < g.value.1 ==> s[k] != ')'
  {
    if |s| - i >= 4 && s[i..i + 4] == "url(" then
      var q := i + 4;
      if q < |s| && IsQuote(s[q]) && GroupEnd(s, q + 1).Some? then Some((q + 1, GroupEnd(s, q + 1).value))
      else match GroupEnd(s, q)
        case Some(j) => Some((q, j))
        case None => None
    else None
  }

  /** String.prototype.match without the global flag: the group at the
      leftmost position from `i` on at which the pattern matches. */
  function FirstUrlGroup(s: string, i: nat): (g: Option<(nat, nat)>)
    requires i <= |s|
    ensures g.Some? ==> i <= g.value.0 <= g.value.1 < |s|
    ensures g.Some? ==> forall k :: g.value.0 <= k < g.value.1 ==> s[k] != ')'
    decreases |s| - i
  {
    match UrlGroupAt(s, i)
    case Some(g) => Some(g)
    case None => if i == |s| then None else FirstUrlGroup(s, i + 1)
  }

  /** The URL a computed background-image value names: "" when the value is
      empty or "none", when the pattern does not match, or when its group is
      empty. A URL found is shorter than the value and holds no ')'. */
  function BackgroundUrl(backgroundImage: string): (url: string)
    ensures url != "" ==> |url| < |backgroundImage| && backgroundImage != "none"
    ensures forall k :: 0 <= k < |url| ==> url[k] != ')'
  {
    if backgroundImage == "" || backgroundImage == "none" then ""
    else match FirstUrlGroup(backgroundImage, 0)
      case Some((start, end)) => backgroundImage[start..end]
      case None => ""
  }

  /** The group runs up to the first closing part. */
  lemma {:induction false} GroupEndFinds(s: string, from: nat, j: nat)
    requires from <= j && ClosesAt(s, j)
    requires forall k :: from <= k < j ==> !ClosesAt(s, k) && !IsLineTerminator(s[k])
    ensures GroupEnd(s, from) == Some(j)
    decreases j - from
  {
    if from < j {
      GroupEndFinds(s, from + 1, j);
    }
  }

  /** A value written as url("u"), url('u') or url(u), for a URL free of
      ')', quotes and line terminators, names u. */
  lemma {:induction false} BackgroundUrlReadsBack(u: string, quote: string)
    requires u != "" && quote in ["\"", "'", ""]
    requires forall k :: 0 <= k < |u| ==> u[k] != ')' && !IsQuote(u[k]) && !IsLineTerminator(u[k])
    ensures BackgroundUrl("url(" + quote + u + quote + ")") == u
  {
    var s := "url(" + quote + u + quote + ")";
    var q := 4;
    var from := q + |quote|;
    var j := from + |u|;
    assert s[..4] == "url(";
    assert s[from..j] == u;
    assert ClosesAt(s, j);
    forall k | from <= k < j
      ensures !ClosesAt(s, k) && !IsLineTerminator(s[k])
    {
      assert s[k] == u[k - from];
    }
    GroupEndFinds(s, from, j);
    assert s != "" && s != "none";
  }

  /** The record a background image offers. `url` is the group of the
      url(...) pattern in the element's background-image, "" when there is
      none or it does not match. */
  function FromBackground(url: string, valid: string -> bool): (r: Option<ImageData>)
    ensures r.Some? <==> url != "" && valid(url)
    ensures r.Some? ==> r.value.url == url && r.value.src == url && r.value.imageType == BackgroundType(ImageType(url))
  {
    if url != "" && valid(url) then Some(ImageData(url, url, "", 0, 0, 0, BackgroundType(ImageType(url)))) else None
  }

  /** The URLs recorded so far (the imageUrls set). */
  function Urls(images: seq<ImageData>): set<string>
  {
    set i | 0 <= i < |images| :: images[i].url
  }

  /** The records the img tags offer, one per tag, in document order. */
  function TagOffers(tags: seq<ImgTag>, valid: string -> bool): (offers: seq<Option<ImageData>>)
    ensures |offers| == |tags|
  {
    if |tags| == 0 then [] else TagOffers(tags[..|tags| - 1], valid) + [FromImgTag(tags[|tags| - 1], valid)]
  }

  /** The records the background images offer, one per element, from the
      URLs the pattern finds in the elements' background-image values. */
  function BackgroundOffers(urls: seq<string>, valid: string -> bool): (offers: seq<Option<ImageData>>)
    ensures |offers| == |urls|
  {
    if |urls| == 0 then [] else BackgroundOffers(urls[..|urls| - 1], valid) + [FromBackground(urls[|urls| - 1], valid)]
  }

  /** Appending, in order, each offered record whose URL is not recorded
      yet; a URL is recorded by the record that adds it. */
  function Gather(images: seq<ImageData>, offers: seq<Option<ImageData>>): seq<ImageData>
  {
    if |offers| == 0 then images
    else
      var prev := Gather(images, offers[..|offers| - 1]);
      match offers[|offers| - 1]
      case None => prev
      case Some(x) => if x.url in Urls(prev) then prev else prev + [x]
  }

  predicate DistinctUrls(images: seq<ImageData>)
  {
    forall i, j :: 0 <= i < j < |images| ==> images[i].url != images[j].url
  }

  lemma UrlsAppend(images: seq<ImageData>, x: ImageData)
    ensures Urls(images + [x]) == Urls(images) + {x.url}
  {
    var ys := images + [x];
    assert ys[|images|] == x;
    forall u | u in Urls(images)
      ensures u in Urls(ys)
    {
      var i :| 0 <= i < |images| && images[i].url == u;
      assert ys[i] == images[i];
    }
  }

  /** The records already present stay in front. */
  lemma {:induction false} GatherExtends(images: seq<ImageData>, offers: seq<Option<ImageData>>)
    ensures |images| <= |Gather(images, offers)| && Gather(images, offers)[..|images|] == images
    decreases |offers|
  {
    if |offers| > 0 {
      var prev := Gather(images, offers[..|offers| - 1]);
      GatherExtends(images, offers[..|offers| - 1]);
      if Gather(images, offers) != prev {
        var x := offers[|offers| - 1].value;
        assert Gather(images, offers) == prev + [x];
        assert (prev + [x])[..|images|] == prev[..|images|];
      }
    }
  }

  lemma UrlsOfPrefix(images: seq<ImageData>, r: seq<ImageData>)
    requires |images| <= |r| && r[..|images|] == images
    ensures Urls(images) <= Urls(r)
  {
    forall u | u in Urls(images)
      ensures u in Urls(r)
    {
      var i :| 0 <= i < |images| && images[i].url == u;
      assert r[i] == images[i];
    }
  }

  /** No URL is recorded twice. */
  lemma {:induction false} GatherDistinct(images: seq<ImageData>, offers: seq<Option<ImageData>>)
    requires DistinctUrls(images)
    ensures DistinctUrls(Gather(images, offers))
    decreases |offers|
  {
    if |offers| > 0 {
      var prev := Gather(images, offers[..|offers| - 1]);
      GatherDistinct(images, offers[..|offers| - 1]);
      if Gather(images, offers) != prev {
        var x := offers[|offers| - 1].value;
        var r := prev + [x];
        assert x.url !in Urls(prev);
        forall i, j | 0 <= i < j < |r|
          ensures r[i].url != r[j].url
        {
          if j == |prev| {
            assert r[i] == prev[i];
          }
        }
      }
    }
  }

  /** Every offered URL ends up recorded. */
  lemma {:induction false} GatherCovers(images: seq<ImageData>, offers: seq<Option<ImageData>>)
    ensures forall i :: 0 <= i < |offers| && offers[i].Some? ==> offers[i].value.url in Urls(Gather(images, offers))
    decreases |offers|
  {
    if |offers| > 0 {
      var n := |offers| - 1;
      var prev := Gather(images, offers[..n]);
      var r := Gather(images, offers);
      GatherCovers(images, offers[..n]);
      if r != prev {
        UrlsAppend(prev, offers[n].value);
      }
      forall i | 0 <= i < |offers| && offers[i].Some?
        ensures offers[i].value.url in Urls(r)
      {
        if i < n {
          assert offers[..n][i] == offers[i];
        }
      }
    }
  }

  /** `x` is offered, and no earlier offer has its URL. */
  predicate FirstOffered(offers: seq<Option<ImageData>>, x: ImageData)
  {
    exists i :: 0 <= i < |offers| && offers[i] == Some(x) &&
      forall j :: 0 <= j < i && offers[j].Some? ==> offers[j].value.url != x.url
  }

  lemma FirstOfferedLonger(offers: seq<Option<ImageData>>, n: nat, x: ImageData)
    requires n <= |offers| && FirstOffered(offers[..n], x)
    ensures FirstOffered(offers, x)
  {
    var i :| 0 <= i < n && offers[..n][i] == Some(x) &&
      forall j :: 0 <= j < i && offers[..n][j].Some? ==> offers[..n][j].value.url != x.url;
    assert offers[i] == Some(x);
    forall j | 0 <= j < i && offers[j].Some?
      ensures offers[j].value.url != x.url
    {
      assert offers[..n][j] == offers[j];
    }
  }

  /** Each added record is new and is the first one offered with its URL. */
  lemma {:induction false} GatherFirst(images: seq<ImageData>, offers: seq<Option<ImageData>>)
    ensures var r := Gather(images, offers);
      forall k :: |images| <= k < |r| ==> r[k].url !in Urls(images) && FirstOffered(offers, r[k])
    decreases |offers|
  {
    if |offers| > 0 {
      var n := |offers| - 1;
      var prev := Gather(images, offers[..n]);
      var r := Gather(images, offers);
      GatherFirst(images, offers[..n]);
      GatherExtends(images, offers[..n]);
      UrlsOfPrefix(images, prev);
      forall k | |images| <= k < |prev|
        ensures FirstOffered(offers, prev[k])
      {
        FirstOfferedLonger(offers, n, prev[k]);
      }
      if r != prev {
        var x := offers[n].value;
        assert r == prev + [x];
        GatherCovers(images, offers[..n]);
        forall j | 0 <= j < n && offers[j].Some?
          ensures offers[j].value.url != x.url
        {
          assert offers[..n][j] == offers[j];
        }
        assert FirstOffered(offers, x);
        forall k | |images| <= k < |r|
          ensures r[k].url !in Urls(images) && FirstOffered(offers, r[k])
        {
          if k < |prev| {
            assert r[k] == prev[k];
          }
        }
      }
    }
  }

  /** De-duplication: the records already present stay in front, no URL is
      recorded twice, every offered URL ends up recorded, and each added
      record is the first one offered with its URL. */
  lemma GatherProps(images: seq<ImageData>, offers: seq<Option<ImageData>>)
    requires DistinctUrls(images)
    ensures var r := Gather(images, offers);
      && |images| <= |r| && r[..|images|] == images
      && DistinctUrls(r)
      && (forall i :: 0 <= i < |offers| && offers[i].Some? ==> offers[i].value.url in Urls(r))
      && (forall k :: |images| <= k < |r| ==>
            && r[k].url !in Urls(images)
            && exists i :: (0 <= i < |offers| && offers[i] == Some(r[k]) &&
                 forall j :: 0 <= j < i && offers[j].Some? ==> offers[j].value.url != r[k].url))
  {
    GatherExtends(images, offers);
    GatherDistinct(images, offers);
    GatherCovers(images, offers);
    GatherFirst(images, offers);
  }

  /** The record of the i-th svg element (0-based), numbered from 1 in its
      alt text. Its size is the larger of the client and bounding-box sizes
      and at least 50, so the `|| 100` fallback of the code never applies. */
  function SvgEntry(svg: SvgTag, i: nat, encode: string -> string): (r: ImageData)
    ensures r.width >= 50 && r.height >= 50 && r.imageType == "svg"
  {
    var dataUrl := "data:image/svg+xml;base64," + encode(svg.outerHTML);
    ImageData(dataUrl, dataUrl, "SVG-" + NatToString(i + 1),
      Max(Max(svg.clientWidth, svg.rectWidth), 50), Max(Max(svg.clientHeight, svg.rectHeight), 50), 0, "svg")
  }

  function Max(a: nat, b: nat): (m: nat)
    ensures m >= a && m >= b && (m == a || m == b)
  {
    if a >= b then a else b
  }

  /** The records of the svg elements with markup, in document order. They
      are neither checked against nor added to the recorded URLs. */
  function SvgEntries(svgs: seq<SvgTag>, encode: string -> string): (r: seq<ImageData>)
    ensures forall k :: 0 <= k < |r| ==> r[k].imageType == "svg" && r[k].width >= 50 && r[k].height >= 50
  {
    if |svgs| == 0 then []
    else
      var n := |svgs| - 1;
      SvgEntries(svgs[..n], encode) + if svgs[n].outerHTML != "" then [SvgEntry(svgs[n], n, encode)] else []
  }

  /** The enrichment step. An SVG keeps a width and height of at least 10
      (100 otherwise) and its size is estimated from the length of its data
      URL; any other image takes the probed natural size where its own is
      missing and the probed file size. Neither probe throws (a failed image
      load gives 0 by 0, a failed size request 0), so the recovery branch of
      the code is not reached. */
  function Enrich(image: ImageData, probe: string -> (nat, nat), sizeOf: string -> nat): (e: ImageData)
    ensures e.url == image.url && e.src == image.src && e.alt == image.alt && e.imageType == image.imageType
  {
    if image.imageType == "svg" then
      image.(width := if image.width < 10 then 100 else image.width,
             height := if image.height < 10 then 100 else image.height,
             size := Round(|image.src| as real * 0.75))
    else
      var (w, h) := probe(image.src);
      image.(width := if image.width == 0 then w else image.width,
             height := if image.height == 0 then h else image.height,
             size := sizeOf(image.src))
  }

  /** Every record enriched, in place. */
  function EnrichAll(images: seq<ImageData>, probe: string -> (nat, nat), sizeOf: string -> nat): (r: seq<ImageData>)
    ensures |r| == |images|
    ensures forall k :: 0 <= k < |images| ==> r[k] == Enrich(images[k], probe, sizeOf)
  {
    seq(|images|, k requires 0 <= k < |images| => Enrich(images[k], probe, sizeOf))
  }

  /** The final filter: at least 16 by 16 pixels. */
  predicate BigEnough(image: ImageData)
  {
    image.width >= 16 && image.height >= 16
  }

  /** The records found before enrichment: img tags, then background
      images, both de-duplicated by URL, then the svg elements. */
  function Found(tags: seq<ImgTag>, backgrounds: seq<string>, svgs: seq<SvgTag>,
                 valid: string -> bool, encode: string -> string): seq<ImageData>
  {
    Gather(Gather([], TagOffers(tags, valid)), BackgroundOffers(MapSeq(backgrounds, BackgroundUrl), valid)) + SvgEntries(svgs, encode)
  }

  /** What collectImages resolves to. */
  function Collected(tags: seq<ImgTag>, backgrounds: seq<string>, svgs: seq<SvgTag>, valid: string -> bool,
                     encode: string -> string, probe: string -> (nat, nat), sizeOf: string -> nat): seq<ImageData>
  {
    Filter(EnrichAll(Found(tags, backgrounds, svgs, valid, encode), probe, sizeOf), BigEnough)
  }

  /** One more offer: its record is appended when its URL is new. */
  lemma GatherSnoc(images: seq<ImageData>, offers: seq<Option<ImageData>>, o: Option<ImageData>)
    ensures Gather(images, offers + [o]) ==
      if o.Some? && o.value.url !in Urls(Gather(images, offers)) then Gather(images, offers) + [o.value]
      else Gather(images, offers)
  {
    assert (offers + [o])[..|offers|] == offers;
  }

  lemma TagOffersSnoc(tags: seq<ImgTag>, valid: string -> bool, i: nat)
    requires i < |tags|
    ensures TagOffers(tags[..i + 1], valid) == TagOffers(tags[..i], valid) + [FromImgTag(tags[i], valid)]
  {
    assert tags[..i + 1][..i] == tags[..i];
  }

  lemma BackgroundOffersSnoc(urls: seq<string>, valid: string -> bool, i: nat)
    requires i < |urls|
    ensures BackgroundOffers(urls[..i + 1], valid) == BackgroundOffers(urls[..i], valid) + [FromBackground(urls[i], valid)]
  {
    assert urls[..i + 1][..i] == urls[..i];
  }

  /** The img-tag loop: a tag is recorded when its source is non-empty,
      valid and not recorded yet. */
  method AddImgTags(images0: seq<ImageData>, urls0: set<string>, tags: seq<ImgTag>, valid: string -> bool)
    returns (images: seq<ImageData>, imageUrls: set<string>)
    requires urls0 == Urls(images0)
    ensures images == Gather(images0, TagOffers(tags, valid))
    ensures imageUrls == Urls(images)
  {
    images, imageUrls := images0, urls0;
    for i := 0 to |tags|
      invariant images == Gather(images0, TagOffers(tags[..i], valid))
      invariant imageUrls == Urls(images)
    {
      var tag := tags[i];
      TagOffersSnoc(tags, valid, i);
      GatherSnoc(images0, TagOffers(tags[..i], valid), FromImgTag(tag, valid));
      var src := OrElse(tag.src, tag.dataSrc);
      if src != "" && valid(src) && src !in imageUrls {
        var image := ImageData(src, src, tag.alt, tag.naturalWidth, tag.naturalHeight, 0, ImageType(src));
        UrlsAppend(images, image);
        imageUrls := imageUrls + {src};
        images := images + [image];
      }
    }
    assert tags[..|tags|] == tags;
  }

  /** The background-image loop over every element's computed
      background-image: the URL the pattern finds is recorded under the same
      test as an img source, with the background type. */
  method AddBackgrounds(images0: seq<ImageData>, urls0: set<string>, backgroundImages: seq<string>, valid: string -> bool)
    returns (images: seq<ImageData>, imageUrls: set<string>)
    requires urls0 == Urls(images0)
    ensures images == Gather(images0, BackgroundOffers(MapSeq(backgroundImages, BackgroundUrl), valid))
    ensures imageUrls == Urls(images)
  {
    ghost var urls := MapSeq(backgroundImages, BackgroundUrl);
    images, imageUrls := images0, urls0;
    for i := 0 to |backgroundImages|
      invariant images == Gather(images0, BackgroundOffers(urls[..i], valid))
      invariant imageUrls == Urls(images)
    {
      var url := BackgroundUrl(backgroundImages[i]);
      BackgroundOffersSnoc(urls, valid, i);
      GatherSnoc(images0, BackgroundOffers(urls[..i], valid), FromBackground(url, valid));
      if url != "" && valid(url) && url !in imageUrls {
        var image := ImageData(url, url, "", 0, 0, 0, BackgroundType(ImageType(url)));
        UrlsAppend(images, image);
        imageUrls := imageUrls + {url};
        images := images + [image];
      }
    }
    assert urls[..|urls|] == urls;
  }

  /** The svg loop: every element with markup, numbered by its index among
      all svg elements. */
  method AddSvgs(images0: seq<ImageData>, svgs: seq<SvgTag>, encode: string -> string) returns (images: seq<ImageData>)
    ensures images == images0 + SvgEntries(svgs, encode)
  {
    images := images0;
    for i := 0 to |svgs|
      invariant images == images0 + SvgEntries(svgs[..i], encode)
    {
      var svg := svgs[i];
      if svg.outerHTML != "" {
        var dataUrl := "data:image/svg+xml;base64," + encode(svg.outerHTML);
        var width := Max(Max(svg.clientWidth, svg.rectWidth), 50);
        var height := Max(Max(svg.clientHeight, svg.rectHeight), 50);
        images := images + [ImageData(dataUrl, dataUrl, "SVG-" + NatToString(i + 1), width, height, 0, "svg")];
      }
      assert svgs[..i + 1][..i] == svgs[..i];
    }
    assert svgs[..|svgs|] == svgs;
  }

  /** The enrichment loop, updating each record in place. */
  method EnrichEach(images0: seq<ImageData>, probe: string -> (nat, nat), sizeOf: string -> nat) returns (images: seq<ImageData>)
    ensures images == EnrichAll(images0, probe, sizeOf)
  {
    images := images0;
    for i := 0 to |images|
      invariant |images| == |images0|
      invariant forall k :: 0 <= k < i ==> images[k] == Enrich(images0[k], probe, sizeOf)
      invariant forall k :: i <= k < |images| ==> images[k] == images0[k]
    {
      var image := images[i];
      if image.imageType == "svg" {
        if image.width < 10 {
          image := image.(width := 100);
        }
        if image.height < 10 {
          image := image.(height := 100);
        }
        image := image.(size := Round(|image.src| as real * 0.75));
      } else {
        var (w, h) := probe(image.src);
        if image.width == 0 {
          image := image.(width := w);
        }
        if image.height == 0 {
          image := image.(height := h);
        }
        image := image.(size := sizeOf(image.src));
      }
      images := images[i := image];
    }
  }

  /** collectImages: the three collection loops sharing one record list and
      one URL set, the enrichment loop, then the size filter. */
  method CollectImages(tags: seq<ImgTag>, backgrounds: seq<string>, svgs: seq<SvgTag>, valid: string -> bool,
                       encode: string -> string, probe: string -> (nat, nat), sizeOf: string -> nat)
    returns (images: seq<ImageData>)
    ensures images == Collected(tags, backgrounds, svgs, valid, encode, probe, sizeOf)
  {
    var found: seq<ImageData> := [];
    var imageUrls: set<string> := {};
    found, imageUrls := AddImgTags(found, imageUrls, tags, valid);
    found, imageUrls := AddBackgrounds(found, imageUrls, backgrounds, valid);
    found := AddSvgs(found, svgs, encode);
    found := EnrichEach(found, probe, sizeOf);
    images := Filter(found, BigEnough);
  }

  /** getImageType never yields "svg", "background" or a "-bg" type. */
  lemma ImageTypeNames(url: string)
    ensures ImageType(url) in ["jpeg", "png", "gif", "webp", "bmp", "tiff", "ico", "avif", "img"]
    ensures ImageType(url) != "svg" && ImageType(url) != "background" && !EndsWith(ImageType(url), "-bg")
  {
  }

  /** Every record of the tag and background phases is a non-SVG one. */
  lemma GatheredNotSvg(tags: seq<ImgTag>, urls: seq<string>, valid: string -> bool)
    ensures var g := Gather(Gather([], TagOffers(tags, valid)), BackgroundOffers(urls, valid));
      DistinctUrls(g) && forall k :: 0 <= k < |g| ==> g[k].imageType != "svg"
  {
    var offers1 := TagOffers(tags, valid);
    var offers2 := BackgroundOffers(urls, valid);
    var g1 := Gather([], offers1);
    var g := Gather(g1, offers2);
    GatherProps([], offers1);
    GatherProps(g1, offers2);
    TagOffersAre(tags, valid);
    BackgroundOffersAre(urls, valid);
    forall k | 0 <= k < |g|
      ensures g[k].imageType != "svg"
    {
      if k < |g1| {
        assert g[k] == g1[k];
        var i :| 0 <= i < |offers1| && offers1[i] == Some(g1[k]);
        ImageTypeNames(g1[k].url);
      } else {
        var i :| 0 <= i < |offers2| && offers2[i] == Some(g[k]);
        assert !EndsWith("svg", "-bg");
      }
    }
  }

  lemma {:induction false} TagOffersAre(tags: seq<ImgTag>, valid: string -> bool)
    ensures forall i :: 0 <= i < |tags| ==> TagOffers(tags, valid)[i] == FromImgTag(tags[i], valid)
  {
    if |tags| > 0 {
      TagOffersAre(tags[..|tags| - 1], valid);
    }
  }

  lemma {:induction false} BackgroundOffersAre(urls: seq<string>, valid: string -> bool)
    ensures forall i :: 0 <= i < |urls| ==> BackgroundOffers(urls, valid)[i] == FromBackground(urls[i], valid)
  {
    if |urls| > 0 {
      BackgroundOffersAre(urls[..|urls| - 1], valid);
    }
  }

  /** A later record never repeats an earlier record's URL unless it is an
      SVG (SVG records are not de-duplicated). */
  predicate NoRepeatUnlessSvg(a: ImageData, b: ImageData)
  {
    a.url == b.url ==> b.imageType == "svg"
  }

  lemma FoundNoRepeat(tags: seq<ImgTag>, backgrounds: seq<string>, svgs: seq<SvgTag>, valid: string -> bool,
                      encode: string -> string)
    ensures var found := Found(tags, backgrounds, svgs, valid, encode);
      forall i, j :: 0 <= i < j < |found| ==> NoRepeatUnlessSvg(found[i], found[j])
  {
    var g := Gather(Gather([], TagOffers(tags, valid)), BackgroundOffers(MapSeq(backgrounds, BackgroundUrl), valid));
    var found := Found(tags, backgrounds, svgs, valid, encode);
    var svgPart := SvgEntries(svgs, encode);
    GatheredNotSvg(tags, MapSeq(backgrounds, BackgroundUrl), valid);
    assert found == g + svgPart;
    forall i, j | 0 <= i < j < |found|
      ensures NoRepeatUnlessSvg(found[i], found[j])
    {
      if j < |g| {
        assert found[i] == g[i] && found[j] == g[j];
      } else {
        assert found[j] == svgPart[j - |g|];
      }
    }
  }

  /** Every img tag whose source (src, else data-src) is non-empty and
      valid, and every element whose background-image names a non-empty
      valid URL, has that URL among the records found. By the contracts of
      FromImgTag and FromBackground, an offer is made exactly in those
      cases. */
  lemma ValidSourcesFound(tags: seq<ImgTag>, backgrounds: seq<string>, svgs: seq<SvgTag>, valid: string -> bool,
                          encode: string -> string)
    ensures var urls := Urls(Found(tags, backgrounds, svgs, valid, encode));
      && (forall k :: 0 <= k < |tags| && FromImgTag(tags[k], valid).Some? ==>
            OrElse(tags[k].src, tags[k].dataSrc) in urls)
      && (forall k :: 0 <= k < |backgrounds| && FromBackground(BackgroundUrl(backgrounds[k]), valid).Some? ==>
            BackgroundUrl(backgrounds[k]) in urls)
  {
    var offers1 := TagOffers(tags, valid);
    var bgUrls := MapSeq(backgrounds, BackgroundUrl);
    var offers2 := BackgroundOffers(bgUrls, valid);
    var g1 := Gather([], offers1);
    var g := Gather(g1, offers2);
    var found := Found(tags, backgrounds, svgs, valid, encode);
    GatherProps([], offers1);
    GatherProps(g1, offers2);
    TagOffersAre(tags, valid);
    BackgroundOffersAre(bgUrls, valid);
    UrlsOfPrefix(g1, g);
    assert found == g + SvgEntries(svgs, encode);
    assert found[..|g|] == g;
    UrlsOfPrefix(g, found);
    forall k | 0 <= k < |tags| && FromImgTag(tags[k], valid).Some?
      ensures OrElse(tags[k].src, tags[k].dataSrc) in Urls(found)
    {
      assert offers1[k] == FromImgTag(tags[k], valid);
    }
    forall k | 0 <= k < |backgrounds| && FromBackground(BackgroundUrl(backgrounds[k]), valid).Some?
      ensures BackgroundUrl(backgrounds[k]) in Urls(found)
    {
      assert offers2[k] == FromBackground(bgUrls[k], valid);
    }
  }

  /** What collectImages returns: only images of at least 16 by 16 pixels,
      and no image from an img tag or a background repeats a URL seen
      before it. */
  lemma CollectedProps(tags: seq<ImgTag>, backgrounds: seq<string>, svgs: seq<SvgTag>, valid: string -> bool,
                       encode: string -> string, probe: string -> (nat, nat), sizeOf: string -> nat)
    ensures var r := Collected(tags, backgrounds, svgs, valid, encode, probe, sizeOf);
      && (forall k :: 0 <= k < |r| ==> r[k].width >= 16 && r[k].height >= 16)
      && (forall i, j :: 0 <= i < j < |r| ==> NoRepeatUnlessSvg(r[i], r[j]))
  {
    var found := Found(tags, backgrounds, svgs, valid, encode);
    FoundNoRepeat(tags, backgrounds, svgs, valid, encode);
    var enriched := EnrichAll(found, probe, sizeOf);
    forall i, j | 0 <= i < j < |enriched|
      ensures NoRepeatUnlessSvg(enriched[i], enriched[j])
    {
      assert NoRepeatUnlessSvg(found[i], found[j]);
    }
    FilterPairwise(enriched, BigEnough, NoRepeatUnlessSvg);
  }

  /** Every svg element with markup survives the size filter, and its size
      estimate is three quarters of its data URL's length, rounded. */
  lemma SvgsSurvive(tags: seq<ImgTag>, backgrounds: seq<string>, svgs: seq<SvgTag>, valid: string -> bool,
                    encode: string -> string, probe: string -> (nat, nat), sizeOf: string -> nat, i: nat)
    requires i < |svgs| && svgs[i].outerHTML != ""
    ensures var e := SvgEntry(svgs[i], i, encode);
      Enrich(e, probe, sizeOf) == e.(size := Round(|e.src| as real * 0.75))
      && Enrich(e, probe, sizeOf) in Collected(tags, backgrounds, svgs, valid, encode, probe, sizeOf)
  {
    var e := SvgEntry(svgs[i], i, encode);
    SvgEntriesHas(svgs, encode, i);
    var g := Gather(Gather([], TagOffers(tags, valid)), BackgroundOffers(MapSeq(backgrounds, BackgroundUrl), valid));
    var found := Found(tags, backgrounds, svgs, valid, encode);
    assert found == g + SvgEntries(svgs, encode);
    assert e in found;
    var k :| 0 <= k < |found| && found[k] == e;
    assert EnrichAll(found, probe, sizeOf)[k] == Enrich(e, probe, sizeOf);
  }

  lemma {:induction false} SvgEntriesHas(svgs: seq<SvgTag>, encode: string -> string, i: nat)
    requires i < |svgs| && svgs[i].outerHTML != ""
    ensures SvgEntry(svgs[i], i, encode) in SvgEntries(svgs, encode)
  {
    var n := |svgs| - 1;
    if i < n {
      assert svgs[..n][i] == svgs[i];
      SvgEntriesHas(svgs[..n], encode, i);
    }
  }

  // ---------------------------------------------------------------------
  // downloadImages

  /** What downloadImages does, one step at a time: an attempt to download
      the image at an index, or a pause of some milliseconds. */
  datatype DownloadStep = Attempt(index: nat) | Pause(ms: nat)

  /** The steps of the first `i` iterations over `n` images; `succeeds(k)`
      says whether downloadImage resolves for image k. A failure skips the
      pause of its iteration, and the last image has none. */
  function StepsUpTo(n: nat, succeeds: nat -> bool, i: nat): seq<DownloadStep>
    requires i <= n
  {
    if i == 0 then []
    else
      var k := i - 1;
      StepsUpTo(n, succeeds, k) + [Attempt(k)] + if succeeds(k) && k < n - 1 then [Pause(500)] else []
  }

  /** downloadImages over `n` images. */
  method DownloadImages(n: nat, succeeds: nat -> bool) returns (steps: seq<DownloadStep>)
    ensures steps == StepsUpTo(n, succeeds, n)
  {
    steps := [];
    var i := 0;
    while i < n
      invariant 0 <= i <= n
      invariant steps == StepsUpTo(n, succeeds, i)
    {
      steps := steps + [Attempt(i)];
      if succeeds(i) {
        if i < n - 1 {
          steps := steps + [Pause(500)];
        }
      }
      i := i + 1;
    }
  }

  /** Every image is attempted, whatever happened to the earlier ones. */
  lemma {:induction false} EveryImageAttempted(n: nat, succeeds: nat -> bool, i: nat)
    requires i <= n
    ensures forall k :: 0 <= k < i ==> Attempt(k) in StepsUpTo(n, succeeds, i)
  {
    if i > 0 {
      var prev := StepsUpTo(n, succeeds, i - 1);
      EveryImageAttempted(n, succeeds, i - 1);
      var steps := StepsUpTo(n, succeeds, i);
      assert steps[..|prev|] == prev;
      assert steps[|prev|] == Attempt(i - 1);
      forall j | 0 <= j < i - 1
        ensures Attempt(j) in steps
      {
        var a :| 0 <= a < |prev| && prev[a] == Attempt(j);
        assert steps[a] == Attempt(j);
      }
    }
  }

  /** Attempts come in increasing index order, all below `i`. */
  predicate AttemptsOrdered(steps: seq<DownloadStep>, i: nat)
  {
    && (forall a :: 0 <= a < |steps| && steps[a].Attempt? ==> steps[a].index < i)
    && (forall a, b :: 0 <= a < b < |steps| && steps[a].Attempt? && steps[b].Attempt? ==> steps[a].index < steps[b].index)
  }

  /** Every pause directly follows a successful attempt on an image that is
      not the last of the `n`. */
  predicate PausesFollowSuccess(steps: seq<DownloadStep>, n: nat, succeeds: nat -> bool)
  {
    forall a :: 0 <= a < |steps| && steps[a].Pause? ==>
      a > 0 && steps[a - 1].Attempt? && succeeds(steps[a - 1].index) && steps[a - 1].index < n - 1
  }

  /** The attempts come in index order. */
  lemma {:induction false} AttemptsInOrder(n: nat, succeeds: nat -> bool, i: nat)
    requires i <= n
    ensures AttemptsOrdered(StepsUpTo(n, succeeds, i), i)
  {
    if i > 0 {
      var prev := StepsUpTo(n, succeeds, i - 1);
      AttemptsInOrder(n, succeeds, i - 1);
      var k := i - 1;
      var tail := if succeeds(k) && k < n - 1 then [Pause(500)] else [];
      var steps := StepsUpTo(n, succeeds, i);
      assert steps == prev + [Attempt(k)] + tail;
      assert forall a :: 0 <= a < |prev| ==> steps[a] == prev[a];
      assert steps[|prev|] == Attempt(k);
      assert forall a :: |prev| < a < |steps| ==> steps[a] == Pause(500);
    }
  }

  /** A pause only follows a successful attempt that is not the last one,
      so the steps end with the last attempt, never with a pause. */
  lemma {:induction false} PausesBetweenImages(n: nat, succeeds: nat -> bool, i: nat)
    requires i <= n
    ensures PausesFollowSuccess(StepsUpTo(n, succeeds, i), n, succeeds)
    ensures i == n && n > 0 ==> StepsUpTo(n, succeeds, i)[|StepsUpTo(n, succeeds, i)| - 1] == Attempt(n - 1)
  {
    if i > 0 {
      var prev := StepsUpTo(n, succeeds, i - 1);
      PausesBetweenImages(n, succeeds, i - 1);
      var k := i - 1;
      var tail := if succeeds(k) && k < n - 1 then [Pause(500)] else [];
      var steps := StepsUpTo(n, succeeds, i);
      assert steps == prev + [Attempt(k)] + tail;
      assert steps[|prev|] == Attempt(k);
      forall a | 0 <= a < |steps| && steps[a].Pause?
        ensures a > 0 && steps[a - 1].Attempt? && succeeds(steps[a - 1].index) && steps[a - 1].index < n - 1
      {
        if a < |prev| {
          assert steps[a] == prev[a] && steps[a - 1] == prev[a - 1];
        } else {
          assert a == |prev| + 1 && tail != [];
        }
      }
    }
  }
}

=== FILE: image_downloader_panel.dfy ===
/** The image downloader panel: the per-type counts, the filter buttons that
    are offered, the images shown under the active filter, and the selection
    the user builds and downloads. */
module ImageDownloaderPanel {
  import opened Common
  import opened Strings
  import opened ImageCollector

  /** Whether an image of type `imageType` is shown under the filter `key`:
      everything under "all", every background image (type "background" or
      ending in "-bg") under "background", and otherwise exactly that type. */
  predicate Shows(key: string, imageType: string)
  {
    if key == "all" then true
    else if key == "background" then imageType == "background" || EndsWith(imageType, "-bg")
    else imageType == key
  }

  /** filteredImages: the images the active filter shows, in their order. */
  function FilteredImages(images: seq<ImageData>, key: string): (shown: seq<ImageData>)
    ensures forall img :: img in shown <==> img in images && Shows(key, img.imageType)
  {
    Filter(images, (img: ImageData) => Shows(key, img.imageType))
  }

  /** getImageCount, with its own branch per key. */
  function ImageCount(images: seq<ImageData>, key: string): nat
  {
    if key == "all" then |images|
    else if key == "jpeg" then |Filter(images, (img: ImageData) => img.imageType == "jpeg")|
    else if key == "png" then |Filter(images, (img: ImageData) => img.imageType == "png")|
    else if key == "gif" then |Filter(images, (img: ImageData) => img.imageType == "gif")|
    else if key == "webp" then |Filter(images, (img: ImageData) => img.imageType == "webp")|
    else if key == "background" then
      |Filter(images, (img: ImageData) => img.imageType == "background" || EndsWith(img.imageType, "-bg"))|
    else |Filter(images, (img: ImageData) => img.imageType == key)|
  }

  /** The count on a filter button is the number of images that filter
      shows, whatever the key. */
  lemma CountIsShown(images: seq<ImageData>, key: string)
    ensures ImageCount(images, key) == |FilteredImages(images, key)|
  {
    var shows := (img: ImageData) => Shows(key, img.imageType);
    if key == "all" {
      FilterAll(images, shows);
    } else if key == "jpeg" {
      FilterSame(images, (img: ImageData) => img.imageType == "jpeg", shows);
    } else if key == "png" {
      FilterSame(images, (img: ImageData) => img.imageType == "png", shows);
    } else if key == "gif" {
      FilterSame(images, (img: ImageData) => img.imageType == "gif", shows);
    } else if key == "webp" {
      FilterSame(images, (img: ImageData) => img.imageType == "webp", shows);
    } else if key == "background" {
      FilterSame(images, (img: ImageData) => img.imageType == "background" || EndsWith(img.imageType, "-bg"), shows);
    } else {
      FilterSame(images, (img: ImageData) => img.imageType == key, shows);
    }
  }

  /** "all" counts every image. */
  lemma CountAll(images: seq<ImageData>)
    ensures ImageCount(images, "all") == |images|
    ensures forall key :: ImageCount(images, key) <= |images|
  {
  }

  // ---------------------------------------------------------------------
  // getAvailableFilterOptions

  datatype FilterOption = FilterOption(key: string, text: string)

  const AllOption := FilterOption("all", "ALL")

  /** Every filter button, in the order they are shown. */
  const AllOptions: seq<FilterOption> := [
    AllOption,
    FilterOption("jpeg", "JPEG/JPG"),
    FilterOption("png", "PNG"),
    FilterOption("gif", "GIF"),
    FilterOption("webp", "WebP"),
    FilterOption("svg", "SVG"),
    FilterOption("background", "Background")
  ]

  /** getAvailableFilterOptions: only ALL without images; otherwise ALL and
      every option whose count is positive, in the fixed order. */
  function AvailableOptions(images: seq<ImageData>): seq<FilterOption>
  {
    if |images| == 0 then [AllOptions[0]]
    else Filter(AllOptions, (o: FilterOption) => o.key == "all" || ImageCount(images, o.key) > 0)
  }

  /** ALL comes first; a button is offered exactly when it is ALL or its
      filter shows at least one image; and the buttons keep the fixed order. */
  lemma AvailableOptionsOffered(images: seq<ImageData>)
    ensures |AvailableOptions(images)| >= 1 && AvailableOptions(images)[0] == AllOption
    ensures forall o :: o in AvailableOptions(images) <==>
      o in AllOptions && (o.key == "all" || |FilteredImages(images, o.key)| > 0)
    ensures forall i, j :: 0 <= i < j < |AvailableOptions(images)| ==>
      OptionRank(AvailableOptions(images)[i]) < OptionRank(AvailableOptions(images)[j])
  {
    AllOptionFirst(images);
    OfferedIffShown(images);
    OptionsInOrder(images);
  }

  lemma {:induction false} AllOptionFirst(images: seq<ImageData>)
    ensures |AvailableOptions(images)| >= 1 && AvailableOptions(images)[0] == AllOption
  {
    if |images| > 0 {
      var keep := (o: FilterOption) => o.key == "all" || ImageCount(images, o.key) > 0;
      assert AllOptions == [AllOption] + AllOptions[1..];
      assert keep(AllOption);
      assert Filter(AllOptions, keep) == [AllOption] + Filter(AllOptions[1..], keep);
    }
  }

  lemma {:induction false} OfferedIffShown(images: seq<ImageData>)
    ensures forall o :: o in AvailableOptions(images) <==>
      o in AllOptions && (o.key == "all" || |FilteredImages(images, o.key)| > 0)
  {
    forall o | o in AllOptions
      ensures ImageCount(images, o.key) == |FilteredImages(images, o.key)|
    {
      CountIsShown(images, o.key);
    }
    if |images| == 0 {
      forall o | o in AllOptions && o.key != "all"
        ensures |FilteredImages(images, o.key)| == 0
      {
      }
    }
  }

  lemma {:induction false} OptionsInOrder(images: seq<ImageData>)
    ensures forall i, j :: 0 <= i < j < |AvailableOptions(images)| ==>
      OptionRank(AvailableOptions(images)[i]) < OptionRank(AvailableOptions(images)[j])
  {
    if |images| > 0 {
      var keep := (o: FilterOption) => o.key == "all" || ImageCount(images, o.key) > 0;
      OptionsRanked();
      FilterPairwise(AllOptions, keep, (a: FilterOption, b: FilterOption) => OptionRank(a) < OptionRank(b));
    }
  }

  /** The position of a button in the fixed order. */
  function OptionRank(o: FilterOption): nat
  {
    match o.key
    case "all" => 0
    case "jpeg" => 1
    case "png" => 2
    case "gif" => 3
    case "webp" => 4
    case "svg" => 5
    case _ => 6
  }

  lemma OptionsRanked()
    ensures forall i, j :: 0 <= i < j < |AllOptions| ==> OptionRank(AllOptions[i]) < OptionRank(AllOptions[j])
  {
  }

  /** The filter keys of the buttons other than ALL. */
  predicate ButtonKey(key: string)
  {
    key == "jpeg" || key == "png" || key == "gif" || key == "webp" || key == "svg" || key == "background"
  }

  lemma ButtonKeyNotBackground(key: string)
    requires ButtonKey(key) && key != "background"
    ensures !EndsWith(key, "-bg") && key != "all"
  {
  }

  /** Under a button other than ALL, a type that is not a background type
      is shown by its own key only, and its background form only under
      "background". */
  lemma {:induction false} TypeFilters(t: string, key: string)
    requires ButtonKey(key)
    requires t != "background" && !EndsWith(t, "-bg")
    ensures Shows(key, t) <==> key == t
    ensures Shows(key, BackgroundType(t)) <==> key == "background"
  {
    if key != "background" {
      ButtonKeyNotBackground(key);
      var b := BackgroundType(t);
      assert b == "background" || EndsWith(b, "-bg");
      assert b != key;
    }
  }

  /** The filters of the collector's records: under any button but ALL, an
      img-tag record is shown by its own type and never as a background, a
      background record only under "background", and an SVG record only
      under "svg". */
  lemma FiltersMatchCollector(url: string, key: string)
    requires ButtonKey(key)
    ensures Shows(key, ImageType(url)) <==> key == ImageType(url)
    ensures Shows(key, BackgroundType(ImageType(url))) <==> key == "background"
    ensures Shows(key, "svg") <==> key == "svg"
  {
    ImageTypeNames(url);
    TypeFilters(ImageType(url), key);
  }

  // ---------------------------------------------------------------------
  // The selection

  class Panel {
    var images: seq<ImageData>
    var selected: set<string>
    var activeFilter: string

    /** A freshly opened panel: no images, nothing selected, filter "all". */
    constructor ()
      ensures images == [] && selected == {} && activeFilter == "all"
    {
      images := [];
      selected := {};
      activeFilter := "all";
    }

    /** toggleImageSelection. */
    method ToggleImageSelection(url: string)
      modifies this`selected
      ensures selected == Toggled(old(selected), url)
    {
      var newSelection := selected;
      if url in newSelection {
        newSelection := newSelection - {url};
      } else {
        newSelection := newSelection + {url};
      }
      selected := newSelection;
    }

    /** selectAll: exactly the URLs of the images shown. */
    method SelectAll()
      modifies this`selected
      ensures selected == Urls(FilteredImages(images, activeFilter))
    {
      selected := Urls(FilteredImages(images, activeFilter));
    }

    /** deselectAll. */
    method DeselectAll()
      modifies this`selected
      ensures selected == {}
    {
      selected := {};
    }

    /** downloadSelected: the images sent are the shown images whose URL is
        selected, in the order they are shown. */
    method DownloadSelected() returns (toDownload: seq<ImageData>)
      ensures forall img :: img in toDownload <==>
        img in images && Shows(activeFilter, img.imageType) && img.url in selected
      ensures |toDownload| <= ImageCount(images, activeFilter)
      ensures toDownload == Chosen(FilteredImages(images, activeFilter), selected)
    {
      var sel := selected;
      toDownload := Filter(FilteredImages(images, activeFilter), (img: ImageData) => img.url in sel);
      CountIsShown(images, activeFilter);
    }
  }

  /** The images of `shown` whose URL is in the selection, in order. */
  function Chosen(shown: seq<ImageData>, selected: set<string>): seq<ImageData>
  {
    Filter(shown, (img: ImageData) => img.url in selected)
  }

  /** After selectAll, downloadSelected sends every image shown; after
      deselectAll it sends none. */
  lemma {:induction false} SelectAllDownloadsShown(shown: seq<ImageData>)
    ensures Chosen(shown, Urls(shown)) == shown
    ensures Chosen(shown, {}) == []
  {
    forall img | img in shown
      ensures img.url in Urls(shown)
    {
      var i :| 0 <= i < |shown| && shown[i] == img;
    }
    FilterAll(shown, (img: ImageData) => img.url in Urls(shown));
    var nothing: set<string> := {};
    FilterNone(shown, (img: ImageData) => img.url in nothing);
  }
}

=== FILE: panel.dfy ===
/** The floating panel every tool is shown in: dragging it by its header,
    resizing it from its corner, and where it sits while minimized.
    Coordinates are viewport pixels; the window size and the pointer
    position of each mouse event are inputs. */
module PanelFrame {
  import opened Common

  datatype Point = Point(x: int, y: int)

  datatype Size = Size(width: int, height: int)

  function Max(a: int, b: int): int
  {
    if a >= b then a else b
  }

  function Min(a: int, b: int): int
  {
    if a <= b then a else b
  }

  /** Math.max(0, Math.min(v, hi)): a coordinate kept inside the viewport. */
  function KeepInView(v: int, hi: int): (r: int)
    ensures r >= 0
    ensures hi >= 0 ==> r <= hi
    ensures 0 <= v <= hi ==> r == v
    ensures v < 0 || hi < 0 ==> r == 0
    ensures 0 <= hi < v ==> r == hi
  {
    Max(0, Min(v, hi))
  }

  /** Keeping a coordinate in view twice is keeping it once. */
  lemma KeepInViewIdempotent(v: int, hi: int)
    ensures KeepInView(KeepInView(v, hi), hi) == KeepInView(v, hi)
  {
  }

  /** Dragging further right never puts the panel further left. */
  lemma KeepInViewMonotone(v: int, w: int, hi: int)
    requires v <= w
    ensures KeepInView(v, hi) <= KeepInView(w, hi)
  {
  }

  /** Math.max(min, start + delta): a side resized by a pointer delta. */
  function Resized(start: int, delta: int, min: int): (r: int)
    ensures r >= min
    ensures start + delta >= min ==> r == start + delta
    ensures start + delta < min ==> r == min
  {
    Max(min, start + delta)
  }

  /** calculateMinimizedPosition: the top right corner, 300 pixels in. */
  function MinimizedCorner(innerWidth: int): Point
  {
    Point(innerWidth - 300, 20)
  }

  /** A prop as the component reads it: the value given, else its default. */
  function PropOr<T>(given: Option<T>, default: T): T
  {
    if given.Some? then given.value else default
  }

  /** The default initial position: 20 pixels from the right edge but never
      closer than 20 to the left one, 20 from the top. */
  function DefaultPosition(innerWidth: int, width: int): (p: Point)
    ensures p.x >= 20 && p.y == 20
    ensures innerWidth - width - 20 >= 20 ==> p.x + width + 20 == innerWidth
  {
    Point(Max(20, innerWidth - width - 20), 20)
  }

  class Panel {
    const minWidth: int
    const minHeight: int
    const draggable: bool
    const resizable: bool
    var position: Point
    var size: Size
    var isDragging: bool
    var isResizing: bool
    var dragStart: Point
    var resizeStart: Point
    var resizeStartSize: Size
    var minimizedPosition: Option<Point>

    /** The panel as mounted with its props, each None when the prop is not
        given: width 400, height 600, minimum width 300, minimum height 400,
        draggable and resizable by default, and the default position for the
        width in effect. */
    constructor (width: Option<int>, height: Option<int>, minWidth: Option<int>, minHeight: Option<int>,
                 initialPosition: Option<Point>, draggable: Option<bool>, resizable: Option<bool>, innerWidth: int)
      ensures this.minWidth == PropOr(minWidth, 300) && this.minHeight == PropOr(minHeight, 400)
      ensures this.draggable == PropOr(draggable, true) && this.resizable == PropOr(resizable, true)
      ensures size == Size(PropOr(width, 400), PropOr(height, 600))
      ensures position == PropOr(initialPosition, DefaultPosition(innerWidth, size.width))
      ensures !isDragging && !isResizing && minimizedPosition == None
    {
      var w := PropOr(width, 400);
      this.minWidth := PropOr(minWidth, 300);
      this.minHeight := PropOr(minHeight, 400);
      this.draggable := PropOr(draggable, true);
      this.resizable := PropOr(resizable, true);
      position := PropOr(initialPosition, DefaultPosition(innerWidth, w));
      size := Size(w, PropOr(height, 600));
      isDragging := false;
      isResizing := false;
      dragStart := Point(0, 0);
      resizeStart := Point(0, 0);
      resizeStartSize := Size(0, 0);
      minimizedPosition := None;
    }

    /** handleMouseDown on the header: a drag starts, remembering where the
        pointer is relative to the panel, unless the panel is not
        draggable. */
    method MouseDown(pointer: Point)
      modifies this`isDragging, this`dragStart
      ensures draggable ==> isDragging && dragStart == Point(pointer.x - position.x, pointer.y - position.y)
      ensures !draggable ==> isDragging == old(isDragging) && dragStart == old(dragStart)
    {
      if !draggable {
        return;
      }
      isDragging := true;
      dragStart := Point(pointer.x - position.x, pointer.y - position.y);
    }

    /** handleResizeMouseDown: a resize starts from the pointer and the
        current size, unless the panel is not resizable. */
    method ResizeMouseDown(pointer: Point)
      modifies this`isResizing, this`resizeStart, this`resizeStartSize
      ensures resizable ==> isResizing && resizeStart == pointer && resizeStartSize == size
      ensures !resizable ==>
        isResizing == old(isResizing) && resizeStart == old(resizeStart) && resizeStartSize == old(resizeStartSize)
    {
      if !resizable {
        return;
      }
      isResizing := true;
      resizeStart := pointer;
      resizeStartSize := size;
    }

    /** handleMouseMove: while dragging, the panel follows the pointer but
        stays in the viewport (against the size it had before this event);
        while resizing, each side follows the pointer but not below its
        minimum. */
    method MouseMove(pointer: Point, innerWidth: int, innerHeight: int)
      modifies this`position, this`size
      ensures isDragging && draggable ==>
        position == Point(KeepInView(pointer.x - dragStart.x, innerWidth - old(size).width),
                          KeepInView(pointer.y - dragStart.y, innerHeight - old(size).height))
      ensures !(isDragging && draggable) ==> position == old(position)
      ensures isResizing && resizable ==>
        size == Size(Resized(resizeStartSize.width, pointer.x - resizeStart.x, minWidth),
                     Resized(resizeStartSize.height, pointer.y - resizeStart.y, minHeight))
      ensures !(isResizing && resizable) ==> size == old(size)
    {
      if isDragging && draggable {
        var newX := pointer.x - dragStart.x;
        var newY := pointer.y - dragStart.y;
        var maxX := innerWidth - size.width;
        var maxY := innerHeight - size.height;
        position := Point(Max(0, Min(newX, maxX)), Max(0, Min(newY, maxY)));
      }
      if isResizing && resizable {
        var newWidth := Max(minWidth, resizeStartSize.width + (pointer.x - resizeStart.x));
        var newHeight := Max(minHeight, resizeStartSize.height + (pointer.y - resizeStart.y));
        size := Size(newWidth, newHeight);
      }
    }

    /** handleMouseUp: both the drag and the resize end. */
    method MouseUp()
      modifies this`isDragging, this`isResizing
      ensures !isDragging && !isResizing
    {
      isDragging := false;
      isResizing := false;
    }

    /** The position shown: while minimized the stored minimized position or
        the top right corner, otherwise the panel's own position. */
    function ShownPosition(isMinimized: bool, innerWidth: int): (p: Point)
      reads this
      ensures isMinimized && minimizedPosition.Some? ==> p == minimizedPosition.value
      ensures isMinimized && minimizedPosition.None? ==> p.x + 300 == innerWidth && p.y == 20
      ensures !isMinimized ==> p == position
    {
      if isMinimized then
        match minimizedPosition
        case Some(p) => p
        case None => MinimizedCorner(innerWidth)
      else position
    }

    /** The effect on isMinimized: the first render minimized stores the
        corner; the first render restored clears it. */
    method MinimizedChanged(isMinimized: bool, innerWidth: int)
      modifies this`minimizedPosition
      ensures isMinimized && old(minimizedPosition) == None ==> minimizedPosition == Some(MinimizedCorner(innerWidth))
      ensures isMinimized && old(minimizedPosition) != None ==> minimizedPosition == old(minimizedPosition)
      ensures !isMinimized ==> minimizedPosition == None
    {
      if isMinimized && minimizedPosition == None {
        minimizedPosition := Some(MinimizedCorner(innerWidth));
      } else if !isMinimized && minimizedPosition != None {
        minimizedPosition := None;
      }
    }
  }

  /** A drag from `from` to `to` of a draggable panel: the panel moves by the
      pointer's travel when that keeps it in the viewport, and otherwise
      stops at the viewport's edge (measured with the size the panel had
      when the move began); the drag is over afterwards. */
  method Drag(panel: Panel, from: Point, to: Point, innerWidth: int, innerHeight: int)
    requires panel.draggable
    modifies panel
    ensures var start := old(panel.position);
      var target := Point(start.x + (to.x - from.x), start.y + (to.y - from.y));
      var size := old(panel.size);
      && panel.position.x >= 0 && panel.position.y >= 0
      && (0 <= target.x <= innerWidth - size.width ==> panel.position.x == target.x)
      && (0 <= target.y <= innerHeight - size.height ==> panel.position.y == target.y)
      && (innerWidth >= size.width ==> panel.position.x + size.width <= innerWidth)
      && (innerHeight >= size.height ==> panel.position.y + size.height <= innerHeight)
    ensures !old(panel.isResizing) ==> panel.size == old(panel.size)
    ensures !panel.isDragging && !panel.isResizing
  {
    panel.MouseDown(from);
    panel.MouseMove(to, innerWidth, innerHeight);
    panel.MouseUp();
  }

  /** Minimizing and then restoring: while minimized the panel is shown at
      the corner stored on the first minimized render (later window sizes
      do not move it); once restored it is shown at its own position again
      and nothing is stored. */
  method MinimizeRestore(panel: Panel, widthWhenMinimized: int, widthLater: int)
    returns (whileMinimized: Point, later: Point, restored: Point)
    requires panel.minimizedPosition == None
    modifies panel`minimizedPosition
    ensures whileMinimized == MinimizedCorner(widthWhenMinimized) && later == whileMinimized
    ensures restored == panel.position && panel.minimizedPosition == None
  {
    panel.MinimizedChanged(true, widthWhenMinimized);
    whileMinimized := panel.ShownPosition(true, widthWhenMinimized);
    panel.MinimizedChanged(true, widthLater);
    later := panel.ShownPosition(true, widthLater);
    panel.MinimizedChanged(false, widthLater);
    restored := panel.ShownPosition(false, widthLater);
  }
}

=== FILE: panel_manager.dfy ===
/** The panel manager of the content script: which of the three tool panels
    are open or minimized, how the window messages and the panels' buttons
    change that, and where each open panel is first placed. */
module PanelManager {
  import opened Common
  import PanelFrame

  datatype PanelName = ImageDownloader | StyleInspector | VideoRecorder

  datatype PanelFlags = PanelFlags(isOpen: bool, isMinimized: bool)

  /** The panels record: one pair of flags per panel. */
  datatype PanelState = PanelState(imageDownloader: PanelFlags, styleInspector: PanelFlags, videoRecorder: PanelFlags)

  const Closed := PanelFlags(false, false)

  /** Every panel closed, as the manager starts. */
  const InitialState := PanelState(Closed, Closed, Closed)

  /** prev[panelName]. */
  function Get(state: PanelState, name: PanelName): PanelFlags
  {
    match name
    case ImageDownloader => state.imageDownloader
    case StyleInspector => state.styleInspector
    case VideoRecorder => state.videoRecorder
  }

  /** { ...prev, [panelName]: flags }. */
  function With(state: PanelState, name: PanelName, flags: PanelFlags): (s: PanelState)
    ensures Get(s, name) == flags
    ensures forall other :: other != name ==> Get(s, other) == Get(state, other)
  {
    match name
    case ImageDownloader => state.(imageDownloader := flags)
    case StyleInspector => state.(styleInspector := flags)
    case VideoRecorder => state.(videoRecorder := flags)
  }

  /** The panel a window message opens; any other action opens none. */
  function OpenedBy(action: string): Option<PanelName>
  {
    if action == "openImageDownloader" then Some(ImageDownloader)
    else if action == "openStyleInspector" then Some(StyleInspector)
    else if action == "openVideoRecorder" then Some(VideoRecorder)
    else None
  }

  /** The panel width each tool is rendered with. */
  function WidthOf(name: PanelName): int
  {
    match name
    case ImageDownloader => 450
    case StyleInspector => 500
    case VideoRecorder => 400
  }

  /** getPanelPosition: the n-th panel is 30 pixels further down and further
      left than the one before, starting 20 pixels from the top right
      corner, but never closer than 20 pixels to the left edge. */
  function PanelPosition(index: nat, panelWidth: int, innerWidth: int): (p: PanelFrame.Point)
    ensures p.y == 20 + 30 * index
    ensures p.x >= 20
    ensures p.x == 20 || p.x == innerWidth - panelWidth - 20 - 30 * index
    ensures p.x >= innerWidth - panelWidth - 20 - 30 * index
  {
    var padding := 20;
    var baseX := innerWidth - panelWidth - padding;
    var baseY := padding;
    var offset := index * 30;
    PanelFrame.Point(PanelFrame.Max(padding, baseX - offset), baseY + offset)
  }

  /** Later panels sit lower and never further right. */
  lemma PositionsStagger(i: nat, j: nat, width: int, innerWidth: int)
    requires i < j
    ensures PanelPosition(i, width, innerWidth).y < PanelPosition(j, width, innerWidth).y
    ensures PanelPosition(j, width, innerWidth).x <= PanelPosition(i, width, innerWidth).x
  {
  }

  /** The panels that are open, in the order they are rendered: the image
      downloader, then the style inspector, then the video recorder. */
  function OpenPanels(state: PanelState): (names: seq<PanelName>)
    ensures forall n :: n in names <==> Get(state, n).isOpen
    ensures forall i, j :: 0 <= i < j < |names| ==> names[i] != names[j]
  {
    (if state.imageDownloader.isOpen then [ImageDownloader] else []) +
    (if state.styleInspector.isOpen then [StyleInspector] else []) +
    (if state.videoRecorder.isOpen then [VideoRecorder] else [])
  }

  /** Where one rendered panel is placed. */
  datatype Placement = Placement(name: PanelName, position: PanelFrame.Point)

  class Manager {
    var panels: PanelState

    constructor ()
      ensures panels == InitialState
    {
      panels := InitialState;
    }

    /** handleMessage: an open message opens its panel, not minimized, and
        leaves the other two alone; any other action changes nothing. */
    method HandleMessage(action: string)
      modifies this
      ensures OpenedBy(action).Some? ==> panels == With(old(panels), OpenedBy(action).value, PanelFlags(true, false))
      ensures OpenedBy(action).None? ==> panels == old(panels)
    {
      if action == "openImageDownloader" {
        panels := panels.(imageDownloader := PanelFlags(true, false));
      } else if action == "openStyleInspector" {
        panels := panels.(styleInspector := PanelFlags(true, false));
      } else if action == "openVideoRecorder" {
        panels := panels.(videoRecorder := PanelFlags(true, false));
      }
    }

    /** closePanel: that panel is closed and no longer minimized. */
    method ClosePanel(name: PanelName)
      modifies this
      ensures panels == With(old(panels), name, Closed)
    {
      panels := With(panels, name, Closed);
    }

    /** toggleMinimize: only that panel's minimized flag flips. */
    method ToggleMinimize(name: PanelName)
      modifies this
      ensures panels == Minimized(old(panels), name)
    {
      var prev := Get(panels, name);
      panels := With(panels, name, prev.(isMinimized := !prev.isMinimized));
    }

    /** The render: every open panel in the fixed order, each placed by the
        counter panelIndex, which counts only the panels rendered before
        it. */
    method Render(innerWidth: int) returns (placed: seq<Placement>)
      ensures PlacedAs(placed, OpenPanels(panels), innerWidth)
    {
      var panelIndex: nat := 0;
      placed := [];
      ghost var names: seq<PanelName> := [];
      assert PlacedAs(placed, names, innerWidth);
      if panels.imageDownloader.isOpen {
        PlacedNext(placed, names, ImageDownloader, innerWidth);
        placed := placed + [Placement(ImageDownloader, PanelPosition(panelIndex, 450, innerWidth))];
        names := names + [ImageDownloader];
        panelIndex := panelIndex + 1;
      }
      if panels.styleInspector.isOpen {
        PlacedNext(placed, names, StyleInspector, innerWidth);
        placed := placed + [Placement(StyleInspector, PanelPosition(panelIndex, 500, innerWidth))];
        names := names + [StyleInspector];
        panelIndex := panelIndex + 1;
      }
      if panels.videoRecorder.isOpen {
        PlacedNext(placed, names, VideoRecorder, innerWidth);
        placed := placed + [Placement(VideoRecorder, PanelPosition(panelIndex, 400, innerWidth))];
        names := names + [VideoRecorder];
        panelIndex := panelIndex + 1;
      }
      assert names == OpenPanels(panels);
    }
  }

  /** `placed` holds one placement per panel of `names`, in that order, the
      k-th at the k-th staggered position with its own panel width. */
  predicate PlacedAs(placed: seq<Placement>, names: seq<PanelName>, innerWidth: int)
  {
    && |placed| == |names|
    && forall i :: 0 <= i < |placed| ==> placed[i] == Placement(names[i], PanelPosition(i, WidthOf(names[i]), innerWidth))
  }

  lemma PlacedNext(placed: seq<Placement>, names: seq<PanelName>, name: PanelName, innerWidth: int)
    requires PlacedAs(placed, names, innerWidth)
    ensures PlacedAs(placed + [Placement(name, PanelPosition(|names|, WidthOf(name), innerWidth))], names + [name], innerWidth)
  {
  }

  /** The record after toggleMinimize. */
  function Minimized(state: PanelState, name: PanelName): (s: PanelState)
    ensures Get(s, name).isMinimized == !Get(state, name).isMinimized
    ensures Get(s, name).isOpen == Get(state, name).isOpen
    ensures forall other :: other != name ==> Get(s, other) == Get(state, other)
  {
    With(state, name, Get(state, name).(isMinimized := !Get(state, name).isMinimized))
  }

  /** Minimizing twice restores the record. */
  lemma MinimizeTwice(state: PanelState, name: PanelName)
    ensures Minimized(Minimized(state, name), name) == state
  {
  }

  /** Closing is the same whatever the panel's flags were, and a closed
      panel is not rendered. */
  lemma CloseHides(state: PanelState, name: PanelName)
    ensures With(state, name, Closed) == With(With(state, name, Get(state, name).(isMinimized := true)), name, Closed)
    ensures name !in OpenPanels(With(state, name, Closed))
  {
  }

  /** Opening a panel renders it, whatever it was before. */
  lemma OpenShows(state: PanelState, name: PanelName)
    ensures name in OpenPanels(With(state, name, PanelFlags(true, false)))
  {
  }

  /** No two rendered panels start at the same height: the k-th open panel
      is placed at 20 + 30k. */
  lemma RenderedRowsDistinct(placed: seq<Placement>, panels: PanelState, innerWidth: int)
    requires PlacedAs(placed, OpenPanels(panels), innerWidth)
    ensures forall i, j :: 0 <= i < j < |placed| ==> placed[i].position.y < placed[j].position.y
    ensures forall i :: 0 <= i < |placed| ==> placed[i].position.x >= 20
  {
  }
}

=== FILE: recorder_service.dfy ===
/** The recording session of the video recorder service: one static session
    holding the media recorder's state, the live capture stream, the buffer of
    encoded chunks and the start time, plus the list of finished recordings in
    extension storage.

    Chunks are reduced to their byte sizes; the capture request, the recorder's
    events and the clock are inputs to the methods. */
module RecorderService {
  import opened Common

  /** MediaRecorder.state */
  datatype RecorderState = Inactive | Recording | Paused

  /** A finished recording (the blob is reduced to its size). */
  datatype RecordingData = RecordingData(id: string, name: string, duration: int, size: nat)

  /** What getDisplayMedia did: gave a stream or rejected with a named error. */
  datatype Acquisition = Granted | Rejected(errorName: string, message: string)

  datatype SessionError =
    | PermissionDenied          // NotAllowedError
    | NoCaptureDevice           // NotFoundError
    | CaptureFailed(message: string)
    | NoActiveRecording
    | RecorderNotSupported      // new MediaRecorder refused the vp9 WebM type

  /** The slice, in milliseconds, the recorder is started with. */
  const Timeslice := 1000

  /** The error mapping of getMediaStream: the two named failures and
      everything else are three distinct conditions. */
  function AcquisitionError(errorName: string, message: string): (e: SessionError)
    ensures e == PermissionDenied <==> errorName == "NotAllowedError"
    ensures e == NoCaptureDevice <==> errorName == "NotFoundError"
    ensures e.CaptureFailed? <==> errorName != "NotAllowedError" && errorName != "NotFoundError"
    ensures e != NoActiveRecording
  {
    if errorName == "NotAllowedError" then PermissionDenied
    else if errorName == "NotFoundError" then NoCaptureDevice
    else CaptureFailed(message)
  }

  /** The byte size of the blob made from the chunks. */
  function TotalSize(chunks: seq<nat>): nat
  {
    if |chunks| == 0 then 0 else TotalSize(chunks[..|chunks| - 1]) + chunks[|chunks| - 1]
  }

  /** When every chunk is non-empty, each adds at least one byte: the total
      is at least the number of chunks, so it is 0 exactly when there are
      none. */
  lemma {:induction false} TotalSizeOfNonEmpty(chunks: seq<nat>)
    requires forall i :: 0 <= i < |chunks| ==> chunks[i] > 0
    ensures TotalSize(chunks) >= |chunks|
    ensures TotalSize(chunks) == 0 <==> |chunks| == 0
  {
    if |chunks| > 0 {
      TotalSizeOfNonEmpty(chunks[..|chunks| - 1]);
    }
  }

  lemma {:induction false} TotalSizeAppend(a: seq<nat>, b: seq<nat>)
    ensures TotalSize(a + b) == TotalSize(a) + TotalSize(b)
    decreases |b|
  {
    if |b| == 0 {
      assert a + b == a;
    } else {
      assert (a + b)[..|a + b| - 1] == a + b[..|b| - 1];
      TotalSizeAppend(a, b[..|b| - 1]);
    }
  }

  /** The test of the dataavailable handler. */
  predicate NonEmpty(size: nat)
  {
    size > 0
  }

  /** Dropping the empty chunks does not change the recording's size: the
      size is that of everything the recorder emitted. */
  lemma {:induction false} EmptyChunksDoNotCount(emitted: seq<nat>)
    ensures TotalSize(Filter(emitted, NonEmpty)) == TotalSize(emitted)
  {
    if |emitted| > 0 {
      EmptyChunksDoNotCount(emitted[1..]);
      assert emitted == [emitted[0]] + emitted[1..];
      TotalSizeAppend([emitted[0]], emitted[1..]);
      if emitted[0] > 0 {
        TotalSizeAppend([emitted[0]], Filter(emitted[1..], NonEmpty));
      } else {
        assert TotalSize([emitted[0]]) == 0 by { assert [emitted[0]][..0] == []; }
      }
    }
  }

  /** The recordings whose id differs from `id`, in their order. */
  function WithoutId(recordings: seq<RecordingData>, id: string): (r: seq<RecordingData>)
    ensures forall x :: x in r <==> x in recordings && x.id != id
    ensures forall x :: x in r ==> x.id != id
  {
    Filter(recordings, (x: RecordingData) => x.id != id)
  }

  /** Deleting an id keeps every other recording and their order, and
      deleting it again changes nothing. */
  lemma DeleteKeepsOrder(a: seq<RecordingData>, b: seq<RecordingData>, id: string)
    ensures WithoutId(a + b, id) == WithoutId(a, id) + WithoutId(b, id)
    ensures WithoutId(WithoutId(a, id), id) == WithoutId(a, id)
  {
    FilterAppend(a, b, (x: RecordingData) => x.id != id);
    FilterIdempotent(a, (x: RecordingData) => x.id != id);
  }

  class Session {
    var recorder: Option<RecorderState>
    var streamLive: bool
    /** sizes of the buffered chunks, in arrival order */
    var chunks: seq<nat>
    var startTime: int
    /** the slice the current recorder was started with (0 before any start) */
    var slice: nat
    /** the 'recordings' list kept in extension storage */
    var stored: seq<RecordingData>

    ghost predicate Valid()
      reads this
    {
      forall i :: 0 <= i < |chunks| ==> chunks[i] > 0
    }

    /** The static initial state, over whatever storage already holds. */
    constructor (storedRecordings: seq<RecordingData>)
      ensures Valid()
      ensures recorder == None && !streamLive && chunks == [] && startTime == 0 && slice == 0
      ensures stored == storedRecordings
    {
      recorder, streamLive, chunks, startTime, slice := None, false, [], 0, 0;
      stored := storedRecordings;
    }

    /** startRecording: a rejected capture request fails with the mapped error
        and changes nothing. A granted one stores the stream; when the
        browser cannot build a recorder for vp9 WebM (`recorderSupported`
        false) the error is thrown on with the stream kept and the recorder,
        chunks and start time as they were. Otherwise it empties the chunk
        buffer, records the start time and starts a new recorder with a
        one-second slice. */
    method StartRecording(acquisition: Acquisition, recorderSupported: bool, now: int)
      returns (r: Result<(), SessionError>)
      requires Valid()
      modifies this
      ensures Valid()
      ensures acquisition.Rejected? ==>
        r == Err(AcquisitionError(acquisition.errorName, acquisition.message)) && unchanged(this)
      ensures acquisition.Granted? && !recorderSupported ==>
        && r == Err(RecorderNotSupported)
        && streamLive
        && recorder == old(recorder) && chunks == old(chunks) && startTime == old(startTime)
        && slice == old(slice) && stored == old(stored)
      ensures acquisition.Granted? && recorderSupported ==>
        && r == Ok(())
        && recorder == Some(Recording) && streamLive
        && chunks == [] && startTime == now && slice == Timeslice
        && stored == old(stored)
    {
      if acquisition.Rejected? {
        return Err(AcquisitionError(acquisition.errorName, acquisition.message));
      }
      streamLive := true;
      if !recorderSupported {
        return Err(RecorderNotSupported);
      }
      chunks := [];
      startTime := now;
      recorder := Some(Recording);
      slice := Timeslice;
      r := Ok(());
    }

    /** The dataavailable handler: only a non-empty chunk is buffered, at the end. */
    method OnDataAvailable(size: nat)
      requires Valid()
      modifies this`chunks
      ensures Valid()
      ensures chunks == if NonEmpty(size) then old(chunks) + [size] else old(chunks)
    {
      if size > 0 {
        chunks := chunks + [size];
      }
    }

    /** stopRecording: with no recorder, or an inactive one, it fails and
        changes nothing; otherwise the recorder is stopped and the stream's
        tracks are ended. The recording itself arrives with OnStop. */
    method StopRecording() returns (r: Result<(), SessionError>)
      requires Valid()
      modifies this`recorder, this`streamLive
      ensures Valid()
      ensures old(recorder) == None || old(recorder) == Some(Inactive) ==>
        r == Err(NoActiveRecording) && unchanged(this)
      ensures old(recorder) != None && old(recorder) != Some(Inactive) ==>
        r == Ok(()) && recorder == Some(Inactive) && !streamLive
    {
      if recorder == None || recorder == Some(Inactive) {
        return Err(NoActiveRecording);
      }
      recorder := Some(Inactive);
      streamLive := false;
      r := Ok(());
    }

    /** handleRecordingComplete, run by the recorder's stop event at time `now`
        with a fresh `id` and timestamped `name`. The event fires once the
        recorder has become inactive, whether stopRecording stopped it or the
        captured tracks ended (the user stopped sharing). The recording's size
        is the total of the buffered chunks, its duration the time since the
        start, and it is appended to the stored list. */
    method OnStop(now: int, id: string, name: string) returns (rec: RecordingData)
      requires Valid() && recorder.Some?
      modifies this`recorder, this`stored
      ensures Valid()
      ensures recorder == Some(Inactive)
      ensures rec == RecordingData(id, name, now - startTime, TotalSize(chunks))
      ensures rec.size >= |chunks| && (rec.size == 0 <==> |chunks| == 0)
      ensures stored == old(stored) + [rec]
    {
      TotalSizeOfNonEmpty(chunks);
      recorder := Some(Inactive);
      rec := RecordingData(id, name, now - startTime, TotalSize(chunks));
      stored := stored + [rec];
    }

    /** getRecordingDuration: zero unless the recorder is recording. */
    method GetRecordingDuration(now: int) returns (d: int)
      ensures recorder != Some(Recording) ==> d == 0
      ensures recorder == Some(Recording) ==> d == now - startTime
    {
      if recorder == Some(Recording) {
        d := now - startTime;
      } else {
        d := 0;
      }
    }

    /** deleteRecording: the stored list keeps the recordings with another id. */
    method DeleteRecording(id: string)
      modifies this`stored
      ensures stored == WithoutId(old(stored), id)
    {
      stored := WithoutId(stored, id);
    }
  }

  /** One more emitted chunk extends the buffered chunks exactly when it is
      non-empty. */
  lemma FeedStep(before: seq<nat>, emitted: seq<nat>, i: nat)
    requires i < |emitted|
    ensures before + Filter(emitted[..i + 1], NonEmpty)
         == before + Filter(emitted[..i], NonEmpty) + (if NonEmpty(emitted[i]) then [emitted[i]] else [])
  {
    assert emitted[..i + 1] == emitted[..i] + [emitted[i]];
    FilterAppend(emitted[..i], [emitted[i]], NonEmpty);
  }

  lemma FeedTotal(before: seq<nat>, emitted: seq<nat>)
    ensures TotalSize(before + Filter(emitted, NonEmpty)) == TotalSize(before) + TotalSize(emitted)
  {
    EmptyChunksDoNotCount(emitted);
    TotalSizeAppend(before, Filter(emitted, NonEmpty));
  }

  /** The recorder emitting `emitted` into a running session: whatever was
      buffered grows by the size of everything emitted. */
  method Feed(s: Session, emitted: seq<nat>)
    requires s.Valid()
    modifies s`chunks
    ensures s.Valid()
    ensures TotalSize(s.chunks) == TotalSize(old(s.chunks)) + TotalSize(emitted)
  {
    ghost var before := s.chunks;
    assert emitted[..0] == [];
    var i := 0;
    while i < |emitted|
      invariant 0 <= i <= |emitted|
      invariant s.Valid()
      invariant s.chunks == before + Filter(emitted[..i], NonEmpty)
    {
      FeedStep(before, emitted, i);
      s.OnDataAvailable(emitted[i]);
      i := i + 1;
    }
    assert emitted[..i] == emitted;
    FeedTotal(before, emitted);
  }

  /** A whole session: start at `t0`, the recorder emits chunks (some empty),
      stop, completion at `t1`. The recording is the last stored entry, its
      size counts every emitted byte and its duration is t1 - t0; a second
      stop is rejected. */
  method RecordOnce(before: seq<RecordingData>, t0: int, emitted: seq<nat>, t1: int, id: string, name: string)
    returns (rec: RecordingData, after: seq<RecordingData>, secondStop: Result<(), SessionError>)
    ensures after == before + [rec]
    ensures rec.size == TotalSize(emitted) && rec.duration == t1 - t0
    ensures secondStop == Err(NoActiveRecording)
  {
    var s := new Session(before);
    var started := s.StartRecording(Granted, true, t0);
    Feed(s, emitted);
    assert TotalSize(s.chunks) == TotalSize(emitted);
    var stopped := s.StopRecording();
    rec := s.OnStop(t1, id, name);
    after := s.stored;
    secondStop := s.StopRecording();
  }

  /** A session the user ends by stopping the screen share: start at `t0`,
      the recorder emits chunks, then the captured tracks end and the
      recorder stops by itself, completing at `t1`. While it ran, the duration
      was the time since `t0`; the recording still holds every emitted byte,
      and afterwards the duration is 0 and stopRecording is rejected. */
  method RecordUntilSharingEnds(before: seq<RecordingData>, t0: int, emitted: seq<nat>, tRunning: int, t1: int,
                                tLater: int, id: string, name: string)
    returns (running: int, rec: RecordingData, after: seq<RecordingData>, durationAfter: int,
             laterStop: Result<(), SessionError>)
    ensures running == tRunning - t0
    ensures after == before + [rec]
    ensures rec.size == TotalSize(emitted) && rec.duration == t1 - t0
    ensures durationAfter == 0
    ensures laterStop == Err(NoActiveRecording)
  {
    var s := new Session(before);
    var started := s.StartRecording(Granted, true, t0);
    Feed(s, emitted);
    running := s.GetRecordingDuration(tRunning);
    rec := s.OnStop(t1, id, name);
    after := s.stored;
    durationAfter := s.GetRecordingDuration(tLater);
    laterStop := s.StopRecording();
  }

  /** A first start on a browser without vp9 WebM recording: the capture is
      granted but no recorder is built. The start fails, the captured stream
      stays live, and stopRecording cannot end it since there is no active
      recording. */
  method UnsupportedStart(before: seq<RecordingData>, t0: int)
    returns (started: Result<(), SessionError>, stop: Result<(), SessionError>, streamLeft: bool)
    ensures started == Err(RecorderNotSupported)
    ensures stop == Err(NoActiveRecording)
    ensures streamLeft
  {
    var s := new Session(before);
    started := s.StartRecording(Granted, false, t0);
    stop := s.StopRecording();
    streamLeft := s.streamLive;
  }
}

=== FILE: strings.dfy ===
/** String operations the extension relies on, written out explicitly:
    startsWith / endsWith / includes, ASCII toLowerCase, split / join on a
    one-character separator, decimal printing (Number.prototype.toString),
    decimal parsing (Number() on a digit string) and padStart(2, '0'). */
module Strings {
  import opened Common

  predicate StartsWith(s: string, p: string)
  {
    |p| <= |s| && s[..|p|] == p
  }

  predicate EndsWith(s: string, t: string)
  {
    |t| <= |s| && s[|s| - |t|..] == t
  }

  /** String.prototype.includes. */
  predicate Contains(s: string, t: string)
    decreases |s|
  {
    StartsWith(s, t) || (|s| > 0 && Contains(s[1..], t))
  }

  lemma {:induction false} ContainsAt(s: string, t: string, i: nat)
    requires i + |t| <= |s| && s[i..i + |t|] == t
    ensures Contains(s, t)
    decreases i
  {
    if i > 0 {
      assert s[1..][i - 1..i - 1 + |t|] == s[i..i + |t|];
      ContainsAt(s[1..], t, i - 1);
    }
  }

  lemma {:induction false} ContainsWitness(s: string, t: string) returns (i: nat)
    requires Contains(s, t)
    ensures i + |t| <= |s| && s[i..i + |t|] == t
    decreases |s|
  {
    if StartsWith(s, t) {
      i := 0;
    } else {
      var j := ContainsWitness(s[1..], t);
      i := j + 1;
      assert s[1..][j..j + |t|] == s[i..i + |t|];
    }
  }

  lemma StartsWithAppend(s: string, p: string, x: string)
    requires StartsWith(s, p)
    ensures StartsWith(s + x, p)
  {
    assert (s + x)[..|p|] == s[..|p|];
  }

  function LowerChar(c: char): char
  {
    if 'A' <= c <= 'Z' then (c as int + 32) as char else c
  }

  /** String.prototype.toLowerCase, for ASCII letters. */
  function ToLower(s: string): (r: string)
    ensures |r| == |s|
    ensures forall i :: 0 <= i < |s| ==> r[i] == LowerChar(s[i])
  {
    seq(|s|, i requires 0 <= i < |s| => LowerChar(s[i]))
  }

  lemma ToLowerSlice(s: string, i: int, j: int)
    requires 0 <= i <= j <= |s|
    ensures ToLower(s)[i..j] == ToLower(s[i..j])
  {
  }

  /** String.prototype.split with a one-character separator: the pieces
      between separators, including empty ones; "" splits to [""]. */
  function Split(s: string, sep: char): (parts: seq<string>)
    ensures |parts| >= 1
    ensures forall p :: p in parts ==> sep !in p
    decreases |s|
  {
    if |s| == 0 then [""]
    else
      var rest := Split(s[1..], sep);
      if s[0] == sep then [""] + rest
      else [[s[0]] + rest[0]] + rest[1..]
  }

  /** Array.prototype.join with a one-character separator. */
  function Join(parts: seq<string>, sep: char): string
    decreases |parts|
  {
    if |parts| == 0 then ""
    else if |parts| == 1 then parts[0]
    else parts[0] + [sep] + Join(parts[1..], sep)
  }

  lemma JoinCons(p: string, ps: seq<string>, sep: char)
    requires |ps| >= 1
    ensures Join([p] + ps, sep) == p + [sep] + Join(ps, sep)
  {
    assert ([p] + ps)[1..] == ps;
  }

  /** Splitting then joining on the same separator gives the string back. */
  lemma {:induction false} JoinSplit(s: string, sep: char)
    ensures Join(Split(s, sep), sep) == s
    decreases |s|
  {
    if |s| > 0 {
      var rest := Split(s[1..], sep);
      JoinSplit(s[1..], sep);
      if s[0] == sep {
        JoinCons("", rest, sep);
      } else if |rest| == 1 {
      } else {
        assert Join(rest, sep) == rest[0] + [sep] + Join(rest[1..], sep);
        JoinCons([s[0]] + rest[0], rest[1..], sep);
      }
    }
  }

  /** Joining pieces free of the separator then splitting gives the pieces back. */
  lemma {:induction false} SplitJoin(parts: seq<string>, sep: char)
    requires |parts| >= 1
    requires forall p :: p in parts ==> sep !in p
    ensures Split(Join(parts, sep), sep) == parts
    decreases |parts|, |parts[0]|
  {
    var p := parts[0];
    if |parts| == 1 {
      SplitNoSep(p, sep);
    } else if |p| == 0 {
      JoinCons(p, parts[1..], sep);
      var j := Join(parts[1..], sep);
      assert Join(parts, sep) == [sep] + j;
      assert ([sep] + j)[1..] == j;
      SplitJoin(parts[1..], sep);
      assert [""] + parts[1..] == parts;
    } else {
      var tail := [p[1..]] + parts[1..];
      assert forall q :: q in tail ==> q == p[1..] || q in parts;
      assert forall c :: c in p[1..] ==> c in p;
      JoinCons(p, parts[1..], sep);
      JoinCons(p[1..], parts[1..], sep);
      var j := Join(tail, sep);
      assert Join(parts, sep) == [p[0]] + j;
      assert ([p[0]] + j)[1..] == j;
      assert p[0] in p;
      SplitJoin(tail, sep);
      assert tail[1..] == parts[1..];
      assert [p[0]] + p[1..] == p;
      assert [p] + parts[1..] == parts;
    }
  }

  lemma {:induction false} SplitNoSep(s: string, sep: char)
    requires sep !in s
    ensures Split(s, sep) == [s]
    decreases |s|
  {
    if |s| > 0 {
      assert s[0] in s;
      assert forall c :: c in s[1..] ==> c in s;
      SplitNoSep(s[1..], sep);
      assert [s[0]] + s[1..] == s;
    }
  }

  predicate IsDigit(c: char)
  {
    '0' <= c <= '9'
  }

  predicate AllDigits(s: string)
  {
    forall i :: 0 <= i < |s| ==> IsDigit(s[i])
  }

  function DigitChar(d: nat): char
    requires d < 10
  {
    ('0' as int + d) as char
  }

  /** Number.prototype.toString for a non-negative integer: decimal digits. */
  function NatToString(n: nat): (s: string)
    ensures |s| >= 1 && AllDigits(s)
    decreases n
  {
    if n < 10 then [DigitChar(n)] else NatToString(n / 10) + [DigitChar(n % 10)]
  }

  /** The value of a string of decimal digits. */
  function DigitsValue(s: string): nat
    requires AllDigits(s)
    decreases |s|
  {
    if |s| == 0 then 0
    else DigitsValue(s[..|s| - 1]) * 10 + (s[|s| - 1] as int - '0' as int)
  }

  /** Number(s) for a decimal digit string; anything else is not a number. */
  function ParseNat(s: string): Option<nat>
  {
    if |s| > 0 && AllDigits(s) then Some(DigitsValue(s)) else None
  }

  /** Printing then parsing gives the number back. */
  lemma {:induction false} ParsePrinted(n: nat)
    ensures ParseNat(NatToString(n)) == Some(n)
    decreases n
  {
    var s := NatToString(n);
    assert (DigitChar(n % 10) as int - '0' as int) == n % 10;
    if n >= 10 {
      ParsePrinted(n / 10);
      assert s[..|s| - 1] == NatToString(n / 10);
      assert DigitsValue(s) == (n / 10) * 10 + n % 10;
    } else {
      assert s[..|s| - 1] == [];
      assert n % 10 == n;
      assert DigitsValue(s) == n;
    }
  }

  lemma NatToStringOneDigit(n: nat)
    requires n < 10
    ensures |NatToString(n)| == 1
  {
  }

  lemma {:induction false} NatToStringTwoDigits(n: nat)
    requires 10 <= n < 100
    ensures |NatToString(n)| == 2
  {
    assert NatToString(n / 10) == [DigitChar(n / 10)];
  }

  /** padStart(2, '0'). */
  function Pad2(s: string): (r: string)
    ensures |s| >= 2 ==> r == s
    ensures |s| < 2 ==> |r| == 2 && EndsWith(r, s)
  {
    if |s| >= 2 then s else if |s| == 1 then "0" + s else "00"
  }

  /** A number below 100 padded to two digits prints as two digits that
      parse back to it. */
  lemma Pad2Parse(n: nat)
    requires n < 100
    ensures |Pad2(NatToString(n))| == 2 && AllDigits(Pad2(NatToString(n)))
    ensures ParseNat(Pad2(NatToString(n))) == Some(n)
  {
    ParsePrinted(n);
    if n < 10 {
      var p := Pad2(NatToString(n));
      assert p == "0" + NatToString(n);
      assert p[..1] == "0";
    } else {
      NatToStringTwoDigits(n);
    }
  }
}

=== FILE: style_extractor.dfy ===
/** The text generators of the style inspector: the CSS rule and the Tailwind
    class list made from a StyleData, and the recognition of Tailwind classes
    already on an element.

    Each generator is a method with the loops of the original, proved equal
    to a specification function built the way the loops append (from the
    end); the lemmas state what that function promises. */
module StyleExtractor {
  import opened Common
  import opened Strings
  import opened StyleTypes

  // ---------------------------------------------------------------------
  // extractTailwindClasses: fourteen patterns, written out
  // ---------------------------------------------------------------------

  /** \d+ */
  predicate Digits1(s: string)
  {
    |s| >= 1 && AllDigits(s)
  }

  /** ^(m|p)(t|r|b|l|x|y)?-\d+$ */
  predicate SpacingPattern(c: string)
  {
    && |c| >= 3
    && (c[0] == 'm' || c[0] == 'p')
    && ( (c[1] == '-' && Digits1(c[2..]))
      || (c[1] in "trblxy" && |c| >= 4 && c[2] == '-' && Digits1(c[3..])) )
  }

  /** ^text-(xs|sm|base|lg|xl|2xl|3xl|4xl|5xl|6xl)$ */
  predicate FontSizePattern(c: string)
  {
    c in FontSizeNames
  }

  const FontSizeNames: seq<string> :=
    ["text-xs", "text-sm", "text-base", "text-lg", "text-xl",
          "text-2xl", "text-3xl", "text-4xl", "text-5xl", "text-6xl"]

  /** ^text-(left|center|right|justify)$ */
  predicate TextAlignPattern(c: string)
  {
    c in TextAlignNames
  }

  const TextAlignNames: seq<string> :=
    ["text-left", "text-center", "text-right", "text-justify"]

  /** ^font-(thin|extralight|light|normal|medium|semibold|bold|extrabold|black)$ */
  predicate FontWeightPattern(c: string)
  {
    c in FontWeightNames
  }

  const FontWeightNames: seq<string> :=
    ["font-thin", "font-extralight", "font-light", "font-normal", "font-medium",
          "font-semibold", "font-bold", "font-extrabold", "font-black"]

  const Colors: seq<string> :=
    ["transparent", "current", "black", "white", "gray", "red", "yellow",
     "green", "blue", "indigo", "purple", "pink"]

  /** -?\d* */
  predicate OptDashDigits(r: string)
  {
    AllDigits(r) || (|r| >= 1 && r[0] == '-' && AllDigits(r[1..]))
  }

  /** ^<head>-(transparent|current|...|pink)-?\d*$ for head bg, text, border */
  predicate ColorPattern(c: string, head: string)
  {
    && StartsWith(c, head + "-")
    && exists k :: |head| + 1 <= k <= |c| && c[|head| + 1..k] in Colors && OptDashDigits(c[k..])
  }

  /** ^rounded(-none|-sm|-md|-lg|-xl|-2xl|-3xl|-full)?$ */
  predicate RoundedPattern(c: string)
  {
    c in RoundedNames
  }

  const RoundedNames: seq<string> :=
    ["rounded", "rounded-none", "rounded-sm", "rounded-md", "rounded-lg",
          "rounded-xl", "rounded-2xl", "rounded-3xl", "rounded-full"]

  /** ^shadow(-none|-sm|-md|-lg|-xl|-2xl|-inner)?$ */
  predicate ShadowPattern(c: string)
  {
    c in ShadowNames
  }

  const ShadowNames: seq<string> :=
    ["shadow", "shadow-none", "shadow-sm", "shadow-md", "shadow-lg",
          "shadow-xl", "shadow-2xl", "shadow-inner"]

  /** ^flex(-1|-auto|-initial|-none)?$ */
  predicate FlexPattern(c: string)
  {
    c in FlexNames
  }

  const FlexNames: seq<string> :=
    ["flex", "flex-1", "flex-auto", "flex-initial", "flex-none"]

  /** ^grid(-cols-\d+)?$ */
  predicate GridPattern(c: string)
  {
    c == "grid" || (StartsWith(c, "grid-cols-") && Digits1(c[10..]))
  }

  /** (\d+|auto|full|screen)$ after `prefix` */
  predicate SizePattern(c: string, prefix: string)
  {
    StartsWith(c, prefix) && (Digits1(c[|prefix|..]) || c[|prefix|..] in ["auto", "full", "screen"])
  }

  /** ^(min|max)-(w|h)-(\d+|auto|full|screen)$ */
  predicate MinMaxPattern(c: string)
  {
    SizePattern(c, "min-w-") || SizePattern(c, "min-h-") || SizePattern(c, "max-w-") || SizePattern(c, "max-h-")
  }

  /** Some listed pattern matches the class name. */
  predicate IsTailwindClass(c: string)
  {
    || SpacingPattern(c)
    || FontSizePattern(c)
    || TextAlignPattern(c)
    || FontWeightPattern(c)
    || ColorPattern(c, "bg")
    || ColorPattern(c, "text")
    || ColorPattern(c, "border")
    || RoundedPattern(c)
    || ShadowPattern(c)
    || FlexPattern(c)
    || GridPattern(c)
    || SizePattern(c, "w-")
    || SizePattern(c, "h-")
    || MinMaxPattern(c)
  }

  /** extractTailwindClasses: the element's class names that match a
      pattern, in class-list order. */
  function ExtractTailwindClasses(classList: seq<string>): (r: seq<string>)
    ensures forall c :: c in r <==> c in classList && IsTailwindClass(c)
    ensures |r| <= |classList|
  {
    Filter(classList, IsTailwindClass)
  }

  /** Extraction keeps the class-list order: extracting from two halves of
      a list and concatenating is extracting from the whole. */
  lemma ExtractKeepsOrder(a: seq<string>, b: seq<string>)
    ensures ExtractTailwindClasses(a + b) == ExtractTailwindClasses(a) + ExtractTailwindClasses(b)
  {
    FilterAppend(a, b, IsTailwindClass);
  }

  // ---------------------------------------------------------------------
  // generateCSS
  // ---------------------------------------------------------------------

  /** The properties written first, in this order. */
  const ImportantProps: seq<string> :=
    ["display", "position", "width", "height", "color", "background-color", "font-size", "font-family"]

  /** One declaration line. */
  function Decl(e: Entry): string
  {
    "  " + e.name + ": " + e.value + ";\n"
  }

  /** Declarations written one after the other. */
  function Render(es: seq<Entry>): string
    decreases |es|
  {
    if |es| == 0 then "" else Decl(es[0]) + Render(es[1..])
  }

  lemma {:induction false} RenderAppend(a: seq<Entry>, b: seq<Entry>)
    ensures Render(a + b) == Render(a) + Render(b)
    decreases |a|
  {
    if |a| == 0 {
      assert a + b == b;
    } else {
      assert (a + b)[1..] == a[1..] + b;
      RenderAppend(a[1..], b);
    }
  }

  lemma Associative(a: string, b: string, c: string)
    ensures (a + b) + c == a + (b + c)
  {
  }

  /** What one category contributes for an important property: its value,
      when that value is truthy (a non-empty string). */
  function ImportantIn(prop: string, b: Record): seq<Entry>
  {
    match Lookup(b, prop)
    case Some(v) => if v != "" then [Entry(prop, v)] else []
    case None => []
  }

  /** Some category among `bs` holds `v` under `prop`. */
  predicate Offers(bs: seq<Record>, prop: string, v: string)
    decreases |bs|
  {
    |bs| > 0 && (Offers(bs[..|bs| - 1], prop, v) || Lookup(bs[|bs| - 1], prop) == Some(v))
  }

  /** A category holding `v` under `prop` makes the list offer it. */
  lemma {:induction false} OffersAt(bs: seq<Record>, prop: string, v: string, i: nat)
    requires i < |bs| && Lookup(bs[i], prop) == Some(v)
    ensures Offers(bs, prop, v)
    decreases |bs|
  {
    var n := |bs| - 1;
    if i < n {
      assert bs[..n][i] == bs[i];
      OffersAt(bs[..n], prop, v, i);
    }
  }

  /** A list that offers `v` under `prop` has a category holding it. */
  lemma {:induction false} OfferedAt(bs: seq<Record>, prop: string, v: string) returns (i: nat)
    requires Offers(bs, prop, v)
    ensures i < |bs| && Lookup(bs[i], prop) == Some(v)
    decreases |bs|
  {
    var n := |bs| - 1;
    if Lookup(bs[n], prop) == Some(v) {
      i := n;
    } else {
      i := OfferedAt(bs[..n], prop, v);
      assert bs[..n][i] == bs[i];
    }
  }

  lemma OffersIff(bs: seq<Record>, prop: string, v: string)
    ensures Offers(bs, prop, v) <==> exists i :: 0 <= i < |bs| && Lookup(bs[i], prop) == Some(v)
  {
    if Offers(bs, prop, v) {
      var i := OfferedAt(bs, prop, v);
    }
    if exists i :: 0 <= i < |bs| && Lookup(bs[i], prop) == Some(v) {
      var i :| 0 <= i < |bs| && Lookup(bs[i], prop) == Some(v);
      OffersAt(bs, prop, v, i);
    }
  }

  /** The inner loop of the first pass: one property across the categories. */
  function ImportantAcross(prop: string, bs: seq<Record>): seq<Entry>
    decreases |bs|
  {
    if |bs| == 0 then []
    else ImportantAcross(prop, bs[..|bs| - 1]) + ImportantIn(prop, bs[|bs| - 1])
  }

  lemma {:induction false} ImportantAcrossMembers(prop: string, bs: seq<Record>, e: Entry)
    ensures e in ImportantAcross(prop, bs) <==> e.name == prop && e.value != "" && Offers(bs, prop, e.value)
    decreases |bs|
  {
    if |bs| > 0 {
      ImportantAcrossMembers(prop, bs[..|bs| - 1], e);
    }
  }

  /** The first pass: each listed property in turn, across the categories. */
  function ImportantPass(props: seq<string>, bs: seq<Record>): seq<Entry>
    decreases |props|
  {
    if |props| == 0 then []
    else ImportantPass(props[..|props| - 1], bs) + ImportantAcross(props[|props| - 1], bs)
  }

  lemma {:induction false} ImportantPassMembers(props: seq<string>, bs: seq<Record>, e: Entry)
    ensures e in ImportantPass(props, bs) <==> e.name in props && e.value != "" && Offers(bs, e.name, e.value)
    decreases |props|
  {
    if |props| > 0 {
      var n := |props| - 1;
      ImportantPassMembers(props[..n], bs, e);
      ImportantAcrossMembers(props[n], bs, e);
      assert e.name in props <==> e.name in props[..n] || e.name == props[n];
    }
  }

  /** The test of the second pass. */
  predicate SecondPass(e: Entry)
  {
    e.name !in ImportantProps && e.value != "" && e.value != "initial" && e.value != "normal"
  }

  /** The second pass: every category in turn, its entries in order. */
  function OtherPass(bs: seq<Record>): seq<Entry>
    decreases |bs|
  {
    if |bs| == 0 then [] else OtherPass(bs[..|bs| - 1]) + Filter(bs[|bs| - 1], SecondPass)
  }

  lemma {:induction false} OtherPassMembers(bs: seq<Record>, e: Entry)
    ensures e in OtherPass(bs) <==> SecondPass(e) && exists i :: 0 <= i < |bs| && e in bs[i]
    decreases |bs|
  {
    if |bs| > 0 {
      var n := |bs| - 1;
      OtherPassMembers(bs[..n], e);
      if exists i :: 0 <= i < |bs| && e in bs[i] {
        var i :| 0 <= i < |bs| && e in bs[i];
        if i < n {
          assert bs[..n][i] == bs[i];
        }
      }
      if SecondPass(e) && exists i :: 0 <= i < n && e in bs[..n][i] {
        var i :| 0 <= i < n && e in bs[..n][i];
        assert bs[i] == bs[..n][i];
      }
    }
  }

  /** The declarations of the rule, in the order they are written. */
  function Declarations(sd: StyleData): seq<Entry>
  {
    var bs := sd.properties.Buckets();
    ImportantPass(ImportantProps, bs) + OtherPass(bs)
  }

  /** The rule generateCSS returns. */
  function CssText(sd: StyleData): (css: string)
    ensures StartsWith(css, sd.selector + " {\n")
    ensures EndsWith(css, "}")
  {
    var header := sd.selector + " {\n";
    var css := header + Render(Declarations(sd)) + "}";
    assert css[..|header|] == header;
    css
  }

  /** The inner forEach of the first pass: writes `prop` from each category
      that holds a truthy value for it. */
  method WriteImportant(css: string, prop: string, bs: seq<Record>) returns (css': string)
    ensures css' == css + Render(ImportantAcross(prop, bs))
  {
    css' := css;
    var j := 0;
    while j < |bs|
      invariant 0 <= j <= |bs|
      invariant css' == css + Render(ImportantAcross(prop, bs[..j]))
    {
      var v := Lookup(bs[j], prop);
      ghost var prev, add := ImportantAcross(prop, bs[..j]), ImportantIn(prop, bs[j]);
      assert bs[..j + 1][..j] == bs[..j];
      assert ImportantAcross(prop, bs[..j + 1]) == prev + add;
      RenderAppend(prev, add);
      if v.Some? && v.value != "" {
        assert add == [Entry(prop, v.value)];
        assert Render(add) == Decl(Entry(prop, v.value));
        Associative(css, Render(prev), Render(add));
        css' := css' + Decl(Entry(prop, v.value));
      } else {
        assert add == [];
      }
      j := j + 1;
    }
    assert bs[..j] == bs;
  }

  lemma RenderOne(e: Entry)
    ensures Render([e]) == Decl(e)
  {
    assert [e][1..] == [];
  }

  /** Rendering the entries of a prefix that pass a test, grown by one entry. */
  lemma RenderFilterStep(b: Record, k: nat, keep: Entry -> bool)
    requires k < |b|
    ensures Render(Filter(b[..k + 1], keep)) == Render(Filter(b[..k], keep)) + if keep(b[k]) then Decl(b[k]) else ""
  {
    var prev := Filter(b[..k], keep);
    FilterSnoc(b, k, keep);
    if keep(b[k]) {
      RenderAppend(prev, [b[k]]);
      RenderOne(b[k]);
    } else {
      assert prev + [] == prev;
    }
  }

  /** The text the inner forEach of the second pass has written after the
      first `k` entries of a category, for the test `keep`. */
  function WrittenUpTo(b: Record, k: nat, keep: Entry -> bool): string
    requires k <= |b|
    decreases k
  {
    if k == 0 then "" else WrittenUpTo(b, k - 1, keep) + if keep(b[k - 1]) then Decl(b[k - 1]) else ""
  }

  /** That text is the passing entries of the prefix, rendered. */
  lemma {:induction false} WrittenUpToRenders(b: Record, k: nat, keep: Entry -> bool)
    requires k <= |b|
    ensures WrittenUpTo(b, k, keep) == Render(Filter(b[..k], keep))
    decreases k
  {
    if k == 0 {
      assert b[..0] == [];
    } else {
      var line := if keep(b[k - 1]) then Decl(b[k - 1]) else "";
      assert WrittenUpTo(b, k, keep) == WrittenUpTo(b, k - 1, keep) + line;
      WrittenUpToRenders(b, k - 1, keep);
      RenderFilterStep(b, k - 1, keep);
    }
  }

  /** The inner forEach of the second pass: writes the entries of one
      category that pass the test, in order. */
  method WriteCategory(css: string, b: Record) returns (css': string)
    ensures css' == css + Render(Filter(b, SecondPass))
  {
    css' := css;
    var k := 0;
    while k < |b|
      invariant 0 <= k <= |b|
      invariant css' == css + WrittenUpTo(b, k, SecondPass)
    {
      var entry := b[k];
      if SecondPass(entry) {
        Associative(css, WrittenUpTo(b, k, SecondPass), Decl(entry));
        css' := css' + Decl(entry);
      }
      k := k + 1;
    }
    WrittenUpToRenders(b, |b|, SecondPass);
    assert b[..|b|] == b;
  }

  /** The first pass: the eight properties in list order. */
  method WriteFirstPass(css: string, bs: seq<Record>) returns (css': string)
    ensures css' == css + Render(ImportantPass(ImportantProps, bs))
  {
    css' := css;
    var i := 0;
    while i < |ImportantProps|
      invariant 0 <= i <= |ImportantProps|
      invariant css' == css + Render(ImportantPass(ImportantProps[..i], bs))
    {
      ghost var prev, add := ImportantPass(ImportantProps[..i], bs), ImportantAcross(ImportantProps[i], bs);
      assert ImportantProps[..i + 1][..i] == ImportantProps[..i];
      assert ImportantPass(ImportantProps[..i + 1], bs) == prev + add;
      RenderAppend(prev, add);
      Associative(css, Render(prev), Render(add));
      css' := WriteImportant(css', ImportantProps[i], bs);
      i := i + 1;
    }
    assert ImportantProps[..i] == ImportantProps;
  }

  /** The second pass: the categories in order. */
  method WriteSecondPass(css: string, bs: seq<Record>) returns (css': string)
    ensures css' == css + Render(OtherPass(bs))
  {
    css' := css;
    var j := 0;
    while j < |bs|
      invariant 0 <= j <= |bs|
      invariant css' == css + Render(OtherPass(bs[..j]))
    {
      ghost var prev, add := OtherPass(bs[..j]), Filter(bs[j], SecondPass);
      assert bs[..j + 1][..j] == bs[..j];
      assert OtherPass(bs[..j + 1]) == prev + add;
      RenderAppend(prev, add);
      Associative(css, Render(prev), Render(add));
      css' := WriteCategory(css', bs[j]);
      j := j + 1;
    }
    assert bs[..j] == bs;
  }

  /** generateCSS. */
  method GenerateCss(sd: StyleData) returns (css: string)
    ensures css == CssText(sd)
  {
    var bs := sd.properties.Buckets();
    var header := sd.selector + " {\n";
    css := WriteFirstPass(header, bs);
    css := WriteSecondPass(css, bs);
    RenderAppend(ImportantPass(ImportantProps, bs), OtherPass(bs));
    Associative(header, Render(ImportantPass(ImportantProps, bs)), Render(OtherPass(bs)));
    css := css + "}";
  }

  /** An entry is written in the first pass exactly when its property is one
      of the eight and some category holds a non-empty value for it; the
      values 'initial' and 'normal' are written too. */
  lemma FirstPassMembers(sd: StyleData, e: Entry)
    ensures var bs := sd.properties.Buckets();
      e in ImportantPass(ImportantProps, bs) <==>
      e.name in ImportantProps && e.value != "" && exists i :: 0 <= i < |bs| && Lookup(bs[i], e.name) == Some(e.value)
  {
    ImportantPassMembers(ImportantProps, sd.properties.Buckets(), e);
    OffersIff(sd.properties.Buckets(), e.name, e.value);
  }

  /** An entry is written in the second pass exactly when it is in some
      category, its property is not one of the eight, and its value is not
      empty, 'initial' or 'normal'; so the second pass never repeats a
      property of the first. */
  lemma SecondPassMembers(sd: StyleData, e: Entry)
    ensures var bs := sd.properties.Buckets();
      e in OtherPass(bs) <==> SecondPass(e) && exists i :: 0 <= i < |bs| && e in bs[i]
    ensures e in OtherPass(sd.properties.Buckets()) ==> e !in ImportantPass(ImportantProps, sd.properties.Buckets())
  {
    OtherPassMembers(sd.properties.Buckets(), e);
    ImportantPassMembers(ImportantProps, sd.properties.Buckets(), e);
  }

  /** The position of `x` in `xs` (|xs| when absent). */
  function IndexOf(xs: seq<string>, x: string): (k: nat)
    ensures k <= |xs|
    ensures k < |xs| <==> x in xs
    ensures k < |xs| ==> xs[k] == x && x !in xs[..k]
    decreases |xs|
  {
    if |xs| == 0 then 0
    else if xs[0] == x then 0
    else
      var k := IndexOf(xs[1..], x) + 1;
      assert xs[..k] == [xs[0]] + xs[1..][..k - 1];
      k
  }

  lemma IndexOfPrefix(xs: seq<string>, n: nat, x: string)
    requires n <= |xs| && x in xs[..n]
    ensures IndexOf(xs, x) == IndexOf(xs[..n], x) < n
  {
    var k, k' := IndexOf(xs, x), IndexOf(xs[..n], x);
    var i :| 0 <= i < n && xs[..n][i] == x;
    assert xs[i] == x;
    assert xs[..n][..k'] == xs[..k'];
    assert forall j :: 0 <= j < k' ==> xs[..k'][j] == xs[j];
    assert forall j :: 0 <= j < k ==> xs[..k][j] == xs[j];
  }

  lemma IndexOfLast(xs: seq<string>)
    requires |xs| > 0 && Distinct(xs)
    ensures IndexOf(xs, xs[|xs| - 1]) == |xs| - 1
  {
  }

  /** Every entry of the first pass over a prefix of the list names a
      property before position n. */
  lemma FrontRanks(props: seq<string>, bs: seq<Record>, n: nat, e: Entry)
    requires n <= |props| && e in ImportantPass(props[..n], bs)
    ensures IndexOf(props, e.name) < n
  {
    ImportantPassMembers(props[..n], bs, e);
    IndexOfPrefix(props, n, e.name);
  }

  /** The first pass follows the list order: along the written
      declarations, the properties' positions in the list never decrease. */
  lemma {:induction false} FirstPassInListOrder(props: seq<string>, bs: seq<Record>)
    requires Distinct(props)
    ensures var es := ImportantPass(props, bs);
      forall i, j :: 0 <= i < j < |es| ==> IndexOf(props, es[i].name) <= IndexOf(props, es[j].name)
    decreases |props|
  {
    if |props| > 0 {
      var n := |props| - 1;
      var front := ImportantPass(props[..n], bs);
      var last := ImportantAcross(props[n], bs);
      var es := front + last;
      assert Distinct(props[..n]);
      FirstPassInListOrder(props[..n], bs);
      IndexOfLast(props);
      forall i | 0 <= i < |front|
        ensures IndexOf(props, front[i].name) == IndexOf(props[..n], front[i].name)
      {
        ImportantPassMembers(props[..n], bs, front[i]);
        IndexOfPrefix(props, n, front[i].name);
      }
      forall i, j | 0 <= i < j < |es|
        ensures IndexOf(props, es[i].name) <= IndexOf(props, es[j].name)
      {
        if j < |front| {
          assert es[i] == front[i] && es[j] == front[j];
        } else {
          assert es[j] in last;
          ImportantAcrossMembers(props[n], bs, es[j]);
          if i >= |front| {
            assert es[i] in last;
            ImportantAcrossMembers(props[n], bs, es[i]);
          } else {
            assert es[i] in front;
            FrontRanks(props, bs, n, es[i]);
          }
        }
      }
    }
  }

  /** For the rule: the important declarations come in the order of the
      eight-property list. */
  lemma RuleImportantOrder(sd: StyleData)
    ensures var es := ImportantPass(ImportantProps, sd.properties.Buckets());
      forall i, j :: 0 <= i < j < |es| ==> IndexOf(ImportantProps, es[i].name) <= IndexOf(ImportantProps, es[j].name)
  {
    FirstPassInListOrder(ImportantProps, sd.properties.Buckets());
  }

  /** The lines of a rendered declaration list. */
  function Line(e: Entry): string
  {
    "  " + e.name + ": " + e.value + ";"
  }

  function Lines(es: seq<Entry>): (ls: seq<string>)
    ensures |ls| == |es|
    ensures forall i :: 0 <= i < |es| ==> ls[i] == Line(es[i])
  {
    seq(|es|, i requires 0 <= i < |es| => Line(es[i]))
  }

  /** Reading one line back: the name runs to the first ':', the value from
      after ': ' to the closing ';'. */
  function ParseLine(l: string): Option<Entry>
  {
    if |l| >= 3 && l[..2] == "  " && l[|l| - 1] == ';' then
      var parts := Split(l[2..|l| - 1], ':');
      if |parts| >= 2 && StartsWith(Join(parts[1..], ':'), " ") then
        Some(Entry(parts[0], Join(parts[1..], ':')[1..]))
      else None
    else None
  }

  function ParseLines(ls: seq<string>): Option<seq<Entry>>
    decreases |ls|
  {
    if |ls| == 0 then Some([])
    else match (ParseLine(ls[0]), ParseLines(ls[1..]))
      case (Some(e), Some(es)) => Some([e] + es)
      case _ => None
  }

  /** Property names never hold ':' and neither part holds a line break. */
  predicate Readable(e: Entry)
  {
    ':' !in e.name && '\n' !in e.name && '\n' !in e.value
  }

  lemma {:induction false} SplitAtFirst(a: string, b: string, sep: char)
    requires sep !in a
    ensures Split(a + [sep] + b, sep) == [a] + Split(b, sep)
    decreases |a|
  {
    if |a| == 0 {
      assert a + [sep] + b == [sep] + b;
      assert ([sep] + b)[1..] == b;
    } else {
      assert (a + [sep] + b)[1..] == a[1..] + [sep] + b;
      assert a[0] in a;
      assert forall c :: c in a[1..] ==> c in a;
      SplitAtFirst(a[1..], b, sep);
      assert [a[0]] + a[1..] == a;
    }
  }

  lemma ParseLineBack(e: Entry)
    requires Readable(e)
    ensures ParseLine(Line(e)) == Some(e)
  {
    var l := Line(e);
    var body := e.name + [':'] + (" " + e.value);
    assert l[2..|l| - 1] == body;
    SplitAtFirst(e.name, " " + e.value, ':');
    var parts := Split(body, ':');
    assert parts[1..] == Split(" " + e.value, ':');
    JoinSplit(" " + e.value, ':');
    assert (" " + e.value)[1..] == e.value;
  }

  lemma DeclIsLine(e: Entry)
    ensures Decl(e) == Line(e) + ['\n']
  {
  }

  lemma LinesCons(es: seq<Entry>)
    requires |es| > 0
    ensures Lines(es) + [""] == [Line(es[0])] + (Lines(es[1..]) + [""])
  {
  }

  lemma {:induction false} RenderAsLines(es: seq<Entry>)
    ensures Render(es) == Join(Lines(es) + [""], '\n')
    decreases |es|
  {
    if |es| > 0 {
      var rest := Lines(es[1..]) + [""];
      RenderAsLines(es[1..]);
      LinesCons(es);
      JoinCons(Line(es[0]), rest, '\n');
      DeclIsLine(es[0]);
      assert Render(es) == Decl(es[0]) + Render(es[1..]);
    }
  }

  lemma ParseLinesCons(ls: seq<string>, e: Entry, es: seq<Entry>)
    requires |ls| > 0 && ParseLine(ls[0]) == Some(e) && ParseLines(ls[1..]) == Some(es)
    ensures ParseLines(ls) == Some([e] + es)
  {
  }

  lemma {:induction false} ParseLinesBack(es: seq<Entry>)
    requires forall e :: e in es ==> Readable(e)
    ensures ParseLines(Lines(es)) == Some(es)
    decreases |es|
  {
    if |es| > 0 {
      var ls := Lines(es);
      assert es[0] in es;
      assert forall e :: e in es[1..] ==> e in es;
      ParseLineBack(es[0]);
      ParseLinesBack(es[1..]);
      assert ls[0] == Line(es[0]) && ls[1..] == Lines(es[1..]);
      ParseLinesCons(ls, es[0], es[1..]);
      assert [es[0]] + es[1..] == es;
    }
  }

  lemma LineHasNoBreak(e: Entry)
    requires Readable(e)
    ensures '\n' !in Line(e)
  {
  }

  lemma LinesHaveNoBreak(es: seq<Entry>)
    requires forall e :: e in es ==> Readable(e)
    ensures forall l :: l in Lines(es) + [""] ==> '\n' !in l
  {
    forall l | l in Lines(es) + [""]
      ensures '\n' !in l
    {
      if l != "" {
        var i :| 0 <= i < |es| && Lines(es)[i] == l;
        assert es[i] in es;
        LineHasNoBreak(es[i]);
      }
    }
  }

  /** Every written declaration is the line "  prop: value;": cutting the
      rendered text at line breaks and reading each line back recovers the
      declarations, for names without ':' and text without line breaks. */
  lemma RenderReadsBack(es: seq<Entry>)
    requires forall e :: e in es ==> Readable(e)
    ensures var ls := Split(Render(es), '\n');
      |ls| == |es| + 1 && ls[|es|] == "" && ParseLines(ls[..|es|]) == Some(es)
  {
    RenderAsLines(es);
    LinesHaveNoBreak(es);
    SplitJoin(Lines(es) + [""], '\n');
    assert (Lines(es) + [""])[..|es|] == Lines(es);
    ParseLinesBack(es);
  }

  // ---------------------------------------------------------------------
  // generateTailwindClasses
  // ---------------------------------------------------------------------

  const DisplayValues: seq<string> := ["block", "inline", "inline-block", "flex", "inline-flex", "grid", "hidden"]

  /** Every class a table can produce. */
  const TableClasses: seq<string> :=
    DisplayValues +
    ["text-left", "text-center", "text-right", "text-justify"] +
    ["font-thin", "font-extralight", "font-light", "font-normal", "font-medium",
     "font-semibold", "font-bold", "font-extrabold", "font-black"]

  /** The converter for a property and value: null (None) for a property
      without a converter or a value missing from its table. */
  function Convert(e: Entry): Option<string>
  {
    if e.name == "display" then
      if e.value in DisplayValues then Some(e.value) else None
    else if e.name == "text-align" then
      if e.value == "left" then Some("text-left")
      else if e.value == "center" then Some("text-center")
      else if e.value == "right" then Some("text-right")
      else if e.value == "justify" then Some("text-justify")
      else None
    else if e.name == "font-weight" then
      if e.value == "100" then Some("font-thin")
      else if e.value == "200" then Some("font-extralight")
      else if e.value == "300" then Some("font-light")
      else if e.value == "400" then Some("font-normal")
      else if e.value == "500" then Some("font-medium")
      else if e.value == "600" then Some("font-semibold")
      else if e.value == "700" then Some("font-bold")
      else if e.value == "800" then Some("font-extrabold")
      else if e.value == "900" then Some("font-black")
      else None
    else None
  }

  /** Only display, text-align and font-weight have converters, and every
      converted class is a value of their tables. */
  lemma ConvertOnlyTables(e: Entry)
    ensures Convert(e).Some? ==> e.name in ["display", "text-align", "font-weight"] && Convert(e).value in TableClasses
    ensures e.name !in ["display", "text-align", "font-weight"] ==> Convert(e) == None
  {
  }

  /** The classes after converting `es` in order onto `existing`: a
      converted class is added at the end unless already present. */
  function TailwindList(existing: seq<string>, es: seq<Entry>): (cs: seq<string>)
    ensures |cs| >= |existing|
    decreases |es|
  {
    if |es| == 0 then existing
    else
      var prev := TailwindList(existing, es[..|es| - 1]);
      match Convert(es[|es| - 1])
      case Some(c) => if c in prev then prev else prev + [c]
      case None => prev
  }

  /** The existing classes stay first and in order; the list holds exactly
      the existing classes and every class converted from `es`; what follows
      the existing classes is new and appears once. */
  lemma {:induction false} TailwindListProps(existing: seq<string>, es: seq<Entry>)
    ensures var cs := TailwindList(existing, es);
      && |cs| >= |existing| && cs[..|existing|] == existing
      && (forall c :: c in cs <==> c in existing || exists e :: e in es && Convert(e) == Some(c))
      && Distinct(cs[|existing|..])
      && (forall c :: c in cs[|existing|..] ==> c !in existing)
    decreases |es|
  {
    if |es| == 0 {
      assert existing[|existing|..] == [];
    } else {
      var prev := TailwindList(existing, es[..|es| - 1]);
      var last := es[|es| - 1];
      TailwindListProps(existing, es[..|es| - 1]);
      assert forall e :: e in es <==> e in es[..|es| - 1] || e == last;
      match Convert(last)
      case Some(c) =>
        if c !in prev {
          var cs := prev + [c];
          assert cs[..|existing|] == prev[..|existing|];
          assert cs[|existing|..] == prev[|existing|..] + [c];
          assert forall x :: x in prev[|existing|..] ==> x in prev;
        }
      case None =>
    }
  }

  /** The classes already on the element (an absent list is empty). */
  function Existing(sd: StyleData): seq<string>
  {
    match sd.tailwindClasses
    case Some(cs) => cs
    case None => []
  }

  /** The entries of all categories, category after category. */
  function Flatten(bs: seq<Record>): seq<Entry>
    decreases |bs|
  {
    if |bs| == 0 then [] else Flatten(bs[..|bs| - 1]) + bs[|bs| - 1]
  }

  /** The class list generateTailwindClasses joins. */
  function TailwindClasses(sd: StyleData): seq<string>
  {
    TailwindList(Existing(sd), Flatten(sd.properties.Buckets()))
  }

  /** One more entry: its class is appended when it has one that is new. */
  lemma TailwindListStep(existing: seq<string>, es: seq<Entry>, e: Entry)
    ensures TailwindList(existing, es + [e]) ==
      if Convert(e).Some? && Convert(e).value !in TailwindList(existing, es) then TailwindList(existing, es) + [Convert(e).value]
      else TailwindList(existing, es)
  {
    assert (es + [e])[..|es|] == es;
  }

  /** The inner forEach: converts the entries of one category in order. */
  method AddConverted(classes: seq<string>, ghost existing: seq<string>, ghost done: seq<Entry>, b: Record)
    returns (classes': seq<string>)
    requires classes == TailwindList(existing, done)
    ensures classes' == TailwindList(existing, done + b)
  {
    classes' := classes;
    var k := 0;
    assert done + b[..0] == done;
    while k < |b|
      invariant 0 <= k <= |b|
      invariant classes' == TailwindList(existing, done + b[..k])
    {
      var current := classes';
      var converted := Convert(b[k]);
      AppendPrefixStep(done, b, k);
      TailwindListStep(existing, done + b[..k], b[k]);
      if converted.Some? && converted.value !in current {
        classes' := current + [converted.value];
      }
      k := k + 1;
    }
    assert b[..k] == b;
  }

  /** generateTailwindClasses. */
  method GenerateTailwindClasses(sd: StyleData) returns (text: string)
    ensures text == Join(TailwindClasses(sd), ' ')
  {
    var existing := match sd.tailwindClasses case Some(cs) => cs case None => [];
    var classes := existing;
    var bs := sd.properties.Buckets();
    var j := 0;
    while j < |bs|
      invariant 0 <= j <= |bs|
      invariant classes == TailwindList(existing, Flatten(bs[..j]))
    {
      assert bs[..j + 1][..j] == bs[..j];
      classes := AddConverted(classes, existing, Flatten(bs[..j]), bs[j]);
      j := j + 1;
    }
    assert bs[..j] == bs;
    text := Join(classes, ' ');
  }

  /** The element's own classes come first, in their order; every class
      after them is new, appears once, and was produced by a table from some
      property of the style. */
  lemma TailwindClassesShape(sd: StyleData)
    ensures var cs := TailwindClasses(sd);
      && cs[..|Existing(sd)|] == Existing(sd)
      && Distinct(cs[|Existing(sd)|..])
      && forall c :: c in cs[|Existing(sd)|..] ==>
           c !in Existing(sd) && c in TableClasses &&
           exists e :: e in Flatten(sd.properties.Buckets()) && Convert(e) == Some(c)
  {
    var cs := TailwindClasses(sd);
    TailwindListProps(Existing(sd), Flatten(sd.properties.Buckets()));
    forall c | c in cs[|Existing(sd)|..]
      ensures c in TableClasses && exists e :: e in Flatten(sd.properties.Buckets()) && Convert(e) == Some(c)
    {
      assert c in cs;
      var e :| e in Flatten(sd.properties.Buckets()) && Convert(e) == Some(c);
      ConvertOnlyTables(e);
    }
  }

  /** Each class the tables produce is in the output, with the element's own. */
  lemma TailwindClassesComplete(sd: StyleData, e: Entry)
    requires e in Flatten(sd.properties.Buckets()) && Convert(e).Some?
    ensures Convert(e).value in TailwindClasses(sd)
  {
    TailwindListProps(Existing(sd), Flatten(sd.properties.Buckets()));
  }

  lemma TableClassesHaveNoSpace()
    ensures forall c :: c in TableClasses ==> ' ' !in c
  {
  }

  /** When no class holds a space, the joined text splits back into the list. */
  lemma TailwindTextSplitsBack(sd: StyleData)
    requires forall c :: c in Existing(sd) ==> ' ' !in c
    requires |TailwindClasses(sd)| > 0
    ensures Split(Join(TailwindClasses(sd), ' '), ' ') == TailwindClasses(sd)
  {
    var cs := TailwindClasses(sd);
    TailwindClassesShape(sd);
    TableClassesHaveNoSpace();
    TailwindListProps(Existing(sd), Flatten(sd.properties.Buckets()));
    forall c | c in cs
      ensures ' ' !in c
    {
      if c !in Existing(sd) {
        var e :| e in Flatten(sd.properties.Buckets()) && Convert(e) == Some(c);
      }
    }
    SplitJoin(cs, ' ');
  }

  lemma NotPrefixedBy(c: string, p: string)
    requires |p| >= 2 && |c| >= 2 && (c[0] != p[0] || c[1] != p[1])
    ensures !StartsWith(c, p)
  {
  }

  /** Where a name starting with b (not bg- or bo…), with h (not h-) or
      with i cannot match: no listed literal and no listed prefix. */
  predicate OddStart(c: string)
  {
    |c| >= 2 && (c[0] == 'i' || (c[0] == 'b' && c[1] != 'g' && c[1] != 'o') || (c[0] == 'h' && c[1] != '-'))
  }

  lemma NoLiteralPatternFor(c: string)
    requires OddStart(c)
    ensures !SpacingPattern(c) && !FontSizePattern(c) && !TextAlignPattern(c) && !FontWeightPattern(c)
    ensures !RoundedPattern(c) && !ShadowPattern(c) && !FlexPattern(c)
  {
    FirstCharRulesOut(c, FontSizeNames, 't');
    FirstCharRulesOut(c, TextAlignNames, 't');
    FirstCharRulesOut(c, FontWeightNames, 'f');
    FirstCharRulesOut(c, RoundedNames, 'r');
    FirstCharRulesOut(c, ShadowNames, 's');
    FirstCharRulesOut(c, FlexNames, 'f');
  }

  /** A name is not listed when every listed name starts with another letter. */
  lemma FirstCharRulesOut(c: string, names: seq<string>, first: char)
    requires |c| >= 1 && c[0] != first
    requires forall i :: 0 <= i < |names| ==> |names[i]| >= 1 && names[i][0] == first
    ensures c !in names
  {
    forall i | 0 <= i < |names|
      ensures names[i] != c
    {
    }
  }

  lemma NoPrefixPatternFor(c: string)
    requires OddStart(c)
    ensures !GridPattern(c)
    ensures !ColorPattern(c, "bg") && !ColorPattern(c, "text") && !ColorPattern(c, "border")
    ensures !SizePattern(c, "w-") && !SizePattern(c, "h-") && !MinMaxPattern(c)
  {
    NoColorPatternFor(c);
    NoSizePatternFor(c);
  }

  lemma NoColorPatternFor(c: string)
    requires OddStart(c)
    ensures !GridPattern(c)
    ensures !ColorPattern(c, "bg") && !ColorPattern(c, "text") && !ColorPattern(c, "border")
  {
    NotPrefixedBy(c, "bg-");
    NotPrefixedBy(c, "text-");
    NotPrefixedBy(c, "border-");
    NotPrefixedBy(c, "grid-cols-");
  }

  lemma NoSizePatternFor(c: string)
    requires OddStart(c)
    ensures !SizePattern(c, "w-") && !SizePattern(c, "h-") && !MinMaxPattern(c)
  {
    NotPrefixedBy(c, "w-");
    NotPrefixedBy(c, "h-");
    NotPrefixedBy(c, "min-w-");
    NotPrefixedBy(c, "min-h-");
    NotPrefixedBy(c, "max-w-");
    NotPrefixedBy(c, "max-h-");
  }

  lemma NoPatternFor(c: string)
    requires OddStart(c)
    ensures !IsTailwindClass(c)
  {
    NoLiteralPatternFor(c);
    NoPrefixPatternFor(c);
  }

  /** The converter tables and the extraction patterns disagree on display
      classes: a generated class is recognised as Tailwind except for block,
      inline, inline-block, inline-flex and hidden. */
  lemma ConvertedClassesRecognised(e: Entry)
    requires Convert(e).Some?
    ensures IsTailwindClass(Convert(e).value) <==>
      Convert(e).value !in ["block", "inline", "inline-block", "inline-flex", "hidden"]
  {
    var c := Convert(e).value;
    if c in ["block", "inline", "inline-block", "inline-flex", "hidden"] {
      NoPatternFor(c);
    }
  }
}

=== FILE: style_inspector_panel.dfy ===
/** The style inspector panel: the saved-style list and its count, the
    expanded entries, and the inspection flags, as the message handlers and
    buttons update them. Extension storage is the `stored` field; the
    storage callbacks run right after the write. */
module StyleInspectorPanel {
  import opened Common
  import opened StyleTypes

  /** The saved styles whose id differs from `id`, in their order. */
  function WithoutStyle(styles: seq<SavedStyle>, id: string): (kept: seq<SavedStyle>)
    ensures forall s :: s in kept <==> s in styles && s.id != id
    ensures |kept| <= |styles|
  {
    Filter(styles, (s: SavedStyle) => s.id != id)
  }

  /** Deleting keeps the other styles in their order: deleting from a list
      is deleting from each part, and deleting again changes nothing. */
  lemma DeleteKeepsOthers(a: seq<SavedStyle>, b: seq<SavedStyle>, id: string)
    ensures WithoutStyle(a + b, id) == WithoutStyle(a, id) + WithoutStyle(b, id)
    ensures WithoutStyle(WithoutStyle(a, id), id) == WithoutStyle(a, id)
  {
    FilterAppend(a, b, (s: SavedStyle) => s.id != id);
    FilterIdempotent(a, (s: SavedStyle) => s.id != id);
  }

  /** Deleting an id no saved style has changes nothing. */
  lemma DeleteAbsent(styles: seq<SavedStyle>, id: string)
    requires forall s :: s in styles ==> s.id != id
    ensures WithoutStyle(styles, id) == styles
  {
    FilterAll(styles, (s: SavedStyle) => s.id != id);
  }

  class Panel {
    var isInspecting: bool
    var styleData: Option<StyleData>
    var savedCount: nat
    var savedStyles: seq<SavedStyle>
    /** The last hover description sent by the page, if any. */
    var hoverInfo: Option<string>
    var expandedStyles: set<string>
    /** The 'savedStyles' entry of extension storage. */
    var stored: seq<SavedStyle>

    /** The count shown is the length of the list shown. */
    ghost predicate Valid()
      reads this
    {
      savedCount == |savedStyles|
    }

    /** A freshly opened panel over the given storage. */
    constructor (stored: seq<SavedStyle>)
      ensures Valid()
      ensures !isInspecting && styleData == None && savedStyles == [] && hoverInfo == None
      ensures expandedStyles == {} && this.stored == stored
    {
      isInspecting := false;
      styleData := None;
      savedCount := 0;
      savedStyles := [];
      hoverInfo := None;
      expandedStyles := {};
      this.stored := stored;
    }

    /** loadSavedStyles: the list and count become the stored list. */
    method LoadSavedStyles()
      modifies this`savedStyles, this`savedCount
      ensures Valid() && savedStyles == stored
    {
      var styles := stored;
      savedStyles := styles;
      savedCount := |styles|;
    }

    /** The styleExtracted message: the extracted data is shown and the
        inspection is over (the fallback reload is a separate
        LoadSavedStyles). */
    method StyleExtracted(data: StyleData)
      modifies this`styleData, this`isInspecting
      ensures styleData == Some(data) && !isInspecting
    {
      styleData := Some(data);
      isInspecting := false;
    }

    /** The stylesSaved message: the list and count become the list sent. */
    method StylesSaved(styles: seq<SavedStyle>)
      modifies this`savedStyles, this`savedCount
      ensures Valid() && savedStyles == styles
    {
      savedStyles := styles;
      savedCount := |styles|;
    }

    /** The hoverInfo window message. */
    method HoverInfo(info: string)
      modifies this`hoverInfo
      ensures hoverInfo == Some(info)
    {
      hoverInfo := Some(info);
    }

    /** The inspectionStopped window message. */
    method InspectionStopped()
      modifies this`isInspecting, this`hoverInfo
      ensures !isInspecting && hoverInfo == None
    {
      isInspecting := false;
      hoverInfo := None;
    }

    /** startInspecting and stopInspecting: the flag follows the request
        only when the request was delivered. */
    method SetInspecting(on: bool, delivered: bool)
      modifies this`isInspecting
      ensures isInspecting == if delivered then on else old(isInspecting)
    {
      if delivered {
        isInspecting := on;
      }
    }

    /** clearSavedStyles: once confirmed, storage and the list are emptied,
        the count is 0 and the extracted data is dropped; otherwise nothing
        changes. */
    method ClearSavedStyles(confirmed: bool)
      requires Valid()
      modifies this`stored, this`savedStyles, this`savedCount, this`styleData
      ensures Valid()
      ensures confirmed ==> stored == [] && savedStyles == [] && savedCount == 0 && styleData == None
      ensures !confirmed ==> stored == old(stored) && savedStyles == old(savedStyles) && styleData == old(styleData)
    {
      if confirmed {
        stored := [];
        savedStyles := [];
        savedCount := 0;
        styleData := None;
      }
    }

    /** deleteSavedStyle: the list without that id is written to storage and
        shown, with its length as the count. */
    method DeleteSavedStyle(id: string)
      modifies this`stored, this`savedStyles, this`savedCount
      ensures Valid()
      ensures savedStyles == WithoutStyle(old(savedStyles), id) && stored == savedStyles
    {
      var updated := WithoutStyle(savedStyles, id);
      stored := updated;
      savedStyles := updated;
      savedCount := |updated|;
    }

    /** toggleStyleExpansion. */
    method ToggleStyleExpansion(id: string)
      modifies this`expandedStyles
      ensures expandedStyles == Toggled(old(expandedStyles), id)
    {
      var expanded := expandedStyles;
      if id in expanded {
        expanded := expanded - {id};
      } else {
        expanded := expanded + {id};
      }
      expandedStyles := expanded;
    }
  }

  /** A session of the panel: open it, load, delete `id` and reload. The
      count matches the list throughout, and the reloaded list is the stored
      one without `id`. */
  method DeleteThenReload(stored: seq<SavedStyle>, id: string) returns (shown: seq<SavedStyle>, count: nat)
    ensures shown == WithoutStyle(stored, id) && count == |shown|
  {
    var panel := new Panel(stored);
    panel.LoadSavedStyles();
    panel.DeleteSavedStyle(id);
    panel.LoadSavedStyles();
    shown := panel.savedStyles;
    count := panel.savedCount;
  }
}

=== FILE: style_types.dfy ===
/** The style data the inspector extracts from an element: a selector, the
    computed properties sorted into five categories, and the Tailwind classes
    already on the element.

    A category is a plain JavaScript object from property name to value. It is
    modelled as the list of its entries in insertion order, which is the order
    Object.entries reports for non-numeric keys; assigning to a key that is
    already present replaces its value where it stands. */
module StyleTypes {
  import opened Common

  datatype Entry = Entry(name: string, value: string)

  /** A Record<string, string>, entries in insertion order. */
  type Record = seq<Entry>

  /** Object.keys(r), in order. */
  function Names(r: Record): (ns: seq<string>)
    ensures |ns| == |r|
    ensures forall i :: 0 <= i < |r| ==> ns[i] == r[i].name
  {
    if |r| == 0 then [] else [r[0].name] + Names(r[1..])
  }

  predicate HasKey(r: Record, k: string)
  {
    k in Names(r)
  }

  /** No key occurs twice: every record built with Put has this shape. */
  predicate KeysDistinct(r: Record)
  {
    Distinct(Names(r))
  }

  /** r[k]: the value stored under `k`, if any. */
  function Lookup(r: Record, k: string): (v: Option<string>)
    ensures v.Some? <==> HasKey(r, k)
    ensures v.Some? ==> Entry(k, v.value) in r
    decreases |r|
  {
    if |r| == 0 then None
    else if r[0].name == k then Some(r[0].value)
    else
      assert Names(r) == [r[0].name] + Names(r[1..]);
      Lookup(r[1..], k)
  }

  /** r[k] = v: replaces the value of an existing key in place, otherwise
      adds the key at the end. */
  function Put(r: Record, k: string, v: string): (r': Record)
    ensures Names(r') == if HasKey(r, k) then Names(r) else Names(r) + [k]
    decreases |r|
  {
    if |r| == 0 then [Entry(k, v)]
    else if r[0].name == k then
      var r' := [Entry(k, v)] + r[1..];
      assert Names(r') == Names(r);
      r'
    else
      var rest := Put(r[1..], k, v);
      assert Names(r) == [r[0].name] + Names(r[1..]);
      assert Names([r[0]] + rest) == [r[0].name] + Names(rest);
      [r[0]] + rest
  }

  lemma NamesAppend(r: Record, s: Record)
    ensures Names(r + s) == Names(r) + Names(s)
  {
  }

  /** After r[k] = v, reading k gives v and every other key reads as before. */
  lemma {:induction false} PutLookup(r: Record, k: string, v: string, k': string)
    ensures Lookup(Put(r, k, v), k) == Some(v)
    ensures k' != k ==> Lookup(Put(r, k, v), k') == Lookup(r, k')
    decreases |r|
  {
    if |r| > 0 && r[0].name != k {
      var rest := Put(r[1..], k, v);
      PutLookup(r[1..], k, v, k');
      assert ([r[0]] + rest)[1..] == rest;
    } else if |r| > 0 {
      assert ([Entry(k, v)] + r[1..])[1..] == r[1..];
    }
  }

  /** The categorised properties; the categories are listed in the order
      the categoriser creates them. */
  datatype Properties = Properties(layout: Record, typography: Record, colors: Record, spacing: Record, others: Record)
  {
    /** Object.entries(properties), values only. */
    function Buckets(): (bs: seq<Record>)
      ensures |bs| == 5
    {
      [layout, typography, colors, spacing, others]
    }
  }

  /** The five empty categories. */
  const NoProperties := Properties([], [], [], [], [])

  /** StyleData without the live computed-style object; an absent
      tailwindClasses is None. */
  datatype StyleData = StyleData(selector: string, properties: Properties, tailwindClasses: Option<seq<string>>)

  /** An entry of the 'savedStyles' list in extension storage. */
  datatype SavedStyle = SavedStyle(id: string, timestamp: string, selector: string, properties: Properties, css: string, tailwind: string)
}

=== FILE: video_recorder_panel.dfy ===
/** The video recorder panel: how it prints a duration, and how its list of
    recordings follows the stop and delete buttons.

    The recording service itself is the RecorderService module; here its
    answers (the finished recording, or the error it threw) are inputs. */
module VideoRecorderPanel {
  import opened Common
  import opened Strings
  import opened RecorderService

  // ---------------------------------------------------------------------
  // formatDuration

  /** formatDuration: whole seconds only, shown as `m:ss` below an hour and
      as `h:mm:ss` from an hour on. */
  function FormatDuration(ms: nat): string
  {
    var seconds := ms / 1000;
    var minutes := seconds / 60;
    var hours := minutes / 60;
    if hours > 0 then
      NatToString(hours) + ":" + Pad2(NatToString(minutes % 60)) + ":" + Pad2(NatToString(seconds % 60))
    else
      NatToString(minutes) + ":" + Pad2(NatToString(seconds % 60))
  }

  /** Reading a clock text back: `m:ss` or `h:mm:ss` as a number of seconds.
      Anything else is not a clock. */
  function ReadClock(text: string): Option<nat>
  {
    var parts := Split(text, ':');
    if |parts| == 2 then
      match (ParseNat(parts[0]), ParseNat(parts[1]))
      case (Some(m), Some(s)) => Some(m * 60 + s)
      case _ => None
    else if |parts| == 3 then
      match (ParseNat(parts[0]), ParseNat(parts[1]), ParseNat(parts[2]))
      case (Some(h), Some(m), Some(s)) => Some(h * 3600 + m * 60 + s)
      case _ => None
    else None
  }

  /** The fields after the first of a clock text: two digits, below 60. */
  predicate TwoDigitField(p: string)
  {
    |p| == 2 && AllDigits(p) && ParseNat(p).Some? && ParseNat(p).value < 60
  }

  lemma DigitsHaveNoColon(s: string)
    requires AllDigits(s)
    ensures ':' !in s
  {
  }

  /** The field texts of the clock, before they are joined with ':'. */
  function ClockFields(ms: nat): (fields: seq<string>)
    ensures |fields| == if ms / 1000 / 60 / 60 > 0 then 3 else 2
  {
    var seconds := ms / 1000;
    var minutes := seconds / 60;
    var hours := minutes / 60;
    if hours > 0 then [NatToString(hours), Pad2(NatToString(minutes % 60)), Pad2(NatToString(seconds % 60))]
    else [NatToString(minutes), Pad2(NatToString(seconds % 60))]
  }

  lemma ClockFieldsJoined(ms: nat)
    ensures FormatDuration(ms) == Join(ClockFields(ms), ':')
  {
    var f := ClockFields(ms);
    if |f| == 3 {
      assert f[1..][1..] == [f[2]];
      assert Join(f[1..], ':') == f[1] + [':'] + f[2];
    } else {
      assert Join(f, ':') == f[0] + [':'] + f[1];
    }
  }

  /** Cutting the clock at ':' gives back its fields. */
  lemma ClockSplit(ms: nat)
    ensures Split(FormatDuration(ms), ':') == ClockFields(ms)
  {
    var f := ClockFields(ms);
    forall p | p in f
      ensures ':' !in p
    {
      DigitsHaveNoColon(p);
    }
    ClockFieldsJoined(ms);
    SplitJoin(f, ':');
  }

  /** The clock has three fields from one hour on and two below; the first
      is a decimal number and every later one is two digits below 60. */
  lemma {:induction false} FormatDurationShape(ms: nat)
    ensures var parts := Split(FormatDuration(ms), ':');
      && |parts| == (if ms >= 3600000 then 3 else 2)
      && ParseNat(parts[0]).Some?
      && (forall k :: 1 <= k < |parts| ==> TwoDigitField(parts[k]))
  {
    var seconds := ms / 1000;
    var minutes := seconds / 60;
    assert minutes / 60 > 0 <==> ms >= 3600000;
    ClockSplit(ms);
    Pad2Parse(seconds % 60);
    Pad2Parse(minutes % 60);
    ParsePrinted(minutes);
    ParsePrinted(minutes / 60);
  }

  /** Whole seconds as hours, minutes and seconds. */
  lemma ClockArithmetic(seconds: nat)
    ensures seconds == (seconds / 60) * 60 + seconds % 60
    ensures seconds == (seconds / 60 / 60) * 3600 + (seconds / 60 % 60) * 60 + seconds % 60
  {
    var minutes := seconds / 60;
    assert minutes == (minutes / 60) * 60 + minutes % 60;
  }

  /** Reading the clock back gives the whole seconds of the duration: the
      sub-second part is dropped and nothing else is lost. */
  lemma {:induction false} FormatDurationReadsBack(ms: nat)
    ensures ReadClock(FormatDuration(ms)) == Some(ms / 1000)
  {
    var f := ClockFields(ms);
    var seconds := ms / 1000;
    var minutes := seconds / 60;
    var hours := minutes / 60;
    ClockSplit(ms);
    ClockArithmetic(seconds);
    Pad2Parse(seconds % 60);
    if hours > 0 {
      Pad2Parse(minutes % 60);
      ParsePrinted(hours);
      ReadThreeFields(FormatDuration(ms), hours, minutes % 60, seconds % 60);
    } else {
      ParsePrinted(minutes);
      ReadTwoFields(FormatDuration(ms), minutes, seconds % 60);
    }
  }

  lemma ReadTwoFields(text: string, m: nat, s: nat)
    requires var parts := Split(text, ':');
      |parts| == 2 && ParseNat(parts[0]) == Some(m) && ParseNat(parts[1]) == Some(s)
    ensures ReadClock(text) == Some(m * 60 + s)
  {
  }

  lemma ReadThreeFields(text: string, h: nat, m: nat, s: nat)
    requires var parts := Split(text, ':');
      |parts| == 3 && ParseNat(parts[0]) == Some(h) && ParseNat(parts[1]) == Some(m) && ParseNat(parts[2]) == Some(s)
    ensures ReadClock(text) == Some(h * 3600 + m * 60 + s)
  {
  }

  /** Two durations print alike exactly when they have the same whole
      seconds. */
  lemma FormatDurationSameSeconds(a: nat, b: nat)
    ensures FormatDuration(a) == FormatDuration(b) <==> a / 1000 == b / 1000
  {
    FormatDurationReadsBack(a);
    FormatDurationReadsBack(b);
    if a / 1000 == b / 1000 {
      assert FormatDuration(a) == FormatDuration(b);
    }
  }

  // ---------------------------------------------------------------------
  // The recordings list of the panel

  class Panel {
    var isRecording: bool
    var recordings: seq<RecordingData>
    var recordingDuration: int

    /** A freshly mounted panel: not recording, no recordings, duration 0. */
    constructor ()
      ensures !isRecording && recordings == [] && recordingDuration == 0
    {
      isRecording := false;
      recordings := [];
      recordingDuration := 0;
    }

    /** loadRecordings: the stored list is shown; when reading it fails the
        list stays as it was. */
    method LoadRecordings(loaded: Result<seq<RecordingData>, string>)
      modifies this`recordings
      ensures recordings == if loaded.Ok? then loaded.value else old(recordings)
    {
      match loaded
      case Ok(stored) =>
        recordings := stored;
      case Err(_) =>
    }

    /** startRecording: the panel records once the service has started;
        when the service throws, nothing changes (the message is shown in an
        alert). */
    method StartRecording(started: Result<(), string>)
      modifies this`isRecording
      ensures isRecording == (started.Ok? || old(isRecording))
    {
      if started.Ok? {
        isRecording := true;
      }
    }

    /** One tick of the one-second interval that runs while recording: the
        duration shown becomes the service's current duration. */
    method PollDuration(serviceDuration: int)
      modifies this`recordingDuration
      ensures recordingDuration == if isRecording then serviceDuration else old(recordingDuration)
    {
      if isRecording {
        recordingDuration := serviceDuration;
      }
    }

    /** stopRecording: the service's new recording goes to the front of the
        list and the duration shown returns to 0; when the service throws,
        the list and duration stay as they were. Either way the panel is no
        longer recording. */
    method StopRecording(stopped: Result<RecordingData, string>)
      modifies this
      ensures !isRecording
      ensures stopped.Ok? ==> recordings == [stopped.value] + old(recordings) && recordingDuration == 0
      ensures stopped.Err? ==> recordings == old(recordings) && recordingDuration == old(recordingDuration)
    {
      match stopped
      case Ok(recording) =>
        isRecording := false;
        recordingDuration := 0;
        recordings := [recording] + recordings;
      case Err(_) =>
        isRecording := false;
    }

    /** deleteRecording: only after the user confirms, and only when the
        service deleted it, the recordings with that id leave the list. */
    method DeleteRecording(id: string, confirmed: bool, deleted: Result<(), string>)
      modifies this`recordings
      ensures recordings == if confirmed && deleted.Ok? then WithoutId(old(recordings), id) else old(recordings)
    {
      if confirmed {
        match deleted
        case Ok(_) =>
          recordings := WithoutId(recordings, id);
        case Err(_) =>
      }
    }
  }

  /** The panel's list and the stored list hold the same recordings (the
      panel shows newer ones first) and keep doing so through a stop, which
      the panel puts in front and the service appends, and through a delete,
      which both apply. */
  lemma {:induction false} PanelMatchesStore(shown: seq<RecordingData>, stored: seq<RecordingData>, r: RecordingData, id: string)
    requires multiset(shown) == multiset(stored)
    ensures multiset([r] + shown) == multiset(stored + [r])
    ensures multiset(WithoutId(shown, id)) == multiset(WithoutId(stored, id))
  {
    FilterSameElements(shown, stored, (x: RecordingData) => x.id != id);
  }
}
